=== FILE: README.md ===
# e-Consulaire RDC (ConsulConnect): business rules in Dafny

This project models the rules of the e-Consulaire portal of the Democratic
Republic of the Congo: citizens file consular applications, consular agents
take and process them, unit administrators configure the services of their
consular unit, and supervisors manage users, units and the service catalogue.
Flask, SQLAlchemy and the templates are replaced by immutable records and
tables (sequences and maps) and by pure functions returning the new state
with an outcome. The clock, the year, random digits, password checks, PDF
generation and the outcome of every external process are parameters.

The modules follow the program's components:

- `Domain` holds the records (users, applications, history rows, notifications, units, services, unit configurations), status and role codes, display labels and reference numbers.
- `Access` covers the role gates, login portals, registration, the profile page and the owner-or-staff rule.
- `Workflow` covers submission, the agent's take and process transitions and the generic status update.
- `Notifications` models the notification service at the top level and `BackendNotifications` the one in the `backend` package, the two compared side by side.
- `Supervision` covers the supervisor's statistics, user creation and the activation of users, units and services (with the cascade to unit configurations).
- `UnitConfig` covers the unit administrator's service listing, the configuration upsert and toggle.
- `Crud` models the CRUD routes of the `backend` package and `AdminApi` the JSON administration API.
- `Helpers` covers the allowed-file checks and the resolution of a user's consular unit (normalisation, aliases, match priority).
- `Security` covers input sanitizing, the token comparison, upload validation and the security service's rate limiter.
- `Middleware` covers the request middleware: CSRF check, second rate limiter, request sanitizing, security headers, suspicious-pattern log and hook order.
- `Migrations` covers pending-migration selection, running, migration file generation and the backup step of an update.
- `Backups` covers backup names and stamps, listing, retention, the scheduled runs and restoring.
- `ClientForms` and `UploadLimits` model the browser scripts: form checks, phone formatting, file selection, character counter, "other" fields and upload size limits.
- `Text`, `Seqs`, `Sorting` and `Wrappers` hold Python and JavaScript string built-ins, query helpers, `sorted` on strings, and `Option`/`Result`.

## Model

| member | source | states |
|---|---|---|
| Access.Admits | routes_agent.py:11-29 | only a logged-in user passes a gate; the unit-scoped gates also demand a truthy unit id |
| Access.AreasAreStaffOnly | routes_admin.py:12-30 | each area admits exactly its one role (agent, admin or superviseur), unit areas add the unit test, every admitted role is staff and the agent and admin areas never admit the same user |
| Access.RoleNameExact | backend/models/models.py:41-48 | the fixed role names are carried by their own role only, so the exact name comparisons of the gates identify roles |
| Access.Login | backend/routes/routes.py:26-119 | wrong credentials exactly when there is no account or the password check fails; success exactly for an active account whose role the portal accepts, logging in that account |
| Access.PortalsPartitionRoles | backend/routes/routes.py:43-45 | the user portal admits active citizens only, the admin portal active staff only, the consulate portal active agents only, and no account logs in at both the user and the admin portal |
| Access.Register | backend/routes/routes.py:128-139 | a registered account always has the citizen role, is active, has no unit and keeps the submitted e-mail and password hash |
| Access.RegisteredUserLogsInAsCitizen | backend/routes/routes.py:136 | a freshly registered account logs in at the user portal and is refused at the admin and consulate portals |
| Access.UpdateProfile | backend/routes/routes.py:286-324 | refused exactly for non-citizens; only names, profile fields and completeness change; a submitted name replaces the old one and a missing name field keeps it; each of the eleven other text fields takes the submitted value, or none when the field is missing; a non-empty birth date is stored and an empty one keeps the old date; completeness holds iff the seven required values are truthy |
| Access.MissingCountryIncomplete | backend/routes/routes.py:317-322 | a profile form without a country always leaves the profile incomplete |
| Access.Download | backend/routes/routes.py:969-984 | forbidden iff the viewer is neither staff nor the owner; the file is sent iff viewing is allowed and the file exists, and it is the document's own path |
| Access.ViewIgnoresUnits | backend/routes/routes.py:887-894 | any agent may view and download any application whatever its unit, while a citizen sees exactly their own |
| Domain.ParseStatus | backend/models/models.py:60 | reading a status column yields a valid status whose stored code is the column text |
| Domain.ParseStatusCode | backend/models/models.py:60 | storing a valid status and reading it back gives the same status |
| Domain.StatusCodeInjective | backend/models/models.py:60 | two valid statuses with the same stored code are the same status |
| Domain.ParseRole | backend/models/models.py:41-48 | reading a role column yields a valid role whose name is the column text |
| Domain.FullName | backend/models/models.py:38-39 | the full name is the first name, then exactly one space, then the last name |
| Domain.StaffRoles | backend/models/models.py:41-48 | `is_admin` holds exactly for agent, superviseur and admin; `is_super_admin` and `is_supervisor` coincide and imply `is_admin` |
| Domain.StatusDisplay | backend/models/models.py:87-94 | a status is shown by a label different from its code iff it is one of soumise, en_traitement, validee, rejetee; every other code is shown verbatim |
| Domain.StatusDisplayInjective | backend/models/models.py:87-94 | the eight known statuses never display alike |
| Domain.ServiceDisplay | backend/models/models.py:96-104 | a service code gets a label different from itself iff it is one of the five mapped codes; any other code is shown verbatim |
| Domain.GenerateReference | backend/models/models.py:79-85 | a generated reference is the upper-cased first three letters of the service type, then the year's decimal digits, then the six random digits, with that exact length |
| Domain.ReferenceFitsColumn | backend/models/models.py:59 | with a four-digit year a generated reference fits the 20-character column |
| Domain.ConsularCardReference | backend/models/models.py:79-85 | a consular card requested in 2024 gets a reference starting with CAR2024 |
| Domain.InitialReference | backend/models/models.py:74-77 | a non-empty supplied reference is kept unchanged; otherwise the result is a generated one ending in the random digits |
| Domain.SameIdsKeepDistinct | backend/models/models.py:158-166 | rewriting notifications without touching their ids keeps the ids distinct |
| Domain.Add | notification_service.py:10-21 | adding a notification appends exactly one unread row with a fresh id, keeps every earlier row and keeps the table's ids distinct and below the next id |
| Workflow.Submit | backend/routes/routes.py:332-395 | a submission is owned by the citizen, unprocessed, starts in `urgent` for the emergency pass and in `soumise` otherwise, has exactly one initial history row with no old status, ends its reference in the random digits, and only the consular card notifies anyone |
| Workflow.Take | routes_agent.py:102-144 | refused outside the agent unit area, then for another unit (checked first), then for a status other than `soumise`, each time changing nothing; a successful take sets `en_traitement` and the agent, appends exactly one history row after the untouched old ones, and marks read at most one pending notice of this agent for this application, leaving all other notifications equal |
| Workflow.TakeIsOneShot | routes_agent.py:115-118 | a taken application cannot be taken again by any agent, and the retry changes nothing; an emergency-pass application in `urgent` is never taken |
| Workflow.ProcessNotices | routes_agent.py:212-230 | processing adds exactly two unread `demande_traitee` notifications for the applicant, the route's own text first and the notification service's text second, keeping every earlier row |
| Workflow.Process | routes_agent.py:164-230 | refused outside the agent unit area, then unless the agent holds the application in their unit, then for a blank comment, then for an unknown action, each time changing nothing; a known action sets its status, writes the rejection reason only on reject, appends one history row (old status, new status, agent, stripped comment) and sends the two notices |
| Workflow.ProcessIgnoresStatus | routes_agent.py:168-172 | the outcome of processing does not depend on the current status, so closed or rejected applications can be processed again |
| Workflow.CommentCheckedBeforeAction | routes_agent.py:175-181 | a missing or whitespace-only comment is refused before the action is looked at, even for an unknown action |
| Workflow.TakeThenApprove | routes_agent.py:120-208 | taking then approving with a non-blank comment ends in `validee` with two history rows added, the second starting from `en_traitement` |
| Workflow.ProcessAppendsOneRow | routes_agent.py:185-219 | every known action with a non-blank comment sets the mapped status and audit label and appends exactly one row starting from the old status, keeping the earlier rows |
| Workflow.UpdateStatus | backend/routes/routes.py:910-955 | forbidden exactly for non-staff; applied exactly for staff with a valid form; sets the status and processor, overwrites the rejection reason only with a non-empty value, appends one history row, and adds one official document iff the new status is `validee` and the PDF oracle produced a path |
| Workflow.AnyAgentMayUpdateAnyApplication | backend/routes/routes.py:912-915 | any agent, of any unit, may set any listed status on any application, and a failed PDF generation never blocks the change |
| Notifications.AddEach | notification_service.py:35-44 | a batch appends exactly one unread notification per recipient, in recipient order, with consecutive fresh ids, keeping every earlier row and the table valid |
| Notifications.AddEachAt | notification_service.py:35-44 | the notification at offset j of a batch is the one addressed to the j-th recipient |
| Notifications.NotifyNewApplication | notification_service.py:23-62 | a new application adds one `nouvelle_demande` notification per active agent of its unit, in order and with the exact title and message, then one `nouvelle_demande_admin` notification for the first active admin of the unit when there is one, and nothing else |
| Notifications.EveryUnitAgentNotified | notification_service.py:29-44 | every active agent of the application's unit receives a `nouvelle_demande` notification about it |
| Notifications.OnlyUnitAgentsNotified | notification_service.py:29-44 | every `nouvelle_demande` notification added goes to an active agent of the application's unit |
| Notifications.StatusChangeMessage | notification_service.py:67-79 | the message is the dedicated text of six statuses or the default text and the code, followed, only when a comment is given, by ` Commentaire: ` and the comment |
| Notifications.CommentIsAppended | notification_service.py:77-78 | a comment only appends its label and text to the message the status alone gives |
| Notifications.NotifyStatusChange | notification_service.py:82-88 | a status change adds exactly one unread `demande_traitee` notification for the applicant, with the application's reference in its title and the status-change message |
| Notifications.MarkRead | notification_service.py:133-146 | succeeds iff a notification with that id belongs to that user; exactly that notification becomes read and every other row is unchanged |
| Notifications.MarkAll | notification_service.py:148-158 | exactly the user's unread notifications become read; every other row is unchanged |
| Notifications.UnreadCount | notification_service.py:160-165 | the count is bounded by the table size and is zero iff the user has no unread notification |
| Notifications.MarkAllClearsOnlyThatUser | notification_service.py:148-165 | after marking all, that user's unread count is zero and every other user's count is unchanged |
| Notifications.CountSameWhereEqual | notification_service.py:160-165 | two tables that agree row by row on a user's unread rows give that user the same count |
| Notifications.CleanOld | notification_service.py:168-182 | the purge keeps exactly the rows that are not both read and older than the cutoff, returns how many it removed, and keeps the table valid |
| Notifications.FilterKeepsDistinctIds | notification_service.py:168-182 | deleting rows keeps the remaining ids distinct |
| BackendNotifications.CreateNotification | backend/services/notification_service.py:9-17 | one unread notification is appended with the given user, type, title and message and no reference id, whatever reference id was passed |
| BackendNotifications.CreateEach | backend/services/notification_service.py:28-35 | a batch keeps the notification table valid; its contents are stated by `CreateEachDropsReference` |
| BackendNotifications.CreateEachDropsReference | backend/services/notification_service.py:9-17 | a batch of this service equals the top-level service's batch for the same recipients with no reference id |
| BackendNotifications.NotifyNewApplication | backend/services/notification_service.py:20-36 | a new application keeps the table valid; what it adds is stated by `NewApplicationVariantsCompared` |
| BackendNotifications.NewApplicationVariantsCompared | backend/services/notification_service.py:20-36 | compared with the top-level service, the same agents get the same notifications in the same order minus the reference id, and only the top-level service adds the admin's notification |
| BackendNotifications.BatchesDifferInReference | backend/services/notification_service.py:9-17 | two batches for the same recipients have the same length and differ at each position only in the reference id |
| BackendNotifications.TopLevelStartsWithAgents | notification_service.py:35-62 | the top-level service's new-application notifications begin with the agents' batch |
| BackendNotifications.StatusChangeMessage | backend/services/notification_service.py:40-46 | the message is the top-level service's comment-free text for the three mapped statuses and the default text with the code for every other status |
| BackendNotifications.StatusMessagesAgree | backend/services/notification_service.py:40-46 | the two services send the same status text iff there is no comment and the status is not one of documents_requis, pret_pour_retrait, cloture |
| BackendNotifications.NotifyStatusChange | backend/services/notification_service.py:39-64 | a status change appends exactly one `demande_traitee` notification for the applicant with this service's message and no reference id |
| Supervision.CountRole | routes_superviseur.py:34-41 | a role count never exceeds the number of users and is zero iff no user carries that role name |
| Supervision.Stats | routes_superviseur.py:34-41 | the total is the length of the whole user list, every counter is bounded by it, and the active count equals the total iff every user is active |
| Supervision.RoleCountsPartition | routes_superviseur.py:36-39 | when every stored role is a known one, the four role counters add up to the total |
| Supervision.ParseUnitField | routes_superviseur.py:80 | an absent or empty unit field gives no unit; a parsed unit is the field's integer value; a field that is not a non-negative integer is refused |
| Supervision.AddUser | routes_superviseur.py:48-82 | refused iff the e-mail is used, else iff the username is used, else iff the unit field is malformed; otherwise exactly one user is appended, active, with a complete profile and the submitted identity, role, phone and unit |
| Supervision.AddUserRefusesSameEmail | routes_superviseur.py:62-64 | adding a second user with an e-mail just added is refused with the e-mail error |
| Supervision.Activation | routes_superviseur.py:110-119 | `activate` means switch on, `deactivate` means switch off, and every other action is refused |
| Supervision.ActivateUser | routes_superviseur.py:106-119 | a user activation succeeds iff the action is known and then changes only the active flag; a refused action changes nothing |
| Supervision.ActivateUnit | routes_superviseur.py:155-168 | a unit activation succeeds iff the action is known and then changes only the active flag; a refused action changes nothing |
| Supervision.SwitchOffEverywhere | routes_superviseur.py:214-216 | every configuration of the service becomes inactive and every other configuration is unchanged |
| Supervision.ActivateService | routes_superviseur.py:203-216 | activation changes only the service flag and switches no unit back on; deactivation also switches the service off in every unit, leaving other services' configurations and all other fields unchanged; an unknown action changes nothing |
| Supervision.ActivationIdempotent | routes_superviseur.py:110-119 | repeating an activation action on a user, a unit or a service changes nothing more |
| UnitConfig.FindConfig | routes_admin.py:143-146 | no row is found iff no row belongs to the (unit, service) pair; a found index holds a row of that pair |
| UnitConfig.FoundConfigIsUnique | backend/models/models.py:242 | with the uniqueness constraint, any row of the pair is the one the lookup finds |
| UnitConfig.Line | routes_admin.py:96-108 | a configured service shows its row's fee, currency, flag, delay and notes; an unconfigured one shows the base fee, `USD`, inactive, the base delay and empty notes |
| UnitConfig.UnitServices | routes_admin.py:87-113 | the listing has one line per globally active service of the catalogue, each built from its configuration or the defaults, every active service is listed and inactive services never are |
| UnitConfig.ParseDelay | routes_admin.py:131-135 | an absent or empty delay gives no custom delay; a non-empty one succeeds iff it parses as an integer, and then it is that integer |
| UnitConfig.ReadSettings | routes_admin.py:125-135 | a fee `float()` refuses is an error, then a malformed delay; otherwise the fee defaults to the base fee, the currency to `USD`, the notes to empty, and the service is active iff the checkbox sends `on` |
| UnitConfig.Configure | routes_admin.py:119-165 | refused outside the admin unit area, then for a malformed fee or delay; otherwise an existing row of the pair is updated in place, keeping its configurer and leaving every other row alone, or one row configured by this admin is appended; the pairs stay unique |
| UnitConfig.ConfigureIsUpsert | routes_admin.py:137-165 | configuring the same service twice leaves one row for the pair at the same index, does not grow the table the second time, and keeps the first configurer |
| UnitConfig.ConfiguredServiceIsListed | routes_admin.py:87-165 | after a successful configuration, the unit's service page lists the service, when it is active, as configured and with exactly the saved settings |
| UnitConfig.ToggleConfig | routes_admin.py:185-200 | toggling an unconfigured service changes nothing; otherwise exactly the pair's row has its flag flipped |
| UnitConfig.ToggleTwiceRestores | routes_admin.py:198 | two toggles restore the configuration table |
| Crud.AgentUnit | backend/routes/routes_crud.py:52-56 | only an agent with a non-empty unit field gets a unit, and then the field must parse as a natural number, which becomes the unit id; every other role or an empty field gets none |
| Crud.UpdateUser | backend/routes/routes_crud.py:38-70 | a malformed unit number of an agent rolls the update back; so does a missing username or e-mail, or one another user already holds (the columns are unique and not null); otherwise the role, username and e-mail come from the form, active iff the field is `on`, only an agent keeps a unit, the password hash changes only with a new password, and nothing else changes |
| Crud.NonAgentsLoseTheirUnit | backend/routes/routes_crud.py:52-70 | updating a user to any role other than agent fails only on the username and e-mail constraints, and a successful one clears the unit |
| Crud.ResubmittingOwnNamesIsAccepted | backend/models/models.py:8-9 | in a table whose usernames and e-mails are unique, a user resubmitting their own username and e-mail never clashes |
| Crud.DeleteUser | backend/routes/routes_crud.py:75-93 | not found iff no user has the id; refused iff the user found is a supervisor; then refused, and rolled back, iff applications, notifications, units the user created or service configurations the user made still refer to the user; otherwise the result holds exactly the other users and is shorter |
| Crud.DeletedUserIsGone | backend/routes/routes_crud.py:79-87 | after a deletion the id is found nowhere, so deleting it again is not found |
| Crud.ApplicantIsKept | backend/models/models.py:36 | a user with an application is never deleted, since the application's user column cannot be set to null |
| Crud.ToggleUser | backend/routes/routes_crud.py:98-108 | the user's active flag flips and nothing else changes |
| Crud.ToggleUnit | backend/routes/routes_crud.py:194-198 | the unit's active flag flips and nothing else changes |
| Crud.ToggleService | backend/routes/routes_crud.py:287-291 | the service's active flag flips and nothing else changes |
| Crud.TogglesAreInvolutions | backend/routes/routes_crud.py:102 | two toggles restore a user, a unit and a service |
| Crud.DeleteUnit | backend/routes/routes_crud.py:211-231 | refused iff any user of any role is assigned to the unit; then refused, and rolled back, iff applications refer to the unit; otherwise exactly the other units remain |
| Crud.UnitWithApplicationsIsKept | backend/models/models.py:57 | a unit with an application is never deleted, whoever is assigned to it |
| Crud.CreateService | backend/routes/routes_crud.py:236-257 | a fee `float()` refuses is an error, then a present delay that is not an integer; an absent fee is 0 and an absent delay 7; the commit is refused without a code or a name, or for a code already in the catalogue; a created service carries the form's code, name, fee and delay and is active iff the field is `on` |
| Crud.EmptyDelayIsRefused | backend/routes/routes_crud.py:244 | an empty delay field is refused where an absent one defaults |
| Crud.ServiceCodeIsUnique | backend/models/models.py:213 | a service just created cannot be created again: its code is taken |
| AdminApi.SplitFullName | backend/routes/routes.py:1186-1192 | an absent or empty full name gives two empty names; otherwise the first name has no space, and the stripped name is first name, one space, last name when it contains a space, or the whole stripped name with an empty last name |
| AdminApi.UsernameOf | backend/routes/routes.py:1197 | the username is a prefix of the e-mail without `@`, followed in the e-mail by the first `@`, or the whole e-mail when it has none |
| AdminApi.CreateUser | backend/routes/routes.py:1180-1223 | forbidden iff the caller is not staff; refused iff the e-mail is in use; then refused for a malformed agent unit, then iff another user already has the username derived from the e-mail (a unique column); a created user is appended alone, with a username and e-mail no other user holds, active, with a complete profile, the temporary password hash, the split names and the unit only for an agent with a unit field |
| AdminApi.SameLocalPartRefused | backend/routes/routes.py:1204 | once an account is created from an e-mail, another e-mail with the same part before `@` is refused, on the username when the e-mail itself is new |
| AdminApi.FullNameRoundTrip | backend/routes/routes.py:1186-1189 | joining the derived names with one space gives back the stripped full name when it has a space, and the name with a trailing space when it is one word |
| AdminApi.DeleteUnit | backend/routes/routes.py:1416-1431 | forbidden iff the caller is not staff; refused iff an agent is assigned, then iff the unit has applications, and for no other reason; otherwise exactly the other units remain |
| AdminApi.UnitDeletionsCompared | backend/routes/routes.py:1416-1421 | whenever the API refuses because of agents the supervisor page refuses too, but a unit whose only user is an administrator and which has no applications is deleted by the API and kept by the supervisor page |
| AdminApi.ToggleUnit | backend/routes/routes.py:1436-1445 | forbidden iff the caller is not staff; otherwise the unit's flag flips as on the supervisor page |
| AdminApi.AssignUnit | backend/routes/routes.py:1457-1481 | forbidden iff the caller is not staff; an empty unit field clears the unit; a field that parses to the id of an existing unit assigns exactly that unit; otherwise only the unit changes, to an existing unit whose id the field parses to; a refusal means the field is not a number or names no unit |
| AdminApi.AssignUnitIdempotent | backend/routes/routes.py:1457-1481 | submitting the same unit field a second time leaves the user as the first assignment did |
| Helpers.AllowedFile | backend/utils/helpers.py:148-150 | a name without `.` is refused, and an accepted name has a last `.` whose lower-cased suffix is an allowed extension |
| Helpers.AllowedFileOfName | utils.py:169-172 | a name `stem.ext` is accepted iff the lower-cased last extension is allowed, whatever the stem: `scan.PDF` and `.pdf` pass, `a.pdf.exe` does not |
| Helpers.LeadingDotCompared | backend/utils/helpers.py:148-150 | a bare `.ext` name is judged by its extension in `allowed_file`, while the upload validation of the security service finds no extension and refuses it |
| Helpers.StemExtensionCompared | backend/utils/helpers.py:148-150 | for an ordinary `stem.ext` name both checks look at the same extension, `allowed_file` against its list and the security service against its own |
| Helpers.StripMark | backend/utils/helpers.py:173-181 | a combining mark is dropped, an ASCII character is kept, and no character yields more than one |
| Helpers.RemoveAccents | backend/utils/helpers.py:177-178 | removing accents never lengthens a text and leaves ASCII text unchanged |
| Helpers.Normalize | backend/utils/helpers.py:173-181 | an absent or empty value normalises to ""; otherwise accents are removed, then the text is stripped and lower-cased, so no upper-case ASCII letter remains |
| Helpers.Alias | backend/utils/helpers.py:190-203 | a normalised value the table knows maps to its canonical name, and any other value falls back to the raw input |
| Helpers.AliasIgnoresSpelling | backend/utils/helpers.py:190-203 | spellings with the same normal form that the table knows, such as `Morocco` and ` MOROCCO `, get the same canonical name |
| Helpers.AsciiNormalize | backend/utils/helpers.py:173-181 | an ASCII spelling is only stripped and lower-cased |
| Helpers.AssignedUnit | backend/utils/helpers.py:183-186 | the assigned unit is used iff the unit id is truthy and the first unit with that id is active, and then it is that unit |
| Helpers.First | backend/utils/helpers.py:222 | the first unit satisfying a rule, if any: none iff no unit satisfies it |
| Helpers.ResolveUnit | backend/utils/helpers.py:159-248 | the result is always none or an active unit; an active assigned unit wins; without one and without a country the result is none; otherwise the first unit in the aliased city, else the first unit whose city holds the typed city (both only when a city is given), else the first unit of the aliased country, else the first unit whose country holds the typed country; none iff no unit matches the country exactly or loosely |
| Helpers.CityBeatsCountry | backend/utils/helpers.py:208-235 | when some unit of the country loosely matches the user's city, the unit chosen is matched by the city, never by the country alone |
| Helpers.AssignmentWins | backend/utils/helpers.py:183-186 | a user with an active assigned unit gets it whatever their address says |
| Security.RewriteTag | security_service.py:96-97 | rewriting one tag leaves a text without `<` unchanged |
| Security.NoOpenNoMatch | security_service.py:97 | only a text holding a `<` can open with a tag, in any case |
| Security.RewriteAll | security_service.py:93-97 | rewriting all the tags leaves a text without `<` unchanged |
| Security.Escape | security_service.py:99-103 | escaping leaves none of `<`, `>`, `"`, `'` and leaves a text without them unchanged; `&` is never escaped |
| Security.Sanitize | security_service.py:87-105 | empty input gives ""; the output never holds `<`, `>`, `"` or `'`; input free of those four is returned unchanged |
| Security.SanitizeIdempotent | security_service.py:87-105 | sanitizing twice equals sanitizing once |
| Security.RewriteSkipsOtherTag | security_service.py:97 | a text with a single `<` at its head that does not open with the tag is left unchanged by that tag's rewrite |
| Security.LowerMatchHasNoOtherOpen | security_service.py:97 | an opening that matches a tag in any case starts with `<` and holds no other `<` |
| Security.DangerousTagsShaped | security_service.py:93 | the six dangerous tags are lower-case `<` openings with pairwise different first letters and names that need no escaping |
| Security.LetterTag | security_service.py:93 | `<` followed by lower-case letters is a tag pattern whose name needs no escaping |
| Security.DangerousTagNeutralised | security_service.py:93-103 | a text opening with any dangerous tag in any case, followed by text with nothing to escape, comes out as `&lt;`, the lower-case tag name and the same rest |
| Security.EarlierTagsMiss | security_service.py:96-97 | a text opening with one dangerous tag opens with none of the tags rewritten before it |
| Security.ScriptInAnyCase | backend/services/security_service.py:78-81 | every spelling of `<script`, such as `<SCRIPT`, sanitizes to `&lt;script` |
| Security.RewriteFromK | security_service.py:96-97 | over a text opening with tag k, the tags before k skip it, tag k rewrites it and the later tags find no `<` |
| Security.CompareDigest | security_service.py:83-85 | the token check is true iff the two tokens are equal, and raises for a non-ASCII token |
| Security.CompareDigestSymmetric | security_service.py:83-85 | the token check does not depend on the order of the two tokens, and an ASCII token always matches itself |
| Security.Extension | security_service.py:119 | an extension is empty or a `.` with no further `.` and no `/` that ends the path |
| Security.NoSlashAfter | security_service.py:119 | the text after the last `/` holds no `/` |
| Security.ExtensionOfName | security_service.py:119 | a name made of a stem and one extension has exactly that extension |
| Security.LeadingDotHasNoExtension | security_service.py:119 | a name whose only dot is its first character, such as `.pdf`, has no extension |
| Security.ValidateUpload | security_service.py:107-142 | refused for its extension iff the lower-cased extension is not one of the six allowed, checked before the size; too large iff allowed and over 16 MiB; accepted iff allowed and at most 16 MiB, renamed to the seconds, `_` and the secure name |
| Security.Recent | security_service.py:174-175 | the pruned list holds exactly the attempts strictly after the cutoff |
| Security.RateLimit | security_service.py:159-184 | the first attempt of an identifier is allowed and stored alone; a later one is refused iff at least the maximum of attempts fall inside the window, and a refusal leaves the cache unchanged; an allowed one stores the in-window attempts plus now, so the stored list never exceeds the maximum; other identifiers are untouched |
| Middleware.RequestToken | backend/utils/middleware.py:35-38 | a JSON request's token is its `X-CSRFToken` header; any other request's token is its `csrf_token` form field, absent iff the field is |
| Middleware.ValidateCsrf | backend/utils/middleware.py:33-45 | passes iff both tokens are non-empty, equal and ASCII; a missing or empty token on either side fails; the comparison raises only when both are non-empty |
| Middleware.EnsureCsrfToken | backend/utils/middleware.py:176-179 | a session token already present is kept; otherwise the generated one is stored |
| Middleware.CsrfTokenIsStable | backend/utils/middleware.py:178 | once a session has a token, later requests never replace it, whatever the generator returns |
| Middleware.RateLimit | backend/utils/middleware.py:47-67 | refused iff the entries strictly inside the window already number the maximum; the pruned list is stored even on a refusal, and `now` is appended on acceptance; other identifiers are untouched |
| Middleware.Repeat | backend/utils/middleware.py:66 | `n` copies of one time |
| Middleware.Burst | backend/utils/middleware.py:47-67 | of a burst of `n` requests in one second from a new identifier exactly the first `max_requests` pass, and one entry is stored per request let through |
| Middleware.RateLimitersCompared | backend/utils/middleware.py:47-67 | on a known identifier this limiter and the security service's agree on the verdict and on what an acceptance stores; on a first request with a maximum of zero or less the service accepts and this one refuses |
| Middleware.SanitizeJson | backend/utils/middleware.py:97-105 | same keys; every string value is sanitized and every other value is kept |
| Middleware.SanitizeForm | backend/utils/middleware.py:107-116 | same keys; every value is sanitized and so free of the four escaped characters |
| Middleware.SanitizeRequestData | backend/utils/middleware.py:93-116 | a JSON request has a non-empty JSON body sanitized and its form left alone; any other request has its form sanitized; nothing else about the request changes |
| Middleware.SanitizeFormIdempotent | backend/utils/middleware.py:107-116 | sanitizing a form twice is sanitizing it once |
| Middleware.SanitizeJsonIdempotent | backend/utils/middleware.py:97-105 | sanitizing a JSON body twice is sanitizing it once |
| Middleware.SanitizeRequestDataIdempotent | backend/utils/middleware.py:93-116 | sanitizing the request data twice is sanitizing it once |
| Middleware.SecurityHeaders | backend/utils/middleware.py:69-91 | `nosniff`, `DENY`, `1; mode=block` and the content policy are always set; HSTS is set iff not in debug mode |
| Middleware.DebugOnlyDropsHsts | backend/utils/middleware.py:78-80 | the debug and production headers differ only by HSTS |
| Middleware.Found | backend/utils/middleware.py:149-150 | a pattern is found in a text iff it is one of the six suspicious patterns and occurs in the text ignoring case |
| Middleware.KeyEvents | backend/utils/middleware.py:160-166 | the events for one parameter are exactly the parameter events for that key and a found pattern |
| Middleware.ParameterEvents | backend/utils/middleware.py:157-166 | a parameter event for a key and pattern is logged iff some argument with that key contains the pattern ignoring case |
| Middleware.ArgMatchesSplit | backend/utils/middleware.py:159-161 | an argument list matches a key and pattern iff its first argument does or the rest of the list does |
| Middleware.ArgMatchesSplitAt | backend/utils/middleware.py:159-161 | the same split for one key and one pattern |
| Middleware.UrlEvents | backend/utils/middleware.py:149-155 | the URL events are exactly one per found pattern |
| Middleware.SuspiciousEvents | backend/utils/middleware.py:138-166 | the events the hook means to log: a URL event iff the pattern occurs in the URL ignoring case; a parameter event iff the pattern occurs in that parameter's value |
| Middleware.TraversalIsSuspicious | backend/utils/middleware.py:143-155 | a URL with `../` anywhere yields a suspicious URL event |
| Middleware.TraversalIsLogged | backend/utils/middleware.py:143-155 | in the intended pipeline, a request past the CSRF check and the rate limit whose URL holds `../` goes on, with the traversal logged and a session token in place |
| Middleware.TraversalRaisesAsWritten | backend/utils/middleware.py:148-155 | as written, the same request ends in a server error: nothing is logged and the session gets no token |
| Middleware.BeforeRequest | backend/utils/middleware.py:11-31 | with the security events logged as intended: a mutating request with a failing token is refused with 403 before the rate limit; a request over the rate limit is refused with 429; a refusal leaves the request, the events and the session token alone; a request let through is sanitized, its suspicious events are logged and the session gets its token |
| Middleware.BeforeRequestAsWritten | backend/utils/middleware.py:11-31 | as written, a failed CSRF check, a rate limit or any suspicious pattern ends in a server error instead of 403, 429 or a logged event; the request passes iff none of them happens, and only then does the session get a token; nothing is ever logged |
| Middleware.LoggingVariantsCompared | backend/utils/middleware.py:17-24 | the written and intended pipelines store the same rate-limit cache and agree exactly when there is nothing to log; otherwise the written one raises |
| Middleware.FirstPostIsRefused | backend/utils/middleware.py:169-179 | since the token hook runs after the CSRF check, a session's first POST is refused, spends no rate budget and gets no token; as written the refusal is a server error |
| Migrations.PendingMigrations | update_service.py:212-229 | a missing directory gives no migrations; otherwise a file is pending iff it is listed, is named `migration_….py` and is not recorded as executed; the pending files come in sorted order |
| Migrations.FilterKeepsOrder | update_service.py:223-227 | keeping some files of a sorted listing keeps them sorted |
| Migrations.UnreadableTableRerunsAll | update_service.py:245-254 | when the tracking table cannot be read, every migration file of the directory is pending again |
| Migrations.FirstFailure | update_service.py:191-204 | finds the first pending migration whose `up()` raises, with none failing before it, or reports that none fails |
| Migrations.RunMigrations | update_service.py:183-210 | succeeds iff no pending migration fails; the migrations run are exactly those before the first failure, which is reported; each one run is recorded as executed unless recording it fails |
| Migrations.FailedRunStaysPending | update_service.py:198-227 | a migration that failed, and so was never recorded, is pending again at the next update |
| Migrations.MigrationFileName | update_service.py:297-298 | the name a new migration is written under is a migration name the pending scan recognises |
| Migrations.CreatedMigrationIsPending | update_service.py:295-316 | a migration file the service created and that is not yet recorded is picked up by the next update |
| Migrations.ExecuteCall | update_service.py:325 | the call written for one SQL line is a single line starting with `db` |
| Migrations.NonBlankLines | update_service.py:323-324 | the lines kept are lines of the input that are not blank; none is kept iff every line is blank |
| Migrations.Calls | update_service.py:323-325 | one indented call per non-blank line, in order |
| Migrations.SqlLines | update_service.py:320 | the stripped SQL cut at newlines: at least one line, none holding a newline |
| Migrations.FormatSql | update_service.py:318-327 | `pass` iff every SQL line is blank; otherwise the text's lines are exactly the indented calls, one per non-blank SQL line |
| Migrations.Indent | update_service.py:304-306 | the number of leading spaces, as the Python parser measures a line's indentation |
| Migrations.UpBodyAsWritten | update_service.py:304-306 | the body of the generated `up` starts with the docstring line |
| Migrations.DocstringAtFour | update_service.py:305 | the generated docstring sits four spaces deep |
| Migrations.GeneratedUpIsMisindented | update_service.py:301-311 | for any SQL with a non-blank line, the first statement of the generated `up` sits eight spaces deep right after the docstring at four |
| Migrations.GeneratedUpExample | update_service.py:301-311 | `create_migration` with the single statement `SELECT 1` writes that statement eight spaces deep in `up` |
| Migrations.FormatSqlFixed | update_service.py:318-327 | `pass` iff every SQL line is blank; placed after the template's four spaces, the lines are exactly one `db.engine.execute` call per non-blank SQL line, in order, each four spaces deep |
| Migrations.PerformUpdate | update_service.py:76-181 | a requested backup that fails ends the update before the code is touched; the code counts as updated iff the backup step and the pull succeed; the update succeeds iff, in addition, the dependency update does not raise (only a failing `pip` exit status is caught), and the services count as restarted exactly when it succeeds; a pull failure reports the pull, a failure after the pull reports the dependency update; a migration failure does not fail it and only clears `database_migrated`; a rollback is suggested iff the update failed after a backup was made |
| Migrations.UpdateIsMonotone | update_service.py:76-146 | better step outcomes never make an update worse: success, the code update, the migration and the backup each survive turning a failed step (backup, pull, dependency update, migrations) into a successful one |
| Migrations.SkippingBackupNeverFails | update_service.py:84-92 | an update without a backup succeeds whenever the same update with a backup does, and offers no rollback |
| Backups.Padded | backend/services/backup_service.py:27 | a number below the width's power of ten is written in exactly that many digits that read back as the number |
| Backups.PaddedValue | backend/services/backup_service.py:27 | any digits read as a number and written back in the same width give the same text |
| Backups.FormatStamp | backend/services/backup_service.py:27 | the stamp is fifteen characters: digits with an underscore at position eight |
| Backups.ParseStamp | backend/services/backup_service.py:245-247 | parses iff the text has the stamp layout and names a date and time that exist |
| Backups.StampRoundTrip | backend/services/backup_service.py:243-245 | parsing a written stamp gives back the datetime it was written from |
| Backups.ParsedStampIsFormatted | backend/services/backup_service.py:243-245 | a stamp that parses to a four-digit year is exactly what writing that datetime produces |
| Backups.RemoveAll | backend/services/backup_service.py:243 | removing every occurrence of a text never lengthens a name |
| Backups.StampOfArchive | backend/services/backup_service.py:238-243 | the archive name a backup is written under is recognised as an archive, and cutting its prefix and suffix gives back its stamp |
| Backups.ArchiveDatedByName | backend/services/backup_service.py:242-247 | an archive the service wrote is dated by its name, whatever its modification time |
| Backups.Entries | backend/services/backup_service.py:237-255 | every archive of the directory gives an entry, and every entry is an archive of the directory |
| Backups.SortNewestFirst | backend/services/backup_service.py:257 | the entries are rearranged, none lost or added, newest first |
| Backups.ListBackups | backend/services/backup_service.py:230-257 | a missing directory lists nothing; otherwise the listing holds exactly the directory's archives, newest first |
| Backups.ListedAreArchives | backend/services/backup_service.py:237-238 | a listed backup is an archive file of the directory |
| Backups.ArchivesAreListed | backend/services/backup_service.py:237-238 | every archive file of the directory is listed |
| Backups.OldBackups | backend/services/backup_service.py:315-320 | the backups past the thirtieth of the listing are deleted, and none of them is newer than any backup kept |
| Backups.FirstIsKept | backend/services/backup_service.py:319-320 | the first listed backup is never deleted |
| Backups.NewestIsKept | backend/services/backup_service.py:315-327 | a backup strictly newer than every other is listed first and survives the cleanup |
| Backups.Components | backend/services/backup_service.py:43-58 | the uploads are reported iff they were asked for; the database part succeeds iff a database address is set and the dump succeeds |
| Backups.CreateFullBackup | backend/services/backup_service.py:25-90 | the backup is named after its stamp; it succeeds iff its directory is made, every file goes into the zip and the cleanup and size steps after it work, whatever the parts report; the zip file stays in the directory iff it was opened, even on failure; the archive holds the uploads iff asked for, present and holding a file, and a dump file iff a database address is set |
| Backups.DailyAndWeeklyCompared | backend/services/backup_service.py:339-347 | the daily backup never holds uploads and the weekly one does when they exist |
| Backups.ScheduledBackup | backend/services/backup_service.py:339-347 | a scheduled run makes the backup and then cleans up a directory that holds the new zip file iff it was written, including by a failed run |
| Backups.PartialZipIsCounted | backend/services/backup_service.py:82-88 | a run whose zip raised after the file was opened fails, and the cleanup after it counts the partial file as a backup |
| Backups.NewArchiveIsNewest | backend/services/backup_service.py:25-28 | an archive written after every archive already present is listed once and strictly newer than all the others |
| Backups.NewBackupSurvivesCleanup | backend/services/backup_service.py:339-347 | the zip file a scheduled run has just written, complete or not, is never deleted by the cleanup that follows it |
| Backups.RestoreBackup | backend/services/backup_service.py:259-313 | a missing file restores nothing; the database is restored iff the archive holds a dump and an address is set; the uploads are restored iff the archive holds them; the restore succeeds iff extraction, the needed reload and copy, and the removal of the extraction directory all succeed; a failing step ends the restore with the parts done before it, so a failed cleanup still reports every part restored |
| Backups.RestoreOfDailyBackup | backend/services/backup_service.py:274-289 | restoring a daily backup whose steps succeed never replaces the uploads, and reloads the database whenever both runs had an address set, even if the dump had failed |
| Backups.EmptyUploadsNotRestored | backend/services/backup_service.py:221-228 | an uploads tree without a file leaves no uploads in a weekly archive, so restoring it leaves the uploads alone |
| ClientForms.ValidateField | static/js/main.js:66-77 | a field is invalid iff it is required and its trimmed value is empty |
| ClientForms.ValidateFieldSeesTrimmed | static/js/main.js:66-77 | a field's validity is the same for its value and for its trimmed value |
| ClientForms.EmailMatchesPattern | static/js/main.js:81 | the direct decision accepts exactly the strings the e-mail pattern matches: a run, `@`, a run, a dot and a run, no run holding whitespace or `@` |
| ClientForms.ValidateEmail | static/js/main.js:79-90 | valid iff the trimmed value is empty or matches the e-mail pattern |
| ClientForms.InnerSpaceRefused | static/js/main.js:79-90 | an address with whitespace inside its trimmed value is refused |
| ClientForms.ValidatePasswordConfirmation | static/js/main.js:92-103 | valid iff the page has no password field or the confirmation equals the password |
| ClientForms.ConfirmationSymmetric | static/js/main.js:92-103 | the check is symmetric in the two fields, and a password always confirms itself |
| ClientForms.DigitsOnly | static/js/main.js:106 | only digits remain, and never more characters than were typed |
| ClientForms.FormatPhone | static/js/main.js:105-117 | the digits are kept, in order; twelve digits starting with 243 become exactly `+243 XX XXX XXXX` and ten starting with 0 exactly `0XX XXX XXXX`, grouped from those digits; every other input, whatever its length or prefix, stays bare digits |
| ClientForms.InternationalKeepsDigits | static/js/main.js:110 | the international grouping holds exactly the twelve digits it was made from |
| ClientForms.DomesticKeepsDigits | static/js/main.js:113 | the domestic grouping holds exactly the ten digits it was made from |
| ClientForms.GroupingKeepsDigits | static/js/main.js:109-114 | grouping only adds separators |
| ClientForms.FormatPhoneIdempotent | static/js/main.js:105-117 | formatting a formatted number changes nothing |
| ClientForms.CheckFile | static/js/main.js:167-179 | too large iff over 16 MiB, checked first; refused for its type iff small enough and not JPEG, PNG or PDF; accepted iff neither |
| ClientForms.SelectAsWritten | static/js/main.js:161-184 | the field is emptied iff some file is refused, yet it ends marked valid iff the last file is accepted |
| ClientForms.RefusedThenAcceptedLooksValid | static/js/main.js:166-183 | a refused file followed by an accepted one leaves the input emptied but marked valid, with the accepted file previewed |
| ClientForms.SelectFixed | static/js/main.js:161-184 | any refused file leaves the field invalid and emptied; when all are accepted each is previewed in order and the field is marked valid |
| ClientForms.SelectionsAgreeOnAcceptedFiles | static/js/main.js:166-183 | when every file is accepted the code as written and the corrected check give the same field |
| ClientForms.FileIcon | static/js/main.js:268-276 | the image icon iff the type starts with `image/`, the PDF icon iff the type is exactly `application/pdf`, and the generic icon otherwise |
| ClientForms.AcceptedFilesHaveSpecificIcons | static/js/main.js:268-276 | every file the selection check accepts gets the image or the PDF icon |
| ClientForms.CharacterCounter | static/js/main.js:380-395 | the remaining count plus the length typed is the limit; the warning shows iff fewer than ten remain; an unreadable limit shows no count and no warning |
| ClientForms.WarningIsMonotone | static/js/main.js:388 | typing more never removes the warning |
| ClientForms.OnSelectChange | static/js/main.js:416-428 | the block shows iff "autre" or "other" is chosen, and its input is then required and kept; otherwise it is not required and emptied |
| ClientForms.OnSelectChangeIdempotent | static/js/main.js:416-428 | the same choice made twice changes nothing more |
| UploadLimits.First | static/js/file-upload-validation.js:14 | an input's first file, present iff the input holds any |
| UploadLimits.OnChange | static/js/file-upload-validation.js:13-41 | nothing happens without a file; the file's own size is checked against 25 MiB first, then the page total against 100 MiB; on either failure only this input is emptied |
| UploadLimits.ValidateFormBeforeSubmit | static/js/file-upload-validation.js:48-73 | the form passes iff no first file is over 25 MiB and the first files total at most 100 MiB |
| UploadLimits.LimitsAreInclusive | static/js/file-upload-validation.js:18-32 | a file of exactly 25 MiB is accepted, and four of them fill exactly the 100 MiB allowed |
| UploadLimits.OnlyFirstFilesCount | static/js/file-upload-validation.js:26-30 | files after the first in an input change neither the total nor the per-file verdict |
| UploadLimits.LimitsDisagree | static/js/file-upload-validation.js:5-6 | a file between 16 MiB and 25 MiB passes this script and is refused by the page's other file check |
| Text.Strip | update_service.py:320 | no whitespace remains at either end, and the result is empty iff the text was all whitespace |
| Text.JoinSplit | update_service.py:320-327 | joining the parts of a split gives back the text |
| Text.SplitJoin | update_service.py:327 | splitting a join of separator-free parts gives back the parts |
| Text.ParseRendered | routes_admin.py:132-133 | a number written in decimal parses back to itself |
| Sorting.SortStrings | update_service.py:223 | the names are rearranged, none lost or added, in code-point order |
| Sorting.SortStringsIgnoresOrder | update_service.py:223 | the sorted listing does not depend on the order the directory lists files in |

## Left out

- PDF and QR generation is an oracle returning an optional path. E-mail sending and HTML templating are not modelled: they are calls into reportlab, qrcode, SendGrid and Flask-Mail.
- Cryptography is not modelled: Fernet, PBKDF2, bcrypt, file encryption and token generation. Password checks and generated tokens are parameters.
- Git, pip, `pg_dump`, `psql`, zip, `copytree` and the reload trigger are not modelled. Each appears only as a boolean saying whether the step succeeded.
- The backup scheduler thread and its `schedule` registrations are not modelled: they are timing and concurrency. A scheduled run is modelled as one call.
- Two agents taking the same application at once is not modelled: `take` is one atomic step.
- Flask plumbing is not modelled: rendering, redirects, flash messages, `get_or_404` and the session object. The session's CSRF token is an explicit value.
- Seed and demo scripts, and the declarative WTForms validators, are not modelled.
- The browser's tooltips, drag and drop, printing, clipboard, preview markup and `countries_cities.js` are not modelled.
- Floating-point values are not modelled: file sizes in MB, their rounding and fee arithmetic. A fee field is absent, a number (in cents) or text `float()` refuses; sizes are whole bytes.
- Audit-log writes are not modelled. The `process` route's audit action is kept as a label.
- Case mapping covers ASCII letters only. This applies to `lower()`, `upper()`, `re.IGNORECASE` and `ilike`. Python's full Unicode case folding is not modelled.
- `ilike` patterns are matched as plain substrings: a `%` or `_` typed by the user is not treated as a wildcard.
- Helpers.RemoveAccents: NFD decomposition followed by dropping the combining marks is modelled for the accented Latin-1 letters and the combining diacritical marks block (U+0300 to U+036F). Other decompositions and other non-spacing marks are kept as they are.
- Python's `int()` is modelled on ASCII decimal literals only. Underscores between digits and non-ASCII digits, which Python also accepts, are not modelled.
- Crud.UpdateUser: a negative unit number is refused, where Python's `int()` accepts it and only the foreign key can refuse it. A positive number naming no unit is stored, where a database enforcing foreign keys (PostgreSQL) refuses the commit.
- AdminApi.CreateUser: as for Crud.UpdateUser, a negative unit number is refused where `int()` accepts it, and a number naming no unit is stored where a database enforcing foreign keys refuses the commit.
- Crud.DeleteUnit: the unit's service configurations, deleted with it by the cascade, are not part of the result.
- Workflow.Submit: the submission leaves `unite_consulaire_id` unset, as the handler does, although backend/models/models.py:57 declares it NOT NULL; under that schema the flush at backend/routes/routes.py:356 would fail with a server error. The two are not reconciled.
- Notifications.NotifyNewApplication: the top-level notification service, and so every `Notifications` member, writes `lu`, `type_notification` and `reference_id`, and the top-level handlers call `AuditLog.log_action`; backend/models/models.py declares none of them. These modules import a top-level `models` module, which is not part of this model, and the model follows the handlers without reconciling the schemas.
- Backups.ScheduledBackup: when removing the working directory fails, the error handler tries the same removal again, and an exception from that escapes the run; this is not modelled.
- Supervision.ParseUnitField: a unit field that is not an integer makes the source raise, and the model refuses it instead. A negative number is refused because unit ids are natural numbers.
- Access.UpdateProfile: the birth date is kept as text. A date `strptime` rejects would raise, which is not modelled. The `ambassade_ville` and `ambassade_pays` fields are not part of the profile record.
- BackendNotifications.CreateEach: its contract states only that the table stays valid. The rows it adds are stated by `BackendNotifications.CreateEachDropsReference` against the top-level service.
- BackendNotifications.NotifyNewApplication: its contract states only that the table stays valid. What it adds is stated by `BackendNotifications.NewApplicationVariantsCompared`.
- Backups.ParseStamp: only the zero-padded fifteen-character layout parses. `strptime` also accepts some unpadded fields, and such names fall back to the modification time in the model.
- Backups.SortNewestFirst: the contract states a newest-first permutation. The order that Python's stable sort keeps among backups of equal date is not stated.
- Migrations.PerformUpdate: an exception raised by the audit-log write after success has been recorded is not modelled. Critical-config backup and restore are folded into the pull step, since both catch their own errors per file. The dependency update is one outcome, whatever raised inside it.
- Backups.RestoreBackup: an exception raised by the audit-log write after success has been recorded, which would also set the error, is not modelled. Neither is the handler's second removal of the extraction directory (backup_service.py:311) raising out of the call; the model returns the report instead.
- Backups.CreateFullBackup: an exception raised by the audit-log write after success has been recorded is not modelled. The manifest, the configuration file copies and the backup sizes are not modelled.
- Double quotes inside SQL lines, which break the generated Python string literal, are not modelled.
- The middleware is modelled as `init_security_middleware` installs it; whether the application calls that function is not part of this model.
- The middleware's `add_security_headers` registers a new after-request handler on every request. The model gives the headers of one response.
- The middleware assigns to `request.json`, and whether Flask allows that assignment is not modelled. The sanitized body is taken as replacing the JSON body.
- Query arguments are one value per parameter, as `request.args.items()` yields the first value of each key.

## Findings

| source | as written | input that shows it | evidently intended | confidence | as-written member | corrected member |
|---|---|---|---|---|---|---|
| update_service.py:301-327 | the template puts four spaces before the formatted SQL, whose first line already carries four, so the first statement of `up()` sits at eight spaces after a docstring at four | `create_migration("x", "SELECT 1")` writes `up()` with its statement indented eight spaces, an unexpected indent when the module is imported | every generated statement at the indentation of the docstring | not executed; the indentation follows from the template text | Migrations.GeneratedUpIsMisindented | Migrations.FormatSqlFixed |
| static/js/main.js:166-183 | the `return` after a refused file sits inside the `forEach` callback, so the files after it are still checked, marked valid and previewed | a refused 20 MiB PDF followed by an accepted PNG leaves the input emptied but marked valid, with the PNG previewed | the first refused file ends the check, leaving the field invalid | not executed | ClientForms.RefusedThenAcceptedLooksValid | ClientForms.SelectFixed |
| backend/utils/middleware.py:5-25 | the middleware imports the `backend` security service, which has no `log_security_event`, so every call that logs a security event raises before its abort or the next hook | `GET /x?q=../` past the rate limit fails with a server error and the session gets no CSRF token; a failed CSRF check or a rate limit gives a server error instead of 403 or 429 | each event logged, then the 403 or 429 or the next hook | not executed; the method is absent from the imported class | Middleware.TraversalRaisesAsWritten | Middleware.TraversalIsLogged |

=== FILE: access.dfy ===
/**
 * Who may do what: the role gates in front of the agent, administrator and
 * supervisor areas, the three login portals, registration, the citizen's
 * profile page and the owner-or-staff rule for viewing applications and
 * downloading their documents.
 */
module Access {
  import opened Wrappers
  import opened Text
  import opened Domain

  /** The protected areas of the site, one per access decorator. */
  datatype Area =
    | AgentArea        // agent_required
    | AgentUnitArea    // agent_required then agent_unit_access_required
    | AdminArea        // admin_required
    | AdminUnitArea    // admin_required then admin_unit_access_required
    | SupervisorArea   // superviseur_required

  /**
   * Whether the requester (None when nobody is logged in) passes the decorators
   * of an area. The role tests compare the stored role name exactly.
   */
  function Admits(a: Area, requester: Option<User>): (r: bool)
    ensures r ==> requester.Some?
    ensures r && (a == AgentUnitArea || a == AdminUnitArea) ==> TruthyId(requester.value.unitId)
  {
    match requester
    case None => false
    case Some(u) =>
      match a
      case AgentArea => RoleName(u.role) == "agent"
      case AgentUnitArea => RoleName(u.role) == "agent" && TruthyId(u.unitId)
      case AdminArea => RoleName(u.role) == "admin"
      case AdminUnitArea => RoleName(u.role) == "admin" && TruthyId(u.unitId)
      case SupervisorArea => RoleName(u.role) == "superviseur"
  }

  /**
   * Every protected area admits exactly one role, all of them staff roles; the
   * unit-scoped areas admit a subset of their role area; no citizen gets in.
   */
  lemma {:induction false} AreasAreStaffOnly(a: Area, u: User)
    requires ValidRole(u.role)
    ensures Admits(a, Some(u)) ==> u.IsAdmin()
    ensures Admits(AgentArea, Some(u)) <==> u.role == Agent
    ensures Admits(AdminArea, Some(u)) <==> u.role == Admin
    ensures Admits(SupervisorArea, Some(u)) <==> u.role == Superviseur
    ensures Admits(AgentUnitArea, Some(u)) <==> Admits(AgentArea, Some(u)) && TruthyId(u.unitId)
    ensures Admits(AdminUnitArea, Some(u)) <==> Admits(AdminArea, Some(u)) && TruthyId(u.unitId)
    ensures !(Admits(AgentArea, Some(u)) && Admits(AdminArea, Some(u)))
  {
    RoleNameExact(u.role, Agent);
    RoleNameExact(u.role, Admin);
    RoleNameExact(u.role, Superviseur);
  }

  /** A fixed role name is carried by that role alone. */
  lemma RoleNameExact(r: Role, fixed: Role)
    requires ValidRole(r) && !fixed.OtherRole?
    ensures RoleName(r) == RoleName(fixed) <==> r == fixed
  {
  }

  /** The three login forms. */
  datatype Portal = UserPortal | AdminPortal | ConsulatePortal

  /** The roles a login portal accepts once the password is right and the account active. */
  predicate PortalAccepts(p: Portal, role: Role) {
    match p
    case UserPortal => RoleName(role) == "usager"
    case AdminPortal => RoleName(role) in ["admin", "agent", "superviseur"]
    case ConsulatePortal => RoleName(role) == "agent"
  }

  datatype LoginOutcome = LoggedIn(userId: nat) | NotAuthorized | WrongCredentials

  /**
   * A login attempt: `account` is the user found by e-mail, `passwordMatches` the
   * verdict of the password hash check.
   */
  function Login(p: Portal, account: Option<User>, passwordMatches: bool): (r: LoginOutcome)
    ensures r == WrongCredentials <==> account.None? || !passwordMatches
    ensures r.LoggedIn? <==>
      account.Some? && passwordMatches && account.value.active && PortalAccepts(p, account.value.role)
    ensures r.LoggedIn? ==> r.userId == account.value.id
  {
    match account
    case None => WrongCredentials
    case Some(u) =>
      if !passwordMatches then WrongCredentials
      else if u.active && PortalAccepts(p, u.role) then LoggedIn(u.id)
      else NotAuthorized
  }

  /**
   * Citizens log in only at the user portal and staff only at the administration
   * portal; the consulate portal admits agents, a subset of the administration one.
   */
  lemma {:induction false} PortalsPartitionRoles(u: User)
    requires ValidRole(u.role)
    ensures Login(UserPortal, Some(u), true).LoggedIn? <==> u.active && u.role == Usager
    ensures Login(AdminPortal, Some(u), true).LoggedIn? <==> u.active && u.IsAdmin()
    ensures Login(ConsulatePortal, Some(u), true).LoggedIn? <==> u.active && u.role == Agent
    ensures !(Login(UserPortal, Some(u), true).LoggedIn? && Login(AdminPortal, Some(u), true).LoggedIn?)
  {
    RoleNameExact(u.role, Usager);
    RoleNameExact(u.role, Agent);
    RoleNameExact(u.role, Admin);
    RoleNameExact(u.role, Superviseur);
  }

  /** `register`: a new account, always with the citizen role, active and with an incomplete profile. */
  function Register(id: nat, username: string, email: string, firstName: string,
                    lastName: string, phone: Option<string>, passwordHash: string): (r: User)
    ensures r.role == Usager && r.active && !r.profileComplete && r.unitId.None?
    ensures r.id == id && r.email == email && r.passwordHash == passwordHash
  {
    User(id, username, email, passwordHash, firstName, lastName, Usager, true, None, false,
         EmptyProfile.(phone := phone))
  }

  /** A freshly registered account can log in at the user portal and nowhere else. */
  lemma {:induction false} RegisteredUserLogsInAsCitizen(id: nat, username: string, email: string,
                                                         firstName: string, lastName: string,
                                                         phone: Option<string>, passwordHash: string)
    ensures var u := Register(id, username, email, firstName, lastName, phone, passwordHash);
      && Login(UserPortal, Some(u), true) == LoggedIn(id)
      && Login(AdminPortal, Some(u), true) == NotAuthorized
      && Login(ConsulatePortal, Some(u), true) == NotAuthorized
  {
    var u := Register(id, username, email, firstName, lastName, phone, passwordHash);
    PortalsPartitionRoles(u);
  }

  /** The seven profile values that must all be truthy for a complete profile. */
  predicate RequiredProfileFilled(u: User) {
    && u.firstName != "" && u.lastName != ""
    && TruthyStr(u.profile.genre) && TruthyStr(u.profile.dateNaissance)
    && TruthyStr(u.profile.lieuNaissance) && TruthyStr(u.profile.adresseVille)
    && TruthyStr(u.profile.adressePays)
  }

  function FormGet(form: map<string, string>, key: string): Option<string> {
    if key in form then Some(form[key]) else None
  }

  datatype ProfileError = ProfileForbidden

  /**
   * `user_profile` (POST): names keep their current value when the field is
   * missing, the other fields take the submitted value or None, the birth date is
   * replaced only by a non-empty value, and completeness is recomputed.
   */
  function UpdateProfile(u: User, form: map<string, string>): (r: Result<User, ProfileError>)
    ensures r.Failure? <==> u.role != Usager
    ensures r.Success? ==> (r.value.profileComplete <==> RequiredProfileFilled(r.value))
    ensures r.Success? ==>
      r.value == u.(firstName := r.value.firstName, lastName := r.value.lastName,
                    profile := r.value.profile, profileComplete := r.value.profileComplete)
    ensures r.Success? && "first_name" !in form ==> r.value.firstName == u.firstName
    ensures r.Success? && !TruthyStr(FormGet(form, "date_naissance")) ==>
      r.value.profile.dateNaissance == u.profile.dateNaissance
    ensures r.Success? && "last_name" !in form ==> r.value.lastName == u.lastName
    ensures r.Success? && "first_name" in form ==> r.value.firstName == form["first_name"]
    ensures r.Success? && "last_name" in form ==> r.value.lastName == form["last_name"]
    ensures r.Success? && TruthyStr(FormGet(form, "date_naissance")) ==>
      r.value.profile.dateNaissance == FormGet(form, "date_naissance")
    ensures r.Success? ==>
      var p := r.value.profile;
      && p.middleName == FormGet(form, "middle_name") && p.phone == FormGet(form, "phone")
      && p.genre == FormGet(form, "genre") && p.lieuNaissance == FormGet(form, "lieu_naissance")
      && p.etatCivil == FormGet(form, "etat_civil") && p.profession == FormGet(form, "profession")
      && p.adresseRue == FormGet(form, "adresse_rue") && p.adresseVille == FormGet(form, "adresse_ville")
      && p.adressePays == FormGet(form, "adresse_pays") && p.codePostal == FormGet(form, "code_postal")
      && p.numeroPasseport == FormGet(form, "numero_passeport")
  {
    if u.role != Usager then Failure(ProfileForbidden)
    else
      var date := FormGet(form, "date_naissance");
      var p := Profile(
        FormGet(form, "middle_name"), FormGet(form, "phone"), FormGet(form, "genre"),
        if TruthyStr(date) then date else u.profile.dateNaissance,
        FormGet(form, "lieu_naissance"), FormGet(form, "etat_civil"),
        FormGet(form, "profession"), FormGet(form, "adresse_rue"),
        FormGet(form, "adresse_ville"), FormGet(form, "adresse_pays"),
        FormGet(form, "code_postal"), FormGet(form, "numero_passeport"));
      var v := u.(firstName := FormGet(form, "first_name").GetOr(u.firstName),
                  lastName := FormGet(form, "last_name").GetOr(u.lastName),
                  profile := p);
      Success(v.(profileComplete := RequiredProfileFilled(v)))
  }

  /**
   * Submitting the profile form without a country always leaves the profile
   * incomplete, whatever was stored before.
   */
  lemma {:induction false} MissingCountryIncomplete(u: User, form: map<string, string>)
    requires u.role == Usager
    requires "adresse_pays" !in form || form["adresse_pays"] == ""
    ensures UpdateProfile(u, form).Success? && !UpdateProfile(u, form).value.profileComplete
  {
  }

  /** `view_application`: staff of any level, or the owner of the application. */
  predicate CanView(viewer: User, app: Application) {
    viewer.IsAdmin() || app.userId == viewer.id
  }

  datatype DownloadOutcome = DownloadForbidden | DownloadNotFound | SendFile(path: string)

  /** `download_document`: the view permission first, then the file's presence on disk. */
  function Download(viewer: User, app: Application, doc: Document, fileExists: bool): (r: DownloadOutcome)
    ensures r == DownloadForbidden <==> !viewer.IsAdmin() && app.userId != viewer.id
    ensures r.SendFile? <==> CanView(viewer, app) && fileExists
    ensures r.SendFile? ==> r.path == doc.path
  {
    if !CanView(viewer, app) then DownloadForbidden
    else if !fileExists then DownloadNotFound
    else SendFile(doc.path)
  }

  /**
   * There is no unit check: any agent may view and download the documents of any
   * application, while a citizen sees only their own.
   */
  lemma {:induction false} ViewIgnoresUnits(viewer: User, app: Application, doc: Document)
    ensures viewer.role == Agent ==> CanView(viewer, app) && Download(viewer, app, doc, true).SendFile?
    ensures viewer.role == Usager ==> (CanView(viewer, app) <==> app.userId == viewer.id)
  {
  }
}

=== FILE: admin_api.dfy ===
/**
 * The JSON administration API open to every staff role: creating a user from a
 * full name and an e-mail, deleting, toggling and assigning units.
 */
module AdminApi {
  import opened Wrappers
  import opened Text
  import opened Seqs
  import opened Domain
  import Crud

  datatype ApiError = Forbidden | EmailInUse | UsernameInUse | NotFound | UnitHasAgents | UnitHasApplications | BadRequest

  /**
   * The first and last names derived from a full name: the stripped text up to
   * the first space, and the rest after that space (or "").
   */
  function SplitFullName(fullName: Option<string>): (r: (string, string))
    ensures !TruthyStr(fullName) ==> r == ("", "")
    ensures TruthyStr(fullName) ==>
      var t := Strip(Python, fullName.value);
      && ' ' !in r.0
      && (if ' ' in t then t == r.0 + " " + r.1 else r == (t, ""))
  {
    if !TruthyStr(fullName) then ("", "")
    else
      var parts := SplitOnce(Strip(Python, fullName.value), ' ');
      (parts.0, parts.1.GetOr(""))
  }

  /** The username derived from an e-mail: the text before the first `@`, or all of it. */
  function UsernameOf(email: string): (r: string)
    ensures '@' !in r && StartsWith(email, r)
    ensures '@' in email ==> |r| < |email| && email[|r|] == '@'
    ensures '@' !in email ==> r == email
  {
    SplitOnce(email, '@').0
  }

  const TemporaryPassword := "motdepasse123"

  /** Does some user already hold this username (the column is unique)? */
  predicate UsernameTaken(users: seq<User>, username: string) {
    exists i :: 0 <= i < |users| && users[i].username == username
  }

  /**
   * `api_admin_users` (POST). Any staff member may call it. A missing e-mail makes
   * the handler fail, and so does an e-mail already in use. The new user is
   * active with a complete profile and a temporary password; `tempHash` is the
   * hash of `TemporaryPassword`. A unit is set only for the `agent` role with a
   * unit id given, and a unit id that is not a number rolls the creation back.
   * The username is the part of the e-mail before `@`; when another user already
   * has it, the commit violates the unique column and the creation is rolled back.
   */
  function CreateUser(current: User, users: seq<User>, newId: nat, email: Option<string>,
                      fullName: Option<string>, role: string, unitField: Option<string>,
                      tempHash: string): (r: Result<seq<User>, ApiError>)
    ensures r == Failure(Forbidden) <==> !current.IsAdmin()
    ensures r == Failure(EmailInUse) <==>
      current.IsAdmin() && email.Some? && exists i :: 0 <= i < |users| && users[i].email == email.value
    ensures r == Failure(UsernameInUse) <==>
      && current.IsAdmin() && email.Some? && (forall i :: 0 <= i < |users| ==> users[i].email != email.value)
      && Crud.AgentUnit(role, unitField).Some? && UsernameTaken(users, UsernameOf(email.value))
    ensures r.Success? <==>
      && current.IsAdmin() && email.Some? && (forall i :: 0 <= i < |users| ==> users[i].email != email.value)
      && Crud.AgentUnit(role, unitField).Some? && !UsernameTaken(users, UsernameOf(email.value))
    ensures r.Success? ==>
      && email.Some? && |r.value| == |users| + 1 && r.value[..|users|] == users
      && var u := r.value[|users|];
      && u.id == newId && u.email == email.value && u.username == UsernameOf(email.value)
      && (forall i :: 0 <= i < |users| ==> users[i].username != u.username && users[i].email != u.email)
      && (u.firstName, u.lastName) == SplitFullName(fullName)
      && RoleName(u.role) == role && u.active && u.profileComplete && u.passwordHash == tempHash
      && (u.unitId.Some? <==> role == "agent" && TruthyStr(unitField))
      && (u.unitId.Some? ==> ParseInt(unitField.value) == Some(u.unitId.value as int))
  {
    if !current.IsAdmin() then Failure(Forbidden)
    else if email.None? then Failure(BadRequest)
    else if exists i :: 0 <= i < |users| && users[i].email == email.value then Failure(EmailInUse)
    else
      var names := SplitFullName(fullName);
      match Crud.AgentUnit(role, unitField)
      case None => Failure(BadRequest)
      case Some(unitId) =>
        if UsernameTaken(users, UsernameOf(email.value)) then Failure(UsernameInUse)
        else
          var u := User(newId, UsernameOf(email.value), email.value, tempHash, names.0, names.1,
                        ParseRole(role), true, unitId, true, EmptyProfile);
          Success(users + [u])
  }

  /**
   * Two e-mails with the same part before `@` cannot both make accounts: once
   * the first is created, the second is refused, on its username when no
   * account already uses that e-mail.
   */
  lemma {:induction false} SameLocalPartRefused(current: User, users: seq<User>, id1: nat, id2: nat,
                                                email1: string, email2: string, fullName: Option<string>,
                                                role: string, unitField: Option<string>, tempHash: string)
    requires CreateUser(current, users, id1, Some(email1), fullName, role, unitField, tempHash).Success?
    requires UsernameOf(email2) == UsernameOf(email1)
    ensures var after := CreateUser(current, users, id1, Some(email1), fullName, role, unitField, tempHash).value;
      var again := CreateUser(current, after, id2, Some(email2), fullName, role, unitField, tempHash);
      && again.Failure?
      && ((forall i :: 0 <= i < |users| ==> users[i].email != email2) && email2 != email1 ==> again == Failure(UsernameInUse))
  {
    var after := CreateUser(current, users, id1, Some(email1), fullName, role, unitField, tempHash).value;
    assert after[|users|].username == UsernameOf(email2);
    assert UsernameTaken(after, UsernameOf(email2));
    assert forall i :: 0 <= i < |users| ==> after[i] == users[i];
  }

  /**
   * A user created from a full name that contains a space gets back exactly that
   * (stripped) name as their full name; a single word gets a trailing space.
   */
  lemma {:induction false} FullNameRoundTrip(fullName: string)
    requires fullName != ""
    ensures var t := Strip(Python, fullName);
      var names := SplitFullName(Some(fullName));
      (' ' in t ==> names.0 + " " + names.1 == t) && (' ' !in t ==> names.0 + " " + names.1 == t + " ")
  {
  }

  /**
   * The API's unit deletion (DELETE): refused while a user with the `agent` role
   * is assigned, then while the unit has applications.
   */
  function DeleteUnit(current: User, units: seq<Unit>, unit: Unit, users: seq<User>,
                      apps: seq<Application>): (r: Result<seq<Unit>, ApiError>)
    ensures r == Failure(Forbidden) <==> !current.IsAdmin()
    ensures r == Failure(UnitHasAgents) <==>
      current.IsAdmin() && exists i :: 0 <= i < |users| && users[i].unitId == Some(unit.id)
                                      && RoleName(users[i].role) == "agent"
    ensures r == Failure(UnitHasApplications) <==>
      && current.IsAdmin()
      && (forall i :: 0 <= i < |users| && users[i].unitId == Some(unit.id) ==> RoleName(users[i].role) != "agent")
      && exists j :: 0 <= j < |apps| && apps[j].unitId == Some(unit.id)
    ensures r.Success? ==>
      && (forall i :: 0 <= i < |r.value| ==> r.value[i].id != unit.id && r.value[i] in units)
      && (forall i :: 0 <= i < |units| && units[i].id != unit.id ==> units[i] in r.value)
    ensures r.Failure? ==> r.error in {Forbidden, UnitHasAgents, UnitHasApplications}
  {
    if !current.IsAdmin() then Failure(Forbidden)
    else if exists i :: 0 <= i < |users| && users[i].unitId == Some(unit.id) && RoleName(users[i].role) == "agent"
    then Failure(UnitHasAgents)
    else if exists j :: 0 <= j < |apps| && apps[j].unitId == Some(unit.id) then Failure(UnitHasApplications)
    else Success(Filter(units, (x: Unit) => x.id != unit.id))
  }

  /**
   * The two unit deletions disagree: the supervisor page refuses whenever the API
   * refuses for agents, but a unit whose only assigned user is an administrator,
   * with no applications, is deleted by the API and kept by the supervisor page.
   */
  lemma {:induction false} UnitDeletionsCompared(current: User, units: seq<Unit>, unit: Unit,
                                                 users: seq<User>, apps: seq<Application>, admin: User)
    requires current.IsAdmin()
    ensures DeleteUnit(current, units, unit, users, apps) == Failure(UnitHasAgents) ==>
      Crud.DeleteUnit(units, unit, users, apps).Failure?
    ensures admin.role == Admin && admin.unitId == Some(unit.id) ==>
      && DeleteUnit(current, units, unit, [admin], []).Success?
      && Crud.DeleteUnit(units, unit, [admin], []).Failure?
  {
    if admin.role == Admin && admin.unitId == Some(unit.id) {
      assert Crud.HasAssignedUsers(unit, [admin]) by {
        assert [admin][0].unitId == Some(unit.id);
      }
    }
  }

  /** `api_toggle_unit_status`: any staff member flips the unit's active flag. */
  function ToggleUnit(current: User, unit: Unit): (r: Result<Unit, ApiError>)
    ensures r.Failure? <==> !current.IsAdmin()
    ensures r.Success? ==> r.value == Crud.ToggleUnit(unit)
  {
    if !current.IsAdmin() then Failure(Forbidden) else Success(Crud.ToggleUnit(unit))
  }

  /**
   * `api_assign_user_unit`: a non-empty unit field must name an existing unit,
   * which the user joins; an empty one removes the user from their unit. The
   * user's role is not consulted.
   */
  function AssignUnit(current: User, u: User, units: seq<Unit>, unitField: Option<string>): (r: Result<User, ApiError>)
    ensures r == Failure(Forbidden) <==> !current.IsAdmin()
    ensures current.IsAdmin() && !TruthyStr(unitField) ==> r == Success(u.(unitId := None))
    ensures r.Success? ==> r.value == u.(unitId := r.value.unitId)
    ensures r.Success? && r.value.unitId.Some? ==>
      && TruthyStr(unitField) && ParseInt(unitField.value) == Some(r.value.unitId.value as int)
      && exists i :: 0 <= i < |units| && units[i].id == r.value.unitId.value
    ensures current.IsAdmin() && TruthyStr(unitField) && r.Failure? ==>
      match ParseInt(unitField.value)
      case None => true
      case Some(v) => forall i :: 0 <= i < |units| ==> units[i].id != v
    ensures current.IsAdmin() && TruthyStr(unitField) && ParseInt(unitField.value).Some?
            && (exists i :: 0 <= i < |units| && units[i].id == ParseInt(unitField.value).value) ==>
      r.Success? && r.value.unitId.Some? && r.value.unitId.value == ParseInt(unitField.value).value
  {
    if !current.IsAdmin() then Failure(Forbidden)
    else if !TruthyStr(unitField) then Success(u.(unitId := None))
    else match ParseInt(unitField.value)
      case None => Failure(BadRequest)
      case Some(v) =>
        match FirstWhere(units, (x: Unit) => x.id == v)
        case None => Failure(NotFound)
        case Some(i) => Success(u.(unitId := Some(units[i].id)))
  }

  /**
   * Assigning is idempotent: submitting the same unit field again leaves the
   * user as the first assignment did.
   */
  lemma {:induction false} AssignUnitIdempotent(current: User, u: User, units: seq<Unit>, unitField: Option<string>)
    requires AssignUnit(current, u, units, unitField).Success?
    ensures var once := AssignUnit(current, u, units, unitField).value;
      AssignUnit(current, once, units, unitField) == Success(once)
  {
  }
}

=== FILE: backend_notifications.dfy ===
/**
 * The notification service of the `backend` package, used by the citizen-facing
 * routes. It differs from the top-level service: the reference id is dropped,
 * only agents are told about new applications, and the status-change message
 * knows three statuses and never carries the comment.
 */
module BackendNotifications {
  import opened Wrappers
  import opened Text
  import opened Seqs
  import opened Domain
  import Notifications

  /** `create_notification`: the reference id argument is accepted and discarded. */
  function CreateNotification(inbox: Inbox, userId: nat, kind: string, title: string, message: string,
                              referenceId: Option<nat>, now: int): (r: Inbox)
    requires inbox.Valid()
    ensures r.Valid()
    ensures |r.items| == |inbox.items| + 1 && r.items[..|inbox.items|] == inbox.items
    ensures var n := r.items[|inbox.items|];
      n.userId == userId && n.kind == kind && n.title == title && n.message == message
      && n.referenceId.None? && !n.read
  {
    inbox.Add(userId, kind, title, message, None, now)
  }

  /** Appends one reference-less notification per recipient, in order. */
  function CreateEach(inbox: Inbox, recipients: seq<User>, kind: string, title: string,
                      message: string, now: int): (r: Inbox)
    requires inbox.Valid()
    ensures r.Valid()
    decreases |recipients|
  {
    if |recipients| == 0 then inbox
    else
      var next := CreateNotification(inbox, recipients[0].id, kind, title, message, None, now);
      CreateEach(next, recipients[1..], kind, title, message, now)
  }

  /** A batch of this service is the top-level service's batch with no reference id. */
  lemma {:induction false} CreateEachDropsReference(inbox: Inbox, recipients: seq<User>, kind: string,
                                                    title: string, message: string, now: int)
    requires inbox.Valid()
    ensures CreateEach(inbox, recipients, kind, title, message, now)
         == Notifications.AddEach(inbox, recipients, kind, title, message, None, now)
    decreases |recipients|
  {
    if |recipients| > 0 {
      var next := CreateNotification(inbox, recipients[0].id, kind, title, message, None, now);
      assert next == inbox.Add(recipients[0].id, kind, title, message, None, now);
      CreateEachDropsReference(next, recipients[1..], kind, title, message, now);
    }
  }

  /** `notify_new_application`: one `nouvelle_demande` per active agent of the unit, nothing else. */
  function NotifyNewApplication(inbox: Inbox, users: seq<User>, app: Application,
                                applicant: User, now: int): (r: Inbox)
    requires inbox.Valid()
    ensures r.Valid()
  {
    CreateEach(inbox, Notifications.UnitAgents(users, app.unitId), "nouvelle_demande",
               Notifications.NewApplicationTitle(app), Notifications.NewApplicationMessage(app, applicant), now)
  }

  /**
   * Side by side with the top-level service: the same agents are notified in the
   * same order with the same texts and ids, but without the reference id, and the
   * top-level service alone adds the unit administrator's notification.
   */
  lemma {:induction false} NewApplicationVariantsCompared(inbox: Inbox, users: seq<User>, app: Application,
                                                          applicant: User, now: int, k: nat)
    requires inbox.Valid()
    requires |inbox.items| <= k < |inbox.items| + |Notifications.UnitAgents(users, app.unitId)|
    ensures |Notifications.NotifyNewApplication(inbox, users, app, applicant, now).items|
          == |NotifyNewApplication(inbox, users, app, applicant, now).items|
             + (if Notifications.FirstUnitAdmin(users, app.unitId).Some? then 1 else 0)
    ensures NotifyNewApplication(inbox, users, app, applicant, now).items[k]
         == Notifications.NotifyNewApplication(inbox, users, app, applicant, now).items[k].(referenceId := None)
    ensures NotifyNewApplication(inbox, users, app, applicant, now).items[k].kind == "nouvelle_demande"
  {
    var agents := Notifications.UnitAgents(users, app.unitId);
    var title := Notifications.NewApplicationTitle(app);
    var message := Notifications.NewApplicationMessage(app, applicant);
    var full := Notifications.NotifyNewApplication(inbox, users, app, applicant, now);
    var a := Notifications.AddEach(inbox, agents, "nouvelle_demande", title, message, Some(app.id), now);
    CreateEachDropsReference(inbox, agents, "nouvelle_demande", title, message, now);
    BatchesDifferInReference(inbox, agents, "nouvelle_demande", title, message, Some(app.id), now, k);
    TopLevelStartsWithAgents(inbox, users, app, applicant, now);
    assert full.items[k] == full.items[..|a.items|][k];
  }

  /** Two batches for the same recipients differ only in their reference id. */
  lemma BatchesDifferInReference(inbox: Inbox, recipients: seq<User>, kind: string, title: string,
                                 message: string, referenceId: Option<nat>, now: int, k: nat)
    requires inbox.Valid() && |inbox.items| <= k < |inbox.items| + |recipients|
    ensures var a := Notifications.AddEach(inbox, recipients, kind, title, message, referenceId, now);
      var b := Notifications.AddEach(inbox, recipients, kind, title, message, None, now);
      |a.items| == |b.items| && b.items[k] == a.items[k].(referenceId := None) && b.items[k].kind == kind
  {
    var j := k - |inbox.items|;
    var a := Notifications.AddEach(inbox, recipients, kind, title, message, referenceId, now);
    var b := Notifications.AddEach(inbox, recipients, kind, title, message, None, now);
    Notifications.AddEachAt(inbox, recipients, kind, title, message, referenceId, now, j);
    Notifications.AddEachAt(inbox, recipients, kind, title, message, None, now, j);
    var n := Notification(inbox.nextId + j, recipients[j].id, kind, title, message, referenceId, false, now);
    assert a.items[k] == n;
    assert b.items[k] == n.(referenceId := None);
  }

  /** The top-level service's notifications begin with its batch for the unit's agents. */
  lemma TopLevelStartsWithAgents(inbox: Inbox, users: seq<User>, app: Application, applicant: User, now: int)
    requires inbox.Valid()
    ensures var a := Notifications.AddEach(inbox, Notifications.UnitAgents(users, app.unitId), "nouvelle_demande",
                                           Notifications.NewApplicationTitle(app),
                                           Notifications.NewApplicationMessage(app, applicant), Some(app.id), now);
      var full := Notifications.NotifyNewApplication(inbox, users, app, applicant, now);
      |a.items| <= |full.items| && full.items[..|a.items|] == a.items
  {
  }

  /** The three statuses this service has a dedicated text for. */
  function StatusChangeText(code: string): Option<string> {
    match code
    case "en_traitement" => Some("Votre demande est maintenant en cours de traitement.")
    case "validee" => Some("Votre demande a été approuvée !")
    case "rejetee" => Some("Votre demande a été rejetée.")
    case _ => None
  }

  /** The status-change message; the comment is never part of it. */
  function StatusChangeMessage(newStatus: string): (r: string)
    ensures StatusChangeText(newStatus).None? ==> r == Notifications.DefaultStatusText + newStatus
    ensures StatusChangeText(newStatus).Some? ==> r == Notifications.StatusChangeMessage(newStatus, None)
  {
    StatusChangeText(newStatus).GetOr(Notifications.DefaultStatusText + newStatus)
  }

  /**
   * The two services send the same status text exactly when there is no comment
   * and the status is not one of the three later stages only the top-level
   * service describes.
   */
  lemma {:induction false} StatusMessagesAgree(newStatus: string, comment: Option<string>)
    ensures Notifications.StatusChangeMessage(newStatus, comment) == StatusChangeMessage(newStatus)
      <==> !TruthyStr(comment) && newStatus !in {"documents_requis", "pret_pour_retrait", "cloture"}
  {
    var a := Notifications.StatusChangeMessage(newStatus, comment);
    var b := StatusChangeMessage(newStatus);
    var baseA := Notifications.StatusChangeText(newStatus).GetOr(Notifications.DefaultStatusText + newStatus);
    if newStatus in {"documents_requis", "pret_pour_retrait", "cloture"} {
      assert b[0] == 'S';
      assert StartsWith(a, baseA);
      assert a[0] == baseA[0];
      assert baseA[0] != 'S';
    } else if TruthyStr(comment) {
      assert baseA == b;
      assert |a| > |b|;
    }
  }

  /** `notify_application_status_change`: one `demande_traitee` notification, without reference id. */
  function NotifyStatusChange(inbox: Inbox, app: Application, newStatus: string, now: int): (r: Inbox)
    requires inbox.Valid()
    ensures r.Valid()
    ensures |r.items| == |inbox.items| + 1 && r.items[..|inbox.items|] == inbox.items
    ensures var n := r.items[|inbox.items|];
      n.userId == app.userId && n.kind == "demande_traitee" && n.title == "Demande " + app.reference
      && n.message == StatusChangeMessage(newStatus) && n.referenceId.None?
  {
    CreateNotification(inbox, app.userId, "demande_traitee", "Demande " + app.reference,
                       StatusChangeMessage(newStatus), Some(app.id), now)
  }
}

=== FILE: backups.dfy ===
/**
 * The backup service's bookkeeping: the name an archive gets from the moment
 * it is made, which files of the backup directory are listed and in what
 * order, which of them the retention rule deletes, what a backup run records
 * in its report and archive, and what restoring an archive reports.
 */
module Backups {
  import opened Wrappers
  import opened Text

  // ---------------------------------------------------------------- dates

  /** A naive local `datetime`. */
  datatype DateTime = DateTime(year: int, month: int, day: int, hour: int, minute: int, second: int)

  predicate LeapYear(y: int) {
    y % 4 == 0 && (y % 100 != 0 || y % 400 == 0)
  }

  function DaysInMonth(y: int, m: int): (r: int)
    requires 1 <= m <= 12
    ensures 28 <= r <= 31
    ensures r == 29 <==> m == 2 && LeapYear(y)
  {
    if m == 2 then (if LeapYear(y) then 29 else 28)
    else if m == 4 || m == 6 || m == 9 || m == 11 then 30
    else 31
  }

  /** The values Python's `datetime` constructor accepts. */
  predicate ValidDateTime(d: DateTime) {
    && 1 <= d.year <= 9999
    && 1 <= d.month <= 12
    && 1 <= d.day <= DaysInMonth(d.year, d.month)
    && 0 <= d.hour < 24 && 0 <= d.minute < 60 && 0 <= d.second < 60
  }

  /** `a <= b` on datetimes: field by field, the most significant first. */
  predicate NotAfter(a: DateTime, b: DateTime) {
    || a.year < b.year
    || (a.year == b.year && a.month < b.month)
    || (a.year == b.year && a.month == b.month && a.day < b.day)
    || (a.year == b.year && a.month == b.month && a.day == b.day && a.hour < b.hour)
    || (a.year == b.year && a.month == b.month && a.day == b.day && a.hour == b.hour && a.minute < b.minute)
    || (a.year == b.year && a.month == b.month && a.day == b.day && a.hour == b.hour && a.minute == b.minute
        && a.second <= b.second)
  }

  lemma NotAfterTotal(a: DateTime, b: DateTime)
    ensures NotAfter(a, b) || NotAfter(b, a)
  {
  }

  lemma NotAfterTransitive(a: DateTime, b: DateTime, c: DateTime)
    requires NotAfter(a, b) && NotAfter(b, c)
    ensures NotAfter(a, c)
  {
  }

  lemma NotAfterAntisymmetric(a: DateTime, b: DateTime)
    requires NotAfter(a, b) && NotAfter(b, a)
    ensures a == b
  {
  }

  // ---------------------------------------------------------------- stamps

  function Pow10(w: nat): (r: nat)
    ensures r >= 1
  {
    if w == 0 then 1 else 10 * Pow10(w - 1)
  }

  /** `n` in exactly `w` decimal digits, zero-padded, as `%m` or `%H` write it. */
  function Padded(n: nat, w: nat): (r: string)
    requires n < Pow10(w)
    ensures |r| == w && AllDigits(r)
    ensures DigitsValue(r) == n
  {
    if w == 0 then ""
    else
      var r := Padded(n / 10, w - 1) + [DigitChar(n % 10)];
      assert r[..|r| - 1] == Padded(n / 10, w - 1);
      r
  }

  /** Reading `w` digits and writing the value back in `w` digits gives the same text. */
  lemma {:induction false} PaddedValue(t: string)
    requires AllDigits(t)
    ensures DigitsValue(t) < Pow10(|t|)
    ensures Padded(DigitsValue(t), |t|) == t
    decreases |t|
  {
    if |t| > 0 {
      var u := t[..|t| - 1];
      PaddedValue(u);
      var last := t[|t| - 1] as int - '0' as int;
      DigitStep(DigitsValue(u), last, Pow10(|u|));
      assert DigitChar(last) == t[|t| - 1];
      assert t == u + [t[|t| - 1]];
    }
  }

  /** Appending one decimal digit, and taking it off again. */
  lemma DigitStep(v: nat, last: nat, bound: nat)
    requires last < 10 && v < bound
    ensures (v * 10 + last) / 10 == v && (v * 10 + last) % 10 == last
    ensures v * 10 + last < 10 * bound
  {
  }

  /** A datetime `strftime('%Y%m%d_%H%M%S')` renders in fifteen characters. */
  predicate Stampable(d: DateTime) {
    ValidDateTime(d) && 1000 <= d.year
  }

  /** `strftime('%Y%m%d_%H%M%S')`. */
  function FormatStamp(d: DateTime): (r: string)
    requires Stampable(d)
    ensures |r| == 15 && r[8] == '_'
    ensures forall i :: 0 <= i < |r| ==> IsDigit(r[i]) || r[i] == '_'
  {
    assert Pow10(2) == 100 && Pow10(4) == 10000;
    Padded(d.year, 4) + Padded(d.month, 2) + Padded(d.day, 2) + "_"
      + Padded(d.hour, 2) + Padded(d.minute, 2) + Padded(d.second, 2)
  }

  /** Fifteen characters: eight digits, an underscore, six digits. */
  predicate StampLayout(s: string) {
    && |s| == 15 && s[8] == '_'
    && AllDigits(s[..4]) && AllDigits(s[4..6]) && AllDigits(s[6..8])
    && AllDigits(s[9..11]) && AllDigits(s[11..13]) && AllDigits(s[13..])
  }

  /** The six fields of a stamp, read as numbers. */
  function Fields(s: string): DateTime
    requires StampLayout(s)
  {
    DateTime(DigitsValue(s[..4]), DigitsValue(s[4..6]), DigitsValue(s[6..8]),
             DigitsValue(s[9..11]), DigitsValue(s[11..13]), DigitsValue(s[13..]))
  }

  /**
   * `datetime.strptime(s, '%Y%m%d_%H%M%S')` on the zero-padded layout: fifteen
   * characters, digits around one underscore, naming a date and time that
   * exist; anything else raises, modelled as None.
   */
  function ParseStamp(s: string): (r: Option<DateTime>)
    ensures r.Some? ==> ValidDateTime(r.value)
    ensures r.Some? <==> StampLayout(s) && ValidDateTime(Fields(s))
  {
    if !StampLayout(s) then None
    else if ValidDateTime(Fields(s)) then Some(Fields(s)) else None
  }

  /** Parsing reads back what formatting wrote. */
  lemma StampRoundTrip(d: DateTime)
    requires Stampable(d)
    ensures ParseStamp(FormatStamp(d)) == Some(d)
  {
    assert Pow10(2) == 100 && Pow10(4) == 10000;
    var y, mo, dd := Padded(d.year, 4), Padded(d.month, 2), Padded(d.day, 2);
    var h, mi, se := Padded(d.hour, 2), Padded(d.minute, 2), Padded(d.second, 2);
    StampSlices(y, mo, dd, h, mi, se);
    var s := FormatStamp(d);
    assert s == y + mo + dd + "_" + h + mi + se;
    assert StampLayout(s);
    assert Fields(s) == d;
  }

  /** The slices of an assembled stamp are the parts it was assembled from. */
  lemma StampSlices(y: string, mo: string, d: string, h: string, mi: string, se: string)
    requires |y| == 4 && |mo| == 2 && |d| == 2 && |h| == 2 && |mi| == 2 && |se| == 2
    ensures var s := y + mo + d + "_" + h + mi + se;
      && |s| == 15 && s[8] == '_'
      && s[..4] == y && s[4..6] == mo && s[6..8] == d
      && s[9..11] == h && s[11..13] == mi && s[13..] == se
  {
    var s := y + mo + d + "_" + h + mi + se;
    assert s[..4] == y;
    assert s[4..6] == mo;
    assert s[6..8] == d;
    assert s[9..11] == h;
    assert s[11..13] == mi;
    assert s[13..] == se;
  }

  /** A stamp is its six fields around the underscore. */
  lemma StampFields(s: string)
    requires |s| == 15 && s[8] == '_'
    ensures s == s[..4] + s[4..6] + s[6..8] + "_" + s[9..11] + s[11..13] + s[13..]
  {
    assert s == s[..4] + s[4..6] + s[6..8] + [s[8]] + s[9..11] + s[11..13] + s[13..];
  }

  /** Writing the fields of a stamp back gives the stamp. */
  lemma FormatFields(s: string)
    requires StampLayout(s) && Stampable(Fields(s))
    ensures FormatStamp(Fields(s)) == s
  {
    var d := Fields(s);
    PaddedValue(s[..4]);
    PaddedValue(s[4..6]);
    PaddedValue(s[6..8]);
    PaddedValue(s[9..11]);
    PaddedValue(s[11..13]);
    PaddedValue(s[13..]);
    assert Padded(d.year, 4) == s[..4] && Padded(d.month, 2) == s[4..6] && Padded(d.day, 2) == s[6..8];
    assert Padded(d.hour, 2) == s[9..11] && Padded(d.minute, 2) == s[11..13] && Padded(d.second, 2) == s[13..];
    StampFields(s);
  }

  /** A stamp that parses to a four-digit year is exactly what formatting that datetime writes. */
  lemma ParsedStampIsFormatted(s: string)
    requires ParseStamp(s).Some? && ParseStamp(s).value.year >= 1000
    ensures FormatStamp(ParseStamp(s).value) == s
  {
    FormatFields(s);
  }

  // ---------------------------------------------------------------- names

  const BackupPrefix := "backup_econsulaire_"
  const ArchiveSuffix := ".zip"

  /** `create_full_backup`: the backup made at `now` is named after its stamp. */
  function BackupName(now: DateTime): string
    requires Stampable(now)
  {
    BackupPrefix + FormatStamp(now)
  }

  /** The archive the backup is zipped into. */
  function ArchiveName(now: DateTime): string
    requires Stampable(now)
  {
    BackupName(now) + ArchiveSuffix
  }

  /** The files `list_backups` looks at. */
  predicate IsArchiveName(f: string) {
    StartsWith(f, BackupPrefix) && EndsWith(f, ArchiveSuffix)
  }

  /** Python's `s.replace(p, '')`: the occurrences of `p`, found left to right, removed. */
  function RemoveAll(s: string, p: string): (r: string)
    requires |p| > 0
    ensures |r| <= |s|
    decreases |s|
  {
    if |s| < |p| then s
    else if s[..|p|] == p then RemoveAll(s[|p|..], p)
    else [s[0]] + RemoveAll(s[1..], p)
  }

  /** Text without the pattern's first character passes through untouched. */
  lemma {:induction false} RemoveAllSkips(a: string, b: string, p: string)
    requires |p| > 0 && p[0] !in a
    ensures RemoveAll(a + b, p) == a + RemoveAll(b, p)
    decreases |a|
  {
    if |a| == 0 {
      assert a + b == b;
    } else {
      var s := a + b;
      assert s[0] == a[0] && a[0] in a;
      if |s| < |p| {
        assert RemoveAll(b, p) == b;
      } else {
        RemoveAllStep(s, p);
        assert s[1..] == a[1..] + b;
        assert p[0] !in a[1..] by {
          assert forall x :: x in a[1..] ==> x in a;
        }
        RemoveAllSkips(a[1..], b, p);
        assert a == [a[0]] + a[1..];
      }
    }
  }

  /** A text not starting with the pattern's first character keeps that character. */
  lemma RemoveAllStep(s: string, p: string)
    requires 0 < |p| <= |s| && s[0] != p[0]
    ensures RemoveAll(s, p) == [s[0]] + RemoveAll(s[1..], p)
  {
    assert s[..|p|][0] == s[0];
  }

  /** A leading occurrence of the pattern is dropped. */
  lemma RemoveAllLeading(p: string, b: string)
    requires |p| > 0
    ensures RemoveAll(p + b, p) == RemoveAll(b, p)
  {
    assert (p + b)[..|p|] == p;
    assert (p + b)[|p|..] == b;
  }

  /** The date text `list_backups` cuts out of a file name. */
  function StampPart(name: string): string {
    RemoveAll(RemoveAll(name, BackupPrefix), ArchiveSuffix)
  }

  /** Cutting the prefix and the suffix out of an archive name gives back its stamp. */
  lemma StampOfArchive(now: DateTime)
    requires Stampable(now)
    ensures IsArchiveName(ArchiveName(now))
    ensures StampPart(ArchiveName(now)) == FormatStamp(now)
  {
    var stamp := FormatStamp(now);
    var name := ArchiveName(now);
    assert name == BackupPrefix + (stamp + ArchiveSuffix);
    assert name[..|BackupPrefix|] == BackupPrefix;
    assert name[|name| - |ArchiveSuffix|..] == ArchiveSuffix;
    RemoveAllLeading(BackupPrefix, stamp + ArchiveSuffix);
    assert BackupPrefix[0] !in stamp + ArchiveSuffix by {
      assert BackupPrefix[0] == 'b';
      assert forall i :: 0 <= i < |stamp + ArchiveSuffix| ==> (stamp + ArchiveSuffix)[i] != 'b';
    }
    RemoveAllSkips(stamp + ArchiveSuffix, "", BackupPrefix);
    assert stamp + ArchiveSuffix + "" == stamp + ArchiveSuffix;
    assert ArchiveSuffix[0] !in stamp;
    RemoveAllSkips(stamp, ArchiveSuffix, ArchiveSuffix);
    RemoveAllLeading(ArchiveSuffix, "");
    assert ArchiveSuffix + "" == ArchiveSuffix;
  }

  // ---------------------------------------------------------------- listing

  /** A file of the backup directory with its modification time in local time. */
  datatype DirEntry = DirEntry(name: string, mtime: DateTime)

  /** A listed backup: its file name and the date it is ordered by. */
  datatype Backup = Backup(filename: string, date: DateTime)

  /** The date `list_backups` gives a file: parsed from its name, else its modification time. */
  function DateOf(f: DirEntry): DateTime {
    match ParseStamp(StampPart(f.name))
    case Some(d) => d
    case None => f.mtime
  }

  /** An archive the service wrote is dated by its name, whatever its modification time. */
  lemma ArchiveDatedByName(now: DateTime, mtime: DateTime)
    requires Stampable(now)
    ensures DateOf(DirEntry(ArchiveName(now), mtime)) == now
  {
    StampOfArchive(now);
    StampRoundTrip(now);
  }

  function ToBackup(f: DirEntry): Backup {
    Backup(f.name, DateOf(f))
  }

  /** The archives of a directory listing, in listing order. */
  function Entries(listing: seq<DirEntry>): (r: seq<Backup>)
    ensures forall b :: b in r ==> IsArchiveName(b.filename)
    ensures forall i :: 0 <= i < |listing| && IsArchiveName(listing[i].name) ==> ToBackup(listing[i]) in r
    ensures forall b :: b in r ==> exists i :: 0 <= i < |listing| && ToBackup(listing[i]) == b
  {
    if |listing| == 0 then []
    else
      var rest := Entries(listing[1..]);
      var r := (if IsArchiveName(listing[0].name) then [ToBackup(listing[0])] else []) + rest;
      assert forall b :: b in rest ==> exists i :: 0 <= i < |listing| && ToBackup(listing[i]) == b by {
        forall b | b in rest ensures exists i :: 0 <= i < |listing| && ToBackup(listing[i]) == b {
          var k :| 0 <= k < |listing[1..]| && ToBackup(listing[1..][k]) == b;
          assert ToBackup(listing[k + 1]) == b;
        }
      }
      assert forall i :: 1 <= i < |listing| ==> listing[i] == listing[1..][i - 1];
      r
  }

  lemma {:induction false} EntriesAppend(a: seq<DirEntry>, f: DirEntry)
    ensures Entries(a + [f]) == Entries(a) + (if IsArchiveName(f.name) then [ToBackup(f)] else [])
    decreases |a|
  {
    if |a| == 0 {
      assert [f][1..] == [];
    } else {
      assert (a + [f])[1..] == a[1..] + [f];
      EntriesAppend(a[1..], f);
    }
  }

  predicate NewestFirst(s: seq<Backup>) {
    forall i, j :: 0 <= i < j < |s| ==> NotAfter(s[j].date, s[i].date)
  }

  /** No element of `s` is newer than `x`. */
  predicate NoneNewer(x: Backup, s: seq<Backup>) {
    forall j :: 0 <= j < |s| ==> NotAfter(s[j].date, x.date)
  }

  lemma NoneNewerPermutation(x: Backup, s: seq<Backup>, y: Backup, r: seq<Backup>)
    requires NoneNewer(x, s) && NotAfter(y.date, x.date) && multiset(r) == multiset(s) + multiset{y}
    ensures NoneNewer(x, r)
  {
    forall j | 0 <= j < |r|
      ensures NotAfter(r[j].date, x.date)
    {
      assert r[j] in multiset(r);
      if r[j] != y {
        assert r[j] in multiset(s);
        var k :| 0 <= k < |s| && s[k] == r[j];
      }
    }
  }

  /** `x` placed before the first element not newer than it, so that ties keep their order. */
  function InsertNewest(x: Backup, s: seq<Backup>): (r: seq<Backup>)
    requires NewestFirst(s)
    ensures multiset(r) == multiset(s) + multiset{x} && |r| == |s| + 1
    ensures NewestFirst(r)
  {
    if |s| == 0 then [x]
    else if NotAfter(s[0].date, x.date) then
      assert NoneNewer(x, s) by {
        forall j | 0 < j < |s| ensures NotAfter(s[j].date, x.date) {
          NotAfterTransitive(s[j].date, s[0].date, x.date);
        }
      }
      ConsNewestFirst(x, s);
      [x] + s
    else
      assert s == [s[0]] + s[1..];
      var rest := InsertNewest(x, s[1..]);
      NotAfterTotal(x.date, s[0].date);
      assert NoneNewer(s[0], s[1..]) by {
        forall j | 0 <= j < |s| - 1 ensures NotAfter(s[1..][j].date, s[0].date) {
          assert s[1..][j] == s[j + 1];
        }
      }
      NoneNewerPermutation(s[0], s[1..], x, rest);
      ConsNewestFirst(s[0], rest);
      [s[0]] + rest
  }

  /** A newest-first sequence stays so behind an element none of it is newer than. */
  lemma ConsNewestFirst(y: Backup, s: seq<Backup>)
    requires NewestFirst(s) && NoneNewer(y, s)
    ensures NewestFirst([y] + s)
  {
    var r := [y] + s;
    forall i, j | 0 <= i < j < |r| ensures NotAfter(r[j].date, r[i].date) {
      assert r[j] == s[j - 1];
      if i > 0 {
        assert r[i] == s[i - 1];
      }
    }
  }

  /** `sorted(backups, key=date, reverse=True)`. */
  function SortNewestFirst(s: seq<Backup>): (r: seq<Backup>)
    ensures multiset(r) == multiset(s) && |r| == |s|
    ensures NewestFirst(r)
  {
    if |s| == 0 then []
    else
      assert s == [s[0]] + s[1..];
      InsertNewest(s[0], SortNewestFirst(s[1..]))
  }

  /**
   * `list_backups`: the archives of the directory, newest first; a missing
   * directory (None) lists nothing.
   */
  function ListBackups(listing: Option<seq<DirEntry>>): (r: seq<Backup>)
    ensures listing.None? ==> r == []
    ensures listing.Some? ==> multiset(r) == multiset(Entries(listing.value))
    ensures NewestFirst(r)
  {
    if listing.None? then [] else SortNewestFirst(Entries(listing.value))
  }

  /** A file listed by `list_backups` is an archive of the directory. */
  lemma ListedAreArchives(listing: seq<DirEntry>, b: Backup)
    requires b in ListBackups(Some(listing))
    ensures IsArchiveName(b.filename)
    ensures exists i :: 0 <= i < |listing| && IsArchiveName(listing[i].name) && ToBackup(listing[i]) == b
  {
    assert b in multiset(ListBackups(Some(listing)));
    assert b in multiset(Entries(listing));
    assert b in Entries(listing);
    var i :| 0 <= i < |listing| && ToBackup(listing[i]) == b;
    assert listing[i].name == b.filename;
  }

  /** Every archive of the directory is listed, and nothing else. */
  lemma ArchivesAreListed(listing: seq<DirEntry>, i: nat)
    requires i < |listing| && IsArchiveName(listing[i].name)
    ensures ToBackup(listing[i]) in ListBackups(Some(listing))
  {
    assert ToBackup(listing[i]) in multiset(Entries(listing));
  }

  // ---------------------------------------------------------------- retention

  const MaxBackups := 30

  /**
   * `cleanup_old_backups`: of the listed backups, newest first, those past the
   * first thirty are deleted. They are never newer than any that is kept.
   */
  function OldBackups(listing: Option<seq<DirEntry>>): (r: seq<Backup>)
    ensures var all := ListBackups(listing);
      && |r| == (if |all| > MaxBackups then |all| - MaxBackups else 0)
      && r == all[|all| - |r|..]
      && forall i, j :: 0 <= i < |all| - |r| && 0 <= j < |r| ==> NotAfter(r[j].date, all[i].date)
  {
    var all := ListBackups(listing);
    if |all| > MaxBackups then
      assert forall j :: 0 <= j < |all| - MaxBackups ==> all[MaxBackups..][j] == all[MaxBackups + j];
      all[MaxBackups..]
    else []
  }

  /** In a newest-first sequence, a backup newer than every other element comes first. */
  lemma StrictlyNewestIsFirst(all: seq<Backup>, b: Backup)
    requires NewestFirst(all) && b in all
    requires forall j :: 0 <= j < |all| && all[j] != b ==> !NotAfter(b.date, all[j].date)
    ensures all[0] == b
  {
    var k :| 0 <= k < |all| && all[k] == b;
    if k > 0 {
      assert NotAfter(all[k].date, all[0].date);
    }
  }

  /** An element that occurs once and comes first is absent from the rest. */
  lemma OnceAtHead(all: seq<Backup>, b: Backup)
    requires |all| > 0 && all[0] == b && multiset(all)[b] == 1
    ensures b !in all[1..]
  {
    assert all == [b] + all[1..];
    assert multiset(all) == multiset{b} + multiset(all[1..]);
  }

  /** The cleanup deletes only from the thirty-first listed backup on, so never the first. */
  lemma FirstIsKept(listing: seq<DirEntry>)
    requires |ListBackups(Some(listing))| > 0
    requires multiset(ListBackups(Some(listing)))[ListBackups(Some(listing))[0]] == 1
    ensures ListBackups(Some(listing))[0] !in OldBackups(Some(listing))
  {
    var all := ListBackups(Some(listing));
    var gone := OldBackups(Some(listing));
    HeadNotInTail(all, gone);
  }

  /** An element occurring once at the head is not in a proper suffix. */
  lemma HeadNotInTail(all: seq<Backup>, tail: seq<Backup>)
    requires |tail| < |all| && tail == all[|all| - |tail|..] && multiset(all)[all[0]] == 1
    ensures all[0] !in tail
  {
    OnceAtHead(all, all[0]);
    assert tail == all[1..][|all| - |tail| - 1..];
  }

  /** A backup strictly newer than every other listed one is listed first and never deleted. */
  lemma {:induction false} NewestIsKept(listing: seq<DirEntry>, b: Backup)
    requires b in ListBackups(Some(listing))
    requires multiset(Entries(listing))[b] == 1
    requires forall i :: 0 <= i < |listing| && IsArchiveName(listing[i].name) && ToBackup(listing[i]) != b ==>
      !NotAfter(b.date, DateOf(listing[i]))
    ensures ListBackups(Some(listing))[0] == b
    ensures b !in OldBackups(Some(listing))
  {
    var all := ListBackups(Some(listing));
    forall j | 0 <= j < |all| && all[j] != b
      ensures !NotAfter(b.date, all[j].date)
    {
      ListedAreArchives(listing, all[j]);
    }
    StrictlyNewestIsFirst(all, b);
    FirstIsKept(listing);
  }

  // ---------------------------------------------------------------- backup runs

  datatype ComponentKind = DatabaseDump | UploadedFiles | Configuration | AuditLogs

  /** One entry of the report's `components`: which part and whether it succeeded. */
  datatype ComponentReport = ComponentReport(kind: ComponentKind, ok: bool)

  /** What a zipped backup holds, as restoring looks at it. */
  datatype Archive = Archive(hasDatabase: bool, hasUploads: bool)

  /**
   * How writing the zip ends: the file could not be opened, it was opened and
   * a write then raised (the partial file stays on disk), or every file went in.
   */
  datatype ZipOutcome = ZipNotCreated | ZipPartial | ZipComplete

  /**
   * The outcome of the file-system and process steps a backup run makes.
   * `uploadFileCopied` says the copy of the uploads tree holds at least one
   * file, which is what the zip takes from it; `finishOk` covers removing the
   * working directory and reading the archive's size after the zip.
   */
  datatype BackupSteps = BackupSteps(
    dirOk: bool, databaseUrlSet: bool, dumpOk: bool, uploadsExist: bool, copyOk: bool,
    uploadFileCopied: bool, configOk: bool, logsOk: bool, zip: ZipOutcome, finishOk: bool)

  /** `written` says the run leaves its zip file in the backup directory. */
  datatype BackupReport = BackupReport(success: bool, name: string, components: seq<ComponentReport>,
                                       archive: Option<Archive>, written: bool)

  /**
   * The parts a run reports once its working directory exists, in order: the
   * database, the uploads when they were asked for, the configuration and
   * the logs.
   */
  function Components(includeFiles: bool, steps: BackupSteps): (r: seq<ComponentReport>)
    ensures (exists i :: 0 <= i < |r| && r[i].kind == UploadedFiles) <==> includeFiles
    ensures forall i :: 0 <= i < |r| && r[i].kind == DatabaseDump ==>
              (r[i].ok <==> steps.databaseUrlSet && steps.dumpOk)
  {
    var database := ComponentReport(DatabaseDump, steps.databaseUrlSet && steps.dumpOk);
    var config := ComponentReport(Configuration, steps.configOk);
    var logs := ComponentReport(AuditLogs, steps.logsOk);
    if includeFiles then
      var r := [database, ComponentReport(UploadedFiles, steps.uploadsExist && steps.copyOk), config, logs];
      assert r[1].kind == UploadedFiles;
      r
    else [database, config, logs]
  }

  /**
   * `create_full_backup`: each part catches its own errors and only records
   * them, so a failed database dump still leaves a successful backup; only
   * creating the working directory, the zip or the steps after it can fail
   * the run. The shell redirect creates `database.sql` before `pg_dump` runs,
   * so the archive holds it whenever a database address is configured, even
   * if the dump failed. The zip takes files only, so an uploads tree without
   * a file leaves no uploads in the archive. The error handler removes only
   * the working directory: a zip file already opened stays behind.
   */
  function CreateFullBackup(includeFiles: bool, now: DateTime, steps: BackupSteps): (r: BackupReport)
    requires Stampable(now)
    ensures r.name == BackupName(now)
    ensures r.success <==> steps.dirOk && steps.zip == ZipComplete && steps.finishOk
    ensures r.written <==> steps.dirOk && steps.zip != ZipNotCreated
    ensures r.success ==> r.written
    ensures r.archive.Some? <==> r.success
    ensures r.success ==> r.archive.value.hasUploads == (includeFiles && steps.uploadsExist && steps.uploadFileCopied)
    ensures r.success ==> r.archive.value.hasDatabase == steps.databaseUrlSet
    ensures (exists i :: 0 <= i < |r.components| && r.components[i].kind == UploadedFiles)
            <==> includeFiles && steps.dirOk
    ensures forall i :: 0 <= i < |r.components| && r.components[i].kind == DatabaseDump ==>
              (r.components[i].ok <==> steps.databaseUrlSet && steps.dumpOk)
  {
    if !steps.dirOk then BackupReport(false, BackupName(now), [], None, false)
    else
      var components := Components(includeFiles, steps);
      var written := steps.zip != ZipNotCreated;
      if steps.zip == ZipComplete && steps.finishOk then
        BackupReport(true, BackupName(now), components,
                     Some(Archive(steps.databaseUrlSet, includeFiles && steps.uploadsExist && steps.uploadFileCopied)),
                     written)
      else BackupReport(false, BackupName(now), components, None, written)
  }

  /** The daily backup leaves the uploaded files out; the weekly one takes them. */
  lemma DailyAndWeeklyCompared(now: DateTime, steps: BackupSteps)
    requires Stampable(now) && steps.dirOk && steps.zip == ZipComplete && steps.finishOk
    requires steps.uploadsExist && steps.uploadFileCopied
    ensures !CreateFullBackup(false, now, steps).archive.value.hasUploads
    ensures CreateFullBackup(true, now, steps).archive.value.hasUploads
    ensures forall c :: c in CreateFullBackup(false, now, steps).components ==> c.kind != UploadedFiles
  {
  }

  /**
   * A scheduled run (`_daily_backup` without files, `_weekly_backup` with
   * them): the backup, then the cleanup over the directory that now also
   * holds the new zip file whenever it was written, even by a run that
   * failed. Returns the report and the backups the cleanup deletes.
   */
  function ScheduledBackup(includeFiles: bool, now: DateTime, steps: BackupSteps, listing: seq<DirEntry>,
                           mtime: DateTime): (r: (BackupReport, seq<Backup>))
    requires Stampable(now)
    ensures r.0 == CreateFullBackup(includeFiles, now, steps)
    ensures r.0.success ==> r.1 == OldBackups(Some(listing + [DirEntry(ArchiveName(now), mtime)]))
    ensures r.0.written ==> r.1 == OldBackups(Some(listing + [DirEntry(ArchiveName(now), mtime)]))
    ensures !r.0.written ==> r.1 == OldBackups(Some(listing))
  {
    var report := CreateFullBackup(includeFiles, now, steps);
    var after := if report.written then listing + [DirEntry(ArchiveName(now), mtime)] else listing;
    (report, OldBackups(Some(after)))
  }

  /**
   * The archive a run has just written is newer than every archive already in
   * the directory: it is listed, once, and strictly newer than all the others.
   */
  lemma {:induction false} NewArchiveIsNewest(now: DateTime, listing: seq<DirEntry>, mtime: DateTime)
    requires Stampable(now)
    requires forall i :: 0 <= i < |listing| && IsArchiveName(listing[i].name) ==> !NotAfter(now, DateOf(listing[i]))
    ensures var after := listing + [DirEntry(ArchiveName(now), mtime)];
      var b := Backup(ArchiveName(now), now);
      && b in ListBackups(Some(after)) && multiset(Entries(after))[b] == 1
      && forall i :: 0 <= i < |after| && IsArchiveName(after[i].name) && ToBackup(after[i]) != b ==>
           !NotAfter(b.date, DateOf(after[i]))
  {
    var f := DirEntry(ArchiveName(now), mtime);
    var b := Backup(ArchiveName(now), now);
    var after := listing + [f];
    StampOfArchive(now);
    ArchiveDatedByName(now, mtime);
    assert ToBackup(f) == b;
    EntriesAppend(listing, f);
    NewArchiveNotYetListed(now, listing);
    assert after[|listing|] == f;
    ArchivesAreListed(after, |listing|);
    forall i | 0 <= i < |after| && IsArchiveName(after[i].name) && ToBackup(after[i]) != b
      ensures !NotAfter(b.date, DateOf(after[i]))
    {
      assert i < |listing| && after[i] == listing[i];
    }
  }

  /** An archive dated `now` is not among archives all older than `now`. */
  lemma NewArchiveNotYetListed(now: DateTime, listing: seq<DirEntry>)
    requires forall i :: 0 <= i < |listing| && IsArchiveName(listing[i].name) ==> !NotAfter(now, DateOf(listing[i]))
    ensures forall name :: Backup(name, now) !in Entries(listing)
  {
    forall i | 0 <= i < |listing| && IsArchiveName(listing[i].name) ensures DateOf(listing[i]) != now {
      assert NotAfter(now, now);
    }
  }

  /** The zip file a run has just written, even one a failed run left, survives the cleanup that follows it. */
  lemma {:induction false} NewBackupSurvivesCleanup(includeFiles: bool, now: DateTime, steps: BackupSteps,
                                                    listing: seq<DirEntry>, mtime: DateTime)
    requires Stampable(now) && steps.dirOk && steps.zip != ZipNotCreated
    requires forall i :: 0 <= i < |listing| && IsArchiveName(listing[i].name) ==> !NotAfter(now, DateOf(listing[i]))
    ensures Backup(ArchiveName(now), now) !in ScheduledBackup(includeFiles, now, steps, listing, mtime).1
  {
    var after := listing + [DirEntry(ArchiveName(now), mtime)];
    assert CreateFullBackup(includeFiles, now, steps).written;
    assert ScheduledBackup(includeFiles, now, steps, listing, mtime).1 == OldBackups(Some(after));
    NewArchiveIsNewest(now, listing, mtime);
    NewestIsKept(after, Backup(ArchiveName(now), now));
  }

  /**
   * A run whose zip raised after the file was opened fails, yet the cleanup
   * after it counts the partial file as the newest backup.
   */
  lemma PartialZipIsCounted(includeFiles: bool, now: DateTime, steps: BackupSteps, listing: seq<DirEntry>,
                            mtime: DateTime)
    requires Stampable(now) && steps.dirOk && steps.zip == ZipPartial
    ensures var r := ScheduledBackup(includeFiles, now, steps, listing, mtime);
      !r.0.success && r.1 == OldBackups(Some(listing + [DirEntry(ArchiveName(now), mtime)]))
  {
  }

  // ---------------------------------------------------------------- restore

  datatype RestoreStep = Extract | Psql | CopyUploads | Cleanup

  datatype RestoreError = NotFound | Raised(step: RestoreStep)

  datatype RestoredComponent = RestoredDatabase | RestoredFiles

  datatype RestoreReport = RestoreReport(success: bool, restored: seq<RestoredComponent>, error: Option<RestoreError>)

  /**
   * Which of the external steps of a restore succeed; `cleanupOk` is the
   * removal of the extraction directory once the parts are restored.
   */
  datatype RestoreSteps = RestoreSteps(extractOk: bool, databaseUrlSet: bool, psqlOk: bool, copyOk: bool,
                                       cleanupOk: bool)

  /**
   * `restore_backup`: a file missing from the backup directory restores
   * nothing; otherwise the archive is extracted, the database is reloaded
   * when the archive holds a dump and a database address is configured, the
   * uploads are replaced when the archive holds them, and the extraction
   * directory is removed. A step that raises ends the restore with the parts
   * done so far, so a failed cleanup reports every part as restored.
   */
  function RestoreBackup(filename: string, existing: set<string>, archive: Archive, steps: RestoreSteps)
    : (r: RestoreReport)
    ensures r.success <==> r.error.None?
    ensures r.success <==>
      && filename in existing && steps.extractOk
      && (archive.hasDatabase && steps.databaseUrlSet ==> steps.psqlOk)
      && (archive.hasUploads ==> steps.copyOk) && steps.cleanupOk
    ensures filename !in existing ==> r == RestoreReport(false, [], Some(NotFound))
    ensures r.success || r.error == Some(Raised(Cleanup)) ==>
      && (RestoredDatabase in r.restored <==> archive.hasDatabase && steps.databaseUrlSet)
      && (RestoredFiles in r.restored <==> archive.hasUploads)
    ensures RestoredFiles in r.restored ==> r.success || r.error == Some(Raised(Cleanup))
    ensures |r.restored| <= 2 && (|r.restored| == 2 ==> r.restored == [RestoredDatabase, RestoredFiles])
  {
    if filename !in existing then RestoreReport(false, [], Some(NotFound))
    else if !steps.extractOk then RestoreReport(false, [], Some(Raised(Extract)))
    else if archive.hasDatabase && steps.databaseUrlSet && !steps.psqlOk then
      RestoreReport(false, [], Some(Raised(Psql)))
    else
      var db := if archive.hasDatabase && steps.databaseUrlSet then [RestoredDatabase] else [];
      if archive.hasUploads && !steps.copyOk then RestoreReport(false, db, Some(Raised(CopyUploads)))
      else
        var done := if archive.hasUploads then db + [RestoredFiles] else db;
        if !steps.cleanupOk then RestoreReport(false, done, Some(Raised(Cleanup)))
        else RestoreReport(true, done, None)
  }

  /**
   * A weekly backup of an uploads tree that holds no file archives no
   * uploads, so restoring it leaves the uploads alone.
   */
  lemma EmptyUploadsNotRestored(now: DateTime, steps: BackupSteps, filename: string, existing: set<string>,
                                rsteps: RestoreSteps)
    requires Stampable(now) && steps.dirOk && steps.zip == ZipComplete && steps.finishOk
    requires steps.uploadsExist && !steps.uploadFileCopied
    ensures var a := CreateFullBackup(true, now, steps).archive.value;
      RestoredFiles !in RestoreBackup(filename, existing, a, rsteps).restored
  {
  }

  /**
   * Restoring a daily backup never touches the uploads, and a backup whose
   * dump failed is still reloaded into the database when an address is set.
   */
  lemma RestoreOfDailyBackup(now: DateTime, steps: BackupSteps, filename: string, existing: set<string>,
                             rsteps: RestoreSteps)
    requires Stampable(now) && steps.dirOk && steps.zip == ZipComplete && steps.finishOk && filename in existing
    requires rsteps.extractOk && (rsteps.databaseUrlSet ==> rsteps.psqlOk) && rsteps.cleanupOk
    ensures var a := CreateFullBackup(false, now, steps).archive.value;
      && RestoreBackup(filename, existing, a, rsteps).success
      && RestoredFiles !in RestoreBackup(filename, existing, a, rsteps).restored
      && (steps.databaseUrlSet && rsteps.databaseUrlSet ==>
            RestoredDatabase in RestoreBackup(filename, existing, a, rsteps).restored)
  {
  }
}

=== FILE: client_forms.dfy ===
/**
 * The form helpers of the browser script: required-field, e-mail and
 * password-confirmation checks, phone formatting, the check of selected files
 * and the icon of their preview, the character counter of limited text areas
 * and the "other" fields that follow a select.
 */
module ClientForms {
  import opened Wrappers
  import opened Text

  // ---------------------------------------------------------------- validateField

  /** `validateField`: a required field whose trimmed value is empty is invalid. */
  function ValidateField(value: string, required: bool): (r: bool)
    ensures r <==> !required || !Blank(JavaScript, value)
  {
    !(required && Strip(JavaScript, value) == "")
  }

  /** A field's validity depends only on its trimmed value. */
  lemma {:induction false} ValidateFieldSeesTrimmed(value: string, required: bool)
    ensures ValidateField(Strip(JavaScript, value), required) == ValidateField(value, required)
  {
    var t := Strip(JavaScript, value);
    if t != "" {
      assert !IsSpace(JavaScript, t[0]);
    }
  }

  // ---------------------------------------------------------------- validateEmail

  /** A character the class `[^\s@]` matches. */
  predicate Plain(c: char) {
    !IsSpace(JavaScript, c) && c != '@'
  }

  predicate AllPlain(s: string) {
    forall i :: 0 <= i < |s| ==> Plain(s[i])
  }

  /**
   * The strings `^[^\s@]+@[^\s@]+\.[^\s@]+$` matches, read off the pattern: a
   * non-empty run, `@`, a non-empty run, a dot, a non-empty run, where a run
   * holds no whitespace and no `@`.
   */
  ghost predicate EmailPattern(t: string) {
    exists i, j :: 0 < i && i + 1 < j && j + 1 < |t| && t[i] == '@' && t[j] == '.'
      && AllPlain(t[..i]) && AllPlain(t[i + 1..j]) && AllPlain(t[j + 1..])
  }

  /** The match decided directly: one `@` after a plain run, then a plain domain with an inner dot. */
  function EmailMatches(t: string): bool {
    match IndexOf(t, '@')
    case None => false
    case Some(i) =>
      var d := t[i + 1..];
      i > 0 && AllPlain(t[..i]) && AllPlain(d) && |d| >= 3 && '.' in d[1..|d| - 1]
  }

  lemma AllPlainSlice(s: string, a: nat, b: nat)
    requires AllPlain(s) && a <= b <= |s|
    ensures AllPlain(s[a..b])
  {
    assert forall k :: 0 <= k < b - a ==> s[a..b][k] == s[a + k];
  }

  lemma {:induction false} MatchIsPattern(t: string)
    requires EmailMatches(t)
    ensures EmailPattern(t)
  {
    var i := IndexOf(t, '@').value;
    var d := t[i + 1..];
    var k :| 0 <= k < |d[1..|d| - 1]| && d[1..|d| - 1][k] == '.';
    var j := i + 2 + k;
    assert t[j] == '.';
    assert t[i + 1..j] == d[..k + 1];
    AllPlainSlice(d, 0, k + 1);
    assert t[j + 1..] == d[k + 2..];
    AllPlainSlice(d, k + 2, |d|);
    assert 0 < i && i + 1 < j && j + 1 < |t| && t[i] == '@' && t[j] == '.'
      && AllPlain(t[..i]) && AllPlain(t[i + 1..j]) && AllPlain(t[j + 1..]);
  }

  /** The `@` of a match is the first one. */
  lemma PatternAt(t: string, i: nat)
    requires i < |t| && t[i] == '@' && AllPlain(t[..i])
    ensures IndexOf(t, '@') == Some(i)
  {
    assert '@' !in t[..i] by {
      assert forall k :: 0 <= k < i ==> t[..i][k] == t[k] && Plain(t[..i][k]);
    }
  }

  /** Two plain runs around a dot make a plain run. */
  lemma PlainAroundDot(x: string, y: string)
    requires AllPlain(x) && AllPlain(y)
    ensures AllPlain(x + ['.'] + y)
  {
    var d := x + ['.'] + y;
    forall k | 0 <= k < |d| ensures Plain(d[k]) {
      if k < |x| {
        assert d[k] == x[k];
      } else if k > |x| {
        assert d[k] == y[k - |x| - 1];
      }
    }
  }

  /** The domain after the `@` of a match is plain and has a dot inside it. */
  lemma MatchDomain(t: string, i: nat, j: nat)
    requires 0 < i && i + 1 < j && j + 1 < |t| && t[j] == '.'
    requires AllPlain(t[i + 1..j]) && AllPlain(t[j + 1..])
    ensures var d := t[i + 1..]; AllPlain(d) && |d| >= 3 && '.' in d[1..|d| - 1]
  {
    var d := t[i + 1..];
    assert d == t[i + 1..j] + ['.'] + t[j + 1..];
    PlainAroundDot(t[i + 1..j], t[j + 1..]);
    assert d[1..|d| - 1][j - i - 2] == '.';
  }

  lemma {:induction false} PatternIsMatch(t: string)
    requires EmailPattern(t)
    ensures EmailMatches(t)
  {
    var i, j :| 0 < i && i + 1 < j && j + 1 < |t| && t[i] == '@' && t[j] == '.'
      && AllPlain(t[..i]) && AllPlain(t[i + 1..j]) && AllPlain(t[j + 1..]);
    WitnessMatches(t, i, j);
  }

  /** The match accepts any string the pattern splits at `i` and `j`. */
  lemma WitnessMatches(t: string, i: nat, j: nat)
    requires 0 < i && i + 1 < j && j + 1 < |t| && t[i] == '@' && t[j] == '.'
    requires AllPlain(t[..i]) && AllPlain(t[i + 1..j]) && AllPlain(t[j + 1..])
    ensures EmailMatches(t)
  {
    PatternAt(t, i);
    MatchDomain(t, i, j);
  }

  /** The direct decision accepts exactly the strings the pattern matches. */
  lemma EmailMatchesPattern(t: string)
    ensures EmailMatches(t) <==> EmailPattern(t)
  {
    if EmailMatches(t) {
      MatchIsPattern(t);
    }
    if EmailPattern(t) {
      PatternIsMatch(t);
    }
  }

  /** `validateEmail`: an empty (trimmed) value passes; any other must match the pattern. */
  function ValidateEmail(value: string): (r: bool)
    ensures r <==> Blank(JavaScript, value) || EmailPattern(Strip(JavaScript, value))
  {
    var e := Strip(JavaScript, value);
    EmailMatchesPattern(e);
    e == "" || EmailMatches(e)
  }

  /** A string the pattern matches holds no whitespace. */
  lemma PatternHasNoSpace(e: string, k: nat)
    requires EmailPattern(e) && k < |e|
    ensures !IsSpace(JavaScript, e[k])
  {
    PatternIsMatch(e);
    var i := IndexOf(e, '@').value;
    var d := e[i + 1..];
    if k < i {
      assert e[..i][k] == e[k];
    } else if k > i {
      assert d[k - i - 1] == e[k];
    }
  }

  /** An address with whitespace inside it is refused, however it is padded. */
  lemma InnerSpaceRefused(value: string, k: nat)
    requires k < |Strip(JavaScript, value)| && IsSpace(JavaScript, Strip(JavaScript, value)[k])
    ensures !ValidateEmail(value)
  {
    var e := Strip(JavaScript, value);
    if EmailPattern(e) {
      PatternHasNoSpace(e, k);
    }
  }

  // ---------------------------------------------------------------- validatePasswordConfirmation

  /**
   * `validatePasswordConfirmation`: `password` is None when the page has no
   * password field, and then any confirmation passes.
   */
  function ValidatePasswordConfirmation(confirmation: string, password: Option<string>): (r: bool)
    ensures r <==> password.None? || confirmation == password.value
  {
    !(password.Some? && confirmation != password.value)
  }

  /** The check is symmetric between the two fields, and a password always confirms itself. */
  lemma {:induction false} ConfirmationSymmetric(a: string, b: string)
    ensures ValidatePasswordConfirmation(a, Some(b)) == ValidatePasswordConfirmation(b, Some(a))
    ensures ValidatePasswordConfirmation(a, Some(a))
  {
  }

  // ---------------------------------------------------------------- formatPhoneNumber

  /** `value.replace(/\D/g, '')`: the ASCII digits, in order. */
  function DigitsOnly(s: string): (r: string)
    ensures AllDigits(r) && |r| <= |s|
  {
    if |s| == 0 then ""
    else (if IsDigit(s[0]) then [s[0]] else "") + DigitsOnly(s[1..])
  }

  lemma {:induction false} DigitsOnlyConcat(a: string, b: string)
    ensures DigitsOnly(a + b) == DigitsOnly(a) + DigitsOnly(b)
    decreases |a|
  {
    if |a| > 0 {
      assert (a + b)[0] == a[0];
      assert (a + b)[1..] == a[1..] + b;
      DigitsOnlyConcat(a[1..], b);
      var h := if IsDigit(a[0]) then [a[0]] else "";
      calc {
        DigitsOnly(a + b);
        h + DigitsOnly(a[1..] + b);
        h + (DigitsOnly(a[1..]) + DigitsOnly(b));
        (h + DigitsOnly(a[1..])) + DigitsOnly(b);
        DigitsOnly(a) + DigitsOnly(b);
      }
    } else {
      assert a + b == b;
    }
  }

  lemma {:induction false} DigitsOnlyOfDigits(s: string)
    requires AllDigits(s)
    ensures DigitsOnly(s) == s
    decreases |s|
  {
    if |s| > 0 {
      DigitsOnlyOfDigits(s[1..]);
      assert s == [s[0]] + s[1..];
    }
  }

  /** The grouping step on bare digits. */
  function GroupDigits(d: string): string
    requires AllDigits(d)
  {
    if StartsWith(d, "243") && |d| == 12 then "+" + d[..3] + " " + d[3..5] + " " + d[5..8] + " " + d[8..]
    else if StartsWith(d, "0") && |d| == 10 then d[..1] + d[1..3] + " " + d[3..6] + " " + d[6..]
    else d
  }

  /**
   * `formatPhoneNumber`: the digits of the value, grouped as `+243 XX XXX XXXX`
   * when there are exactly twelve starting with 243, as `0XX XXX XXXX` when
   * there are exactly ten starting with 0, and left bare otherwise.
   */
  function FormatPhone(value: string): (r: string)
    ensures DigitsOnly(r) == DigitsOnly(value)
    ensures |DigitsOnly(value)| == 12 && StartsWith(DigitsOnly(value), "243") ==> |r| == 16 && r[0] == '+'
    ensures |DigitsOnly(value)| == 10 && StartsWith(DigitsOnly(value), "0") ==> |r| == 12 && r[3] == ' '
    ensures |DigitsOnly(value)| != 12 && |DigitsOnly(value)| != 10 ==> r == DigitsOnly(value)
    ensures var d := DigitsOnly(value);
      |d| == 12 && StartsWith(d, "243") ==> r == "+" + d[..3] + " " + d[3..5] + " " + d[5..8] + " " + d[8..]
    ensures var d := DigitsOnly(value);
      |d| == 10 && StartsWith(d, "0") ==> r == d[..3] + " " + d[3..6] + " " + d[6..]
    ensures var d := DigitsOnly(value);
      !(|d| == 12 && StartsWith(d, "243")) && !(|d| == 10 && StartsWith(d, "0")) ==> r == d
  {
    var d := DigitsOnly(value);
    GroupingKeepsDigits(d);
    GroupDigits(d)
  }

  /** A space between two texts adds no digit. */
  lemma SpaceJoin(p: string, q: string)
    ensures DigitsOnly(p + " " + q) == DigitsOnly(p) + DigitsOnly(q)
  {
    DigitsOnlyConcat(p, " ");
    DigitsOnlyConcat(p + " ", q);
    assert DigitsOnly(" ") == "";
  }

  /** `+243 XX XXX XXXX` holds the twelve digits it was made from. */
  lemma InternationalKeepsDigits(d: string)
    requires AllDigits(d) && |d| == 12
    ensures DigitsOnly("+" + d[..3] + " " + d[3..5] + " " + d[5..8] + " " + d[8..]) == d
  {
    AllDigitsSlices(d);
    var a, b, c, e := d[..3], d[3..5], d[5..8], d[8..];
    DigitsOnlyConcat("+", a);
    assert DigitsOnly("+") == "";
    SpaceJoin("+" + a, b);
    SpaceJoin("+" + a + " " + b, c);
    SpaceJoin("+" + a + " " + b + " " + c, e);
    DigitsOnlyOfDigits(a);
    DigitsOnlyOfDigits(b);
    DigitsOnlyOfDigits(c);
    DigitsOnlyOfDigits(e);
    assert d == a + b + c + e;
  }

  /** `0XX XXX XXXX` holds the ten digits it was made from. */
  lemma DomesticKeepsDigits(d: string)
    requires AllDigits(d) && |d| == 10
    ensures DigitsOnly(d[..1] + d[1..3] + " " + d[3..6] + " " + d[6..]) == d
  {
    AllDigitsSlices(d);
    var a, b, c := d[..3], d[3..6], d[6..];
    assert d[..1] + d[1..3] == a;
    SpaceJoin(a, b);
    SpaceJoin(a + " " + b, c);
    DigitsOnlyOfDigits(a);
    DigitsOnlyOfDigits(b);
    DigitsOnlyOfDigits(c);
    assert d == a + b + c;
  }

  /** Grouping only adds separators. */
  lemma GroupingKeepsDigits(d: string)
    requires AllDigits(d)
    ensures DigitsOnly(GroupDigits(d)) == d
  {
    if StartsWith(d, "243") && |d| == 12 {
      InternationalKeepsDigits(d);
    } else if StartsWith(d, "0") && |d| == 10 {
      DomesticKeepsDigits(d);
    } else {
      DigitsOnlyOfDigits(d);
    }
  }

  lemma AllDigitsSlices(d: string)
    requires AllDigits(d)
    ensures forall a, b :: 0 <= a <= b <= |d| ==> AllDigits(d[a..b])
  {
    forall a, b | 0 <= a <= b <= |d| ensures AllDigits(d[a..b]) {
      assert forall k :: 0 <= k < b - a ==> d[a..b][k] == d[a + k];
    }
  }

  /** Formatting an already formatted number changes nothing. */
  lemma FormatPhoneIdempotent(value: string)
    ensures FormatPhone(FormatPhone(value)) == FormatPhone(value)
  {
  }

  // ---------------------------------------------------------------- handleFileSelection

  const MaxSelectedFileSize := 16 * 1024 * 1024
  const AllowedTypes := ["image/jpeg", "image/png", "application/pdf"]

  datatype SelectedFile = SelectedFile(name: string, size: nat, mimeType: string)

  datatype Rejection = TooLarge | TypeNotAllowed

  /** The two checks of one file, the size first. */
  function CheckFile(f: SelectedFile): (r: Option<Rejection>)
    ensures r == Some(TooLarge) <==> f.size > MaxSelectedFileSize
    ensures r == Some(TypeNotAllowed) <==> f.size <= MaxSelectedFileSize && f.mimeType !in AllowedTypes
    ensures r.None? <==> f.size <= MaxSelectedFileSize && f.mimeType in AllowedTypes
  {
    if f.size > MaxSelectedFileSize then Some(TooLarge)
    else if f.mimeType !in AllowedTypes then Some(TypeNotAllowed)
    else None
  }

  function RejectionMessage(f: SelectedFile, why: Rejection): string {
    match why
    case TooLarge => "Le fichier \"" + f.name + "\" est trop volumineux (max 16MB)."
    case TypeNotAllowed => "Le fichier \"" + f.name + "\" n'est pas d'un type autorisé."
  }

  /** The validity mark of a field: none yet, invalid with its message, or valid. */
  datatype Mark = Unmarked | Invalid(message: string) | Valid

  /** A file input as the checks leave it: its mark, whether it was emptied, the previews shown. */
  datatype FileField = FileField(mark: Mark, cleared: bool, previews: seq<SelectedFile>)

  predicate Accepted(f: SelectedFile) {
    CheckFile(f).None?
  }

  /** One file's check applied to the field. */
  function CheckOne(field: FileField, f: SelectedFile): FileField {
    match CheckFile(f)
    case Some(why) => field.(mark := Invalid(RejectionMessage(f, why)), cleared := true)
    case None => field.(mark := Valid, previews := field.previews + [f])
  }

  /**
   * `handleFileSelection` as written: the `return` after a rejection sits in
   * the `forEach` callback, so it only ends that file's turn and the files
   * after it are still checked, marked and previewed. The field ends with the
   * mark of the last file, and is emptied if any file was refused.
   */
  function SelectAsWritten(field: FileField, files: seq<SelectedFile>): (r: FileField)
    ensures r.cleared <==> field.cleared || exists i :: 0 <= i < |files| && !Accepted(files[i])
    ensures |files| > 0 ==> (r.mark == Valid <==> Accepted(files[|files| - 1]))
    ensures |files| == 0 ==> r == field
    decreases |files|
  {
    if |files| == 0 then field
    else
      var r := SelectAsWritten(CheckOne(field, files[0]), files[1..]);
      assert forall i :: 1 <= i < |files| ==> files[i] == files[1..][i - 1];
      r
  }

  /**
   * A refused file followed by an accepted one leaves the input emptied but
   * marked valid, with the accepted file previewed: the page shows a file
   * that will not be sent.
   */
  lemma RefusedThenAcceptedLooksValid(field: FileField, refused: SelectedFile, accepted: SelectedFile)
    requires !Accepted(refused) && Accepted(accepted)
    ensures SelectAsWritten(field, [refused, accepted]).mark == Valid
    ensures SelectAsWritten(field, [refused, accepted]).cleared
    ensures accepted in SelectAsWritten(field, [refused, accepted]).previews
  {
    assert [refused, accepted][1..] == [accepted];
    assert [accepted][1..] == [];
  }

  /**
   * `handleFileSelection` as evidently intended: the first refused file ends
   * the check, leaving the field invalid and emptied.
   */
  function SelectFixed(field: FileField, files: seq<SelectedFile>): (r: FileField)
    ensures (exists i :: 0 <= i < |files| && !Accepted(files[i])) ==> r.mark.Invalid? && r.cleared
    ensures (forall i :: 0 <= i < |files| ==> Accepted(files[i])) ==>
      r.previews == field.previews + files && r.cleared == field.cleared
      && (|files| > 0 ==> r.mark == Valid) && (|files| == 0 ==> r == field)
    decreases |files|
  {
    if |files| == 0 then field
    else match CheckFile(files[0])
      case Some(why) => field.(mark := Invalid(RejectionMessage(files[0], why)), cleared := true)
      case None =>
        var r := SelectFixed(field.(mark := Valid, previews := field.previews + [files[0]]), files[1..]);
        assert forall i :: 1 <= i < |files| ==> files[i] == files[1..][i - 1];
        assert files == [files[0]] + files[1..];
        r
  }

  /** The two agree whenever every selected file is accepted. */
  lemma {:induction false} SelectionsAgreeOnAcceptedFiles(field: FileField, files: seq<SelectedFile>)
    requires forall i :: 0 <= i < |files| ==> Accepted(files[i])
    ensures SelectAsWritten(field, files) == SelectFixed(field, files)
    decreases |files|
  {
    if |files| > 0 {
      assert forall i :: 0 <= i < |files[1..]| ==> files[1..][i] == files[i + 1];
      SelectionsAgreeOnAcceptedFiles(CheckOne(field, files[0]), files[1..]);
    }
  }

  // ---------------------------------------------------------------- getFileIcon

  const ImageIcon := "fas fa-image text-info"
  const PdfIcon := "fas fa-file-pdf text-danger"
  const GenericIcon := "fas fa-file text-secondary"

  /** `getFileIcon`: images by their `image/` prefix, then PDF, then anything else. */
  function FileIcon(mimeType: string): (r: string)
    ensures r in {ImageIcon, PdfIcon, GenericIcon}
    ensures r == ImageIcon <==> StartsWith(mimeType, "image/")
    ensures r == PdfIcon <==> mimeType == "application/pdf"
  {
    if StartsWith(mimeType, "image/") then
      assert mimeType[0] == 'i';
      ImageIcon
    else if mimeType == "application/pdf" then PdfIcon
    else GenericIcon
  }

  /** Every file the selection check accepts is previewed with an image or PDF icon. */
  lemma AcceptedFilesHaveSpecificIcons(f: SelectedFile)
    requires Accepted(f)
    ensures FileIcon(f.mimeType) != GenericIcon
  {
    assert StartsWith("image/jpeg", "image/") by {
      assert "image/jpeg"[..6] == "image/";
    }
    assert StartsWith("image/png", "image/") by {
      assert "image/png"[..6] == "image/";
    }
  }

  // ---------------------------------------------------------------- character counter

  /** What the counter shows: the remaining count (None for `NaN`) and the warning style. */
  datatype Counter = Counter(remaining: Option<int>, warning: bool)

  /**
   * `updateCounter`: `maxlength` minus the length typed, with the warning style
   * below ten. `maxLength` is None when `parseInt` of the attribute gives
   * `NaN`, and then nothing warns, since `NaN < 10` is false.
   */
  function CharacterCounter(maxLength: Option<int>, length: nat): (r: Counter)
    ensures r.remaining.Some? <==> maxLength.Some?
    ensures r.remaining.Some? ==> r.remaining.value + length == maxLength.value
    ensures r.warning <==> maxLength.Some? && maxLength.value - length < 10
  {
    match maxLength
    case None => Counter(None, false)
    case Some(m) => Counter(Some(m - length), m - length < 10)
  }

  /** Typing more never takes the warning away, and deleting never brings it. */
  lemma WarningIsMonotone(maxLength: Option<int>, shorter: nat, longer: nat)
    requires shorter <= longer
    ensures CharacterCounter(maxLength, shorter).warning ==> CharacterCounter(maxLength, longer).warning
  {
  }

  // ---------------------------------------------------------------- conditional fields

  datatype OtherInput = OtherInput(required: bool, value: string)

  /** The block holding the free-text "other" answer, and its input if it has one. */
  datatype OtherField = OtherField(shown: bool, input: Option<OtherInput>)

  predicate MeansOther(selectValue: string) {
    selectValue == "autre" || selectValue == "other"
  }

  /**
   * The select's `change` handler: "autre" or "other" shows the block and
   * makes its input required; any other value hides it, drops the
   * requirement and empties the input.
   */
  function OnSelectChange(selectValue: string, field: OtherField): (r: OtherField)
    ensures r.shown <==> MeansOther(selectValue)
    ensures r.input.Some? <==> field.input.Some?
    ensures r.input.Some? ==> (r.input.value.required <==> r.shown)
    ensures r.input.Some? && r.shown ==> r.input.value.value == field.input.value.value
    ensures r.input.Some? && !r.shown ==> r.input.value.value == ""
  {
    if MeansOther(selectValue) then
      OtherField(true, match field.input case Some(i) => Some(i.(required := true)) case None => None)
    else
      OtherField(false, match field.input case Some(i) => Some(OtherInput(false, "")) case None => None)
  }

  /** The change fired on page load and fired again with the same value change nothing more. */
  lemma OnSelectChangeIdempotent(selectValue: string, field: OtherField)
    ensures OnSelectChange(selectValue, OnSelectChange(selectValue, field)) == OnSelectChange(selectValue, field)
  {
  }
}

=== FILE: crud.dfy ===
/**
 * The supervisor's create/update/delete pages for users, units and services:
 * editing a user (a unit is kept only for agents), refusing to delete a
 * supervisor or a unit with assigned users, the one-flag toggles and the
 * defaults of a new service.
 */
module Crud {
  import opened Wrappers
  import opened Text
  import opened Seqs
  import opened Domain

  /** `CommitRefused` is a commit the database rejects, after which the handler rolls back. */
  datatype CrudError = UserNotFound | CannotDeleteSupervisor | UnitHasUsers | BadNumber | BadFee | CommitRefused

  /**
   * The unit stored for a user: only an agent with a unit field gets one, which
   * must then be a natural number; None when `int()` refuses the field.
   */
  function AgentUnit(role: string, unitField: Option<string>): (r: Option<Option<nat>>)
    ensures r.None? <==>
      role == "agent" && TruthyStr(unitField)
      && !(ParseInt(unitField.value).Some? && ParseInt(unitField.value).value >= 0)
    ensures r.Some? && r.value.Some? ==>
      role == "agent" && TruthyStr(unitField) && ParseInt(unitField.value) == Some(r.value.value as int)
    ensures r.Some? && r.value.None? ==> role != "agent" || !TruthyStr(unitField)
  {
    if role != "agent" || !TruthyStr(unitField) then Some(None)
    else match ParseInt(unitField.value)
      case Some(v) => if v >= 0 then Some(Some(v as nat)) else None
      case None => None
  }

  /**
   * Would a user row with this id, username and e-mail break the table's
   * constraints: a missing (null) username or e-mail, or one that another user
   * already holds?
   */
  predicate UserRowRefused(users: seq<User>, id: nat, username: Option<string>, email: Option<string>) {
    || username.None? || email.None?
    || exists i :: 0 <= i < |users| && users[i].id != id
                   && (users[i].username == username.value || users[i].email == email.value)
  }

  /**
   * `update_user`: the stored role, username, e-mail and active flag come from the
   * form (active only for `on`); an agent's unit is parsed from the form, every
   * other role loses its unit; the password hash (`newHash`, the hash of the new
   * password) replaces the old one only when a new password is given. A unit
   * field that is not a number rolls the whole update back, and so does a commit
   * the database refuses: a missing username or e-mail, or one another user of
   * `users` already holds.
   */
  function UpdateUser(users: seq<User>, u: User, username: Option<string>, email: Option<string>, role: string,
                      activeField: Option<string>, unitField: Option<string>, newPassword: Option<string>,
                      newHash: string): (r: Result<User, CrudError>)
    ensures r == Failure(BadNumber) <==> AgentUnit(role, unitField).None?
    ensures r == Failure(CommitRefused) <==>
      AgentUnit(role, unitField).Some? && UserRowRefused(users, u.id, username, email)
    ensures r.Failure? ==> r.error in {BadNumber, CommitRefused}
    ensures r.Success? ==>
      && username.Some? && email.Some?
      && RoleName(r.value.role) == role && r.value.username == username.value && r.value.email == email.value
      && (forall i :: 0 <= i < |users| && users[i].id != u.id ==>
            users[i].username != username.value && users[i].email != email.value)
      && (r.value.active <==> activeField == Some("on"))
      && (r.value.unitId.Some? ==> r.value.role == Agent && TruthyStr(unitField))
      && (r.value.passwordHash != u.passwordHash ==> TruthyStr(newPassword))
      && (TruthyStr(newPassword) ==> r.value.passwordHash == newHash)
      && r.value == u.(username := username.value, email := email.value, role := r.value.role,
                       active := r.value.active, unitId := r.value.unitId, passwordHash := r.value.passwordHash)
    ensures role == "agent" && TruthyStr(unitField) && r.Success? ==>
      r.value.unitId.Some? && ParseInt(unitField.value) == Some(r.value.unitId.value as int)
  {
    match AgentUnit(role, unitField)
    case None => Failure(BadNumber)
    case Some(unitId) =>
      if UserRowRefused(users, u.id, username, email) then Failure(CommitRefused)
      else
        Success(u.(username := username.value, email := email.value, role := ParseRole(role),
                   active := activeField == Some("on"), unitId := unitId,
                   passwordHash := if TruthyStr(newPassword) then newHash else u.passwordHash))
  }

  /**
   * A user who stops being an agent loses their unit, whatever the form says;
   * such an update fails only on the username and e-mail constraints.
   */
  lemma {:induction false} NonAgentsLoseTheirUnit(users: seq<User>, u: User, username: Option<string>,
                                                  email: Option<string>, role: string,
                                                  activeField: Option<string>, unitField: Option<string>,
                                                  newPassword: Option<string>, newHash: string)
    requires role != "agent"
    ensures var r := UpdateUser(users, u, username, email, role, activeField, unitField, newPassword, newHash);
      && (r.Success? <==> !UserRowRefused(users, u.id, username, email))
      && (r.Success? ==> r.value.unitId.None?)
  {
  }

  /** Re-submitting a user's own username and e-mail never clashes with that user. */
  lemma {:induction false} ResubmittingOwnNamesIsAccepted(users: seq<User>, i: nat)
    requires i < |users|
    requires forall j, k :: 0 <= j < |users| && 0 <= k < |users| && users[j].id != users[k].id ==>
      users[j].username != users[k].username && users[j].email != users[k].email
    ensures !UserRowRefused(users, users[i].id, Some(users[i].username), Some(users[i].email))
  {
    var u := users[i];
    forall j | 0 <= j < |users| && users[j].id != u.id
      ensures users[j].username != u.username && users[j].email != u.email
    {
    }
  }

  predicate HasId(u: User, id: nat) {
    u.id == id
  }

  /**
   * Do rows with a non-null foreign key to the user exist? Deleting the user
   * makes the ORM set those keys to null, which the database refuses:
   * applications, notifications, units the user created and service
   * configurations the user made.
   */
  predicate UserReferenced(id: nat, apps: seq<Application>, notes: seq<Notification>, units: seq<Unit>,
                           configs: seq<UnitServiceConfig>) {
    || (exists i :: 0 <= i < |apps| && apps[i].userId == id)
    || (exists i :: 0 <= i < |notes| && notes[i].userId == id)
    || (exists i :: 0 <= i < |units| && units[i].createdBy == id)
    || (exists i :: 0 <= i < |configs| && configs[i].configuredBy == id)
  }

  /**
   * `delete_user`: a missing user is not found, a supervisor is never deleted,
   * a user that other rows still refer to stays (the commit is refused and
   * rolled back); any other user is removed and nobody else is.
   */
  function DeleteUser(users: seq<User>, id: nat, apps: seq<Application>, notes: seq<Notification>,
                      units: seq<Unit>, configs: seq<UnitServiceConfig>): (r: Result<seq<User>, CrudError>)
    ensures r == Failure(UserNotFound) <==> forall i :: 0 <= i < |users| ==> users[i].id != id
    ensures r == Failure(CannotDeleteSupervisor) <==>
      exists i :: 0 <= i < |users| && users[i].id == id && FirstWhere(users, (u: User) => HasId(u, id)) == Some(i)
                  && RoleName(users[i].role) == "superviseur"
    ensures r == Failure(CommitRefused) <==>
      && (exists i :: 0 <= i < |users| && users[i].id == id)
      && r != Failure(CannotDeleteSupervisor)
      && UserReferenced(id, apps, notes, units, configs)
    ensures r.Failure? ==> r.error in {UserNotFound, CannotDeleteSupervisor, CommitRefused}
    ensures r.Success? ==>
      && !UserReferenced(id, apps, notes, units, configs)
      && (forall i :: 0 <= i < |r.value| ==> r.value[i].id != id && r.value[i] in users)
      && (forall i :: 0 <= i < |users| && users[i].id != id ==> users[i] in r.value)
      && |r.value| < |users|
  {
    match FirstWhere(users, (u: User) => HasId(u, id))
    case None => Failure(UserNotFound)
    case Some(i) =>
      if RoleName(users[i].role) == "superviseur" then Failure(CannotDeleteSupervisor)
      else if UserReferenced(id, apps, notes, units, configs) then Failure(CommitRefused)
      else
        var rest := Filter(users, (u: User) => !HasId(u, id));
        FilterPartition(users, (u: User) => !HasId(u, id), (u: User) => HasId(u, id));
        assert users[i] in Filter(users, (u: User) => HasId(u, id));
        Success(rest)
  }

  /** A deleted user is gone: looking the id up again finds nothing, so a second deletion is not found. */
  lemma {:induction false} DeletedUserIsGone(users: seq<User>, id: nat, apps: seq<Application>,
                                             notes: seq<Notification>, units: seq<Unit>,
                                             configs: seq<UnitServiceConfig>)
    requires DeleteUser(users, id, apps, notes, units, configs).Success?
    ensures var rest := DeleteUser(users, id, apps, notes, units, configs).value;
      && FirstWhere(rest, (u: User) => HasId(u, id)).None?
      && DeleteUser(rest, id, apps, notes, units, configs) == Failure(UserNotFound)
  {
  }

  /** A citizen with an application is never deleted. */
  lemma {:induction false} ApplicantIsKept(users: seq<User>, i: nat, apps: seq<Application>,
                                           notes: seq<Notification>, units: seq<Unit>,
                                           configs: seq<UnitServiceConfig>, a: Application)
    requires i < |users| && a in apps && a.userId == users[i].id
    ensures DeleteUser(users, users[i].id, apps, notes, units, configs).Failure?
  {
    var k :| 0 <= k < |apps| && apps[k] == a;
  }

  /** `toggle_user_status`: the active flag flips and nothing else changes. */
  function ToggleUser(u: User): (r: User)
    ensures r.active != u.active && r.(active := u.active) == u
  {
    u.(active := !u.active)
  }

  /** `toggle_unite_status`: the active flag flips and nothing else changes. */
  function ToggleUnit(unit: Unit): (r: Unit)
    ensures r.active != unit.active && r.(active := unit.active) == unit
  {
    unit.(active := !unit.active)
  }

  /** `toggle_service_status`: the active flag flips and nothing else changes. */
  function ToggleService(s: Service): (r: Service)
    ensures r.active != s.active && r.(active := s.active) == s
  {
    s.(active := !s.active)
  }

  /** Two toggles restore the record. */
  lemma {:induction false} TogglesAreInvolutions(u: User, unit: Unit, s: Service)
    ensures ToggleUser(ToggleUser(u)) == u
    ensures ToggleUnit(ToggleUnit(unit)) == unit
    ensures ToggleService(ToggleService(s)) == s
  {
  }

  /** Is any user, whatever the role, assigned to the unit? */
  predicate HasAssignedUsers(unit: Unit, users: seq<User>) {
    exists i :: 0 <= i < |users| && users[i].unitId == Some(unit.id)
  }

  /**
   * `delete_unite`: refused while any user is assigned to the unit. Otherwise the
   * commit still fails, and is rolled back, while applications refer to the
   * unit through their non-null unit column.
   */
  function DeleteUnit(units: seq<Unit>, unit: Unit, users: seq<User>, apps: seq<Application>)
    : (r: Result<seq<Unit>, CrudError>)
    ensures r == Failure(UnitHasUsers) <==> HasAssignedUsers(unit, users)
    ensures r == Failure(CommitRefused) <==>
      !HasAssignedUsers(unit, users) && exists j :: 0 <= j < |apps| && apps[j].unitId == Some(unit.id)
    ensures r.Failure? ==> r.error in {UnitHasUsers, CommitRefused}
    ensures r.Success? ==>
      && (forall i :: 0 <= i < |r.value| ==> r.value[i].id != unit.id && r.value[i] in units)
      && (forall i :: 0 <= i < |units| && units[i].id != unit.id ==> units[i] in r.value)
  {
    if HasAssignedUsers(unit, users) then Failure(UnitHasUsers)
    else if exists j :: 0 <= j < |apps| && apps[j].unitId == Some(unit.id) then Failure(CommitRefused)
    else Success(Filter(units, (x: Unit) => x.id != unit.id))
  }

  /** A unit with applications is never deleted, whoever is assigned to it. */
  lemma {:induction false} UnitWithApplicationsIsKept(units: seq<Unit>, unit: Unit, users: seq<User>,
                                                      apps: seq<Application>, a: Application)
    requires a in apps && a.unitId == Some(unit.id)
    ensures DeleteUnit(units, unit, users, apps).Failure?
  {
    var k :| 0 <= k < |apps| && apps[k] == a;
  }

  /** Is the service code already used in the catalogue (the column is unique)? */
  predicate CodeTaken(services: seq<Service>, code: string) {
    exists i :: 0 <= i < |services| && services[i].code == code
  }

  /**
   * `create_service`: the base fee (in cents) defaults to 0 and the delay field to
   * 7; a fee that `float()` refuses or a delay that is present but not an integer
   * is an error, in that order; the service is active only for `on`. The commit
   * is refused, and rolled back, without a code or a name, or for a code the
   * catalogue already holds.
   */
  function CreateService(services: seq<Service>, id: nat, code: Option<string>, name: Option<string>,
                         fee: FeeField, delayField: Option<string>, activeField: Option<string>)
    : (r: Result<Service, CrudError>)
    ensures r == Failure(BadFee) <==> fee.FeeMalformed?
    ensures r == Failure(BadNumber) <==> !fee.FeeMalformed? && delayField.Some? && ParseInt(delayField.value).None?
    ensures r == Failure(CommitRefused) <==>
      && !fee.FeeMalformed? && (delayField.None? || ParseInt(delayField.value).Some?)
      && (code.None? || name.None? || CodeTaken(services, code.value))
    ensures r.Success? ==>
      && code.Some? && name.Some? && !CodeTaken(services, code.value)
      && r.value.baseFee == fee.Read(0).value && r.value.code == code.value && r.value.name == name.value
      && r.value.id == id && (r.value.active <==> activeField == Some("on"))
      && r.value.delay == (if delayField.None? then 7 else ParseInt(delayField.value).value)
  {
    match fee.Read(0)
    case None => Failure(BadFee)
    case Some(baseFee) =>
      var delay := if delayField.None? then Some(7) else ParseInt(delayField.value);
      match delay
      case None => Failure(BadNumber)
      case Some(d) =>
        if code.None? || name.None? || CodeTaken(services, code.value) then Failure(CommitRefused)
        else Success(Service(id, code.value, name.value, baseFee, d, activeField == Some("on")))
  }

  /** An empty delay field is not the absent one: it is refused rather than defaulted. */
  lemma {:induction false} EmptyDelayIsRefused(services: seq<Service>, id: nat, code: string, name: string,
                                               activeField: Option<string>)
    requires !CodeTaken(services, code)
    ensures CreateService(services, id, Some(code), Some(name), FeeAbsent, Some(""), activeField) == Failure(BadNumber)
    ensures CreateService(services, id, Some(code), Some(name), FeeAbsent, None, activeField).Success?
  {
    assert Blank(Python, "");
  }

  /** A created service's code is taken, so creating it a second time is refused. */
  lemma {:induction false} ServiceCodeIsUnique(services: seq<Service>, id1: nat, id2: nat, code: Option<string>,
                                               name: Option<string>, fee: FeeField, delayField: Option<string>,
                                               activeField: Option<string>)
    requires CreateService(services, id1, code, name, fee, delayField, activeField).Success?
    ensures var s := CreateService(services, id1, code, name, fee, delayField, activeField).value;
      CreateService(services + [s], id2, code, name, fee, delayField, activeField) == Failure(CommitRefused)
  {
    var s := CreateService(services, id1, code, name, fee, delayField, activeField).value;
    assert (services + [s])[|services|] == s;
  }
}

=== FILE: domain.dfy ===
/**
 * The records of the consular portal: users and their roles, applications with
 * their status history, consular units, services, per-unit service settings and
 * in-app notifications, together with the display maps and the reference
 * number format defined on the models.
 */
module Domain {
  import opened Wrappers
  import opened Text

  /** An application status; `Other` keeps any code the forms or the database may hold. */
  datatype Status =
    | Soumise | EnTraitement | Validee | Rejetee
    | DocumentsRequis | PretPourRetrait | Cloture | Urgent
    | Other(code: string)

  /** The code stored in the `status` column. */
  function StatusCode(s: Status): string {
    match s
    case Soumise => "soumise"
    case EnTraitement => "en_traitement"
    case Validee => "validee"
    case Rejetee => "rejetee"
    case DocumentsRequis => "documents_requis"
    case PretPourRetrait => "pret_pour_retrait"
    case Cloture => "cloture"
    case Urgent => "urgent"
    case Other(c) => c
  }

  predicate IsKnownStatusCode(c: string) {
    c in {"soumise", "en_traitement", "validee", "rejetee", "documents_requis",
          "pret_pour_retrait", "cloture", "urgent"}
  }

  /** A status value as the database can hold it: an `Other` never shadows a known code. */
  predicate ValidStatus(s: Status) {
    s.Other? ==> !IsKnownStatusCode(s.code)
  }

  /** Reading a status column back into the datatype. */
  function ParseStatus(c: string): (s: Status)
    ensures ValidStatus(s)
    ensures StatusCode(s) == c
  {
    match c
    case "soumise" => Soumise
    case "en_traitement" => EnTraitement
    case "validee" => Validee
    case "rejetee" => Rejetee
    case "documents_requis" => DocumentsRequis
    case "pret_pour_retrait" => PretPourRetrait
    case "cloture" => Cloture
    case "urgent" => Urgent
    case _ => Other(c)
  }

  /** Storing a valid status and reading it back gives the same status. */
  lemma ParseStatusCode(s: Status)
    requires ValidStatus(s)
    ensures ParseStatus(StatusCode(s)) == s
  {
  }

  /** Two valid statuses share a stored code only if they are the same status. */
  lemma StatusCodeInjective(s: Status, t: Status)
    requires ValidStatus(s) && ValidStatus(t)
    requires StatusCode(s) == StatusCode(t)
    ensures s == t
  {
    ParseStatusCode(s);
    ParseStatusCode(t);
  }

  /** A user role; `OtherRole` keeps any other value of the `role` column. */
  datatype Role = Usager | Agent | Admin | Superviseur | OtherRole(name: string)

  function RoleName(r: Role): string {
    match r
    case Usager => "usager"
    case Agent => "agent"
    case Admin => "admin"
    case Superviseur => "superviseur"
    case OtherRole(n) => n
  }

  /** A role value as the database can hold it: an `OtherRole` never shadows a known name. */
  predicate ValidRole(r: Role) {
    r.OtherRole? ==> r.name !in {"usager", "agent", "admin", "superviseur"}
  }

  function ParseRole(n: string): (r: Role)
    ensures RoleName(r) == n
    ensures ValidRole(r)
  {
    match n
    case "usager" => Usager
    case "agent" => Agent
    case "admin" => Admin
    case "superviseur" => Superviseur
    case _ => OtherRole(n)
  }

  /** The optional fields a citizen fills in on the profile page. */
  datatype Profile = Profile(
    middleName: Option<string>, phone: Option<string>, genre: Option<string>,
    dateNaissance: Option<string>, lieuNaissance: Option<string>,
    etatCivil: Option<string>, profession: Option<string>,
    adresseRue: Option<string>, adresseVille: Option<string>,
    adressePays: Option<string>, codePostal: Option<string>,
    numeroPasseport: Option<string>)

  const EmptyProfile := Profile(None, None, None, None, None, None, None, None, None, None, None, None)

  datatype User = User(
    id: nat, username: string, email: string, passwordHash: string,
    firstName: string, lastName: string, role: Role, active: bool,
    unitId: Option<nat>, profileComplete: bool, profile: Profile)
  {
    /** Staff of any level: agents, administrators and supervisors. */
    predicate IsAdmin() {
      role in {Agent, Superviseur, Admin}
    }

    predicate IsSuperAdmin() {
      role == Superviseur
    }

    predicate IsSupervisor() {
      role == Superviseur
    }

    /** First name, one space, last name. */
    function FullName(): (r: string)
      ensures |r| == |firstName| + 1 + |lastName|
      ensures r[..|firstName|] == firstName && r[|firstName|] == ' '
      ensures r[|firstName| + 1..] == lastName
    {
      firstName + " " + lastName
    }
  }

  /** Python truthiness of a nullable integer id: absent and 0 are both false. */
  predicate TruthyId(x: Option<nat>) {
    x.Some? && x.value != 0
  }

  /** Python truthiness of a nullable string: absent and "" are both false. */
  predicate TruthyStr(x: Option<string>) {
    x.Some? && x.value != ""
  }

  /** `is_admin` holds for exactly the three staff roles, and the supervisor tests coincide. */
  lemma StaffRoles(u: User)
    ensures u.IsAdmin() <==> u.role != Usager && !u.role.OtherRole?
    ensures u.IsSuperAdmin() <==> u.IsSupervisor()
    ensures u.IsSuperAdmin() ==> u.IsAdmin()
  {
  }

  /** One row of an application's status history. */
  datatype StatusEntry = StatusEntry(
    oldStatus: Option<Status>, newStatus: Status, changedBy: Option<nat>, comment: Option<string>)

  datatype Document = Document(path: string, documentType: string)

  datatype Application = Application(
    id: nat, userId: nat, unitId: Option<nat>, serviceType: string,
    reference: string, status: Status, processedBy: Option<nat>,
    rejectionReason: Option<string>, history: seq<StatusEntry>,
    documents: seq<Document>)

  /** A consular unit; `createdBy` is the non-null id of the user who created it. */
  datatype Unit = Unit(id: nat, name: string, ville: string, pays: string, active: bool, createdBy: nat)

  /** A service of the global catalogue; fees are integer cents. */
  datatype Service = Service(id: nat, code: string, name: string, baseFee: int, delay: int, active: bool)

  /**
   * A fee field of a form as `float()` reads it: absent, a number (in cents),
   * or text that `float()` refuses.
   */
  datatype FeeField = FeeAbsent | FeeNumber(cents: int) | FeeMalformed {
    /** The fee read from the field, `default` when it is absent, None when it does not parse. */
    function Read(default: int): (r: Option<int>)
      ensures r.None? <==> this.FeeMalformed?
      ensures this.FeeAbsent? ==> r == Some(default)
      ensures this.FeeNumber? ==> r == Some(this.cents)
    {
      match this
      case FeeAbsent => Some(default)
      case FeeNumber(c) => Some(c)
      case FeeMalformed => None
    }
  }

  /** The settings of one service in one unit. */
  datatype UnitServiceConfig = UnitServiceConfig(
    unitId: nat, serviceId: nat, fee: int, currency: string, active: bool,
    customDelay: Option<int>, notes: Option<string>, configuredBy: nat)

  /** The (unit, service) uniqueness constraint of the configuration table. */
  predicate UniquePairs(cs: seq<UnitServiceConfig>) {
    forall i, j :: 0 <= i < j < |cs| ==>
      (cs[i].unitId, cs[i].serviceId) != (cs[j].unitId, cs[j].serviceId)
  }

  predicate IsDisplayedStatus(s: Status) {
    s in {Soumise, EnTraitement, Validee, Rejetee}
  }

  /** `get_status_display`: a label for the first four statuses, the raw code for any other. */
  function StatusDisplay(s: Status): (r: string)
    ensures IsDisplayedStatus(s) <==> r != StatusCode(s)
  {
    match s
    case Soumise => "Soumise"
    case EnTraitement => "En traitement"
    case Validee => "Validée"
    case Rejetee => "Rejetée"
    case _ => StatusCode(s)
  }

  /**
   * The eight known statuses display differently from one another. (An unknown
   * code such as `Soumise` with a capital would display like `soumise`.)
   */
  lemma StatusDisplayInjective(s: Status, t: Status)
    requires !s.Other? && !t.Other? && s != t
    ensures StatusDisplay(s) != StatusDisplay(t)
  {
  }

  predicate IsDisplayedService(code: string) {
    code in {"carte_consulaire", "attestation_prise_charge", "legalisations", "passeport", "autres_documents"}
  }

  /** `get_service_display`: a label for five service codes, the raw code for any other. */
  function ServiceDisplay(code: string): (r: string)
    ensures IsDisplayedService(code) <==> r != code
  {
    match code
    case "carte_consulaire" => "Carte Consulaire"
    case "attestation_prise_charge" => "Attestation de Prise en Charge"
    case "legalisations" => "Légalisations"
    case "passeport" => "Passeport"
    case "autres_documents" => "Autres Documents"
    case _ => code
  }

  /** The width of the `reference_number` column. */
  const ReferenceWidth := 20

  function Min(a: int, b: int): int {
    if a < b then a else b
  }

  /**
   * `generate_reference_number`: the first three upper-cased letters of the service
   * type, the year, and six random digits (given here as `digits`).
   */
  function GenerateReference(serviceType: string, year: nat, digits: string): (r: string)
    requires |digits| == 6 && AllDigits(digits)
    ensures |r| == Min(3, |serviceType|) + |NatToString(year)| + 6
    ensures r[..Min(3, |serviceType|)] == Upper(serviceType)[..Min(3, |serviceType|)]
    ensures r[Min(3, |serviceType|)..|r| - 6] == NatToString(year)
    ensures r[|r| - 6..] == digits
  {
    var prefix := Upper(serviceType)[..Min(3, |serviceType|)];
    prefix + NatToString(year) + digits
  }

  /** With a four-digit year a generated reference fits the 20-character column. */
  lemma ReferenceFitsColumn(serviceType: string, year: nat, digits: string)
    requires |digits| == 6 && AllDigits(digits)
    requires 1000 <= year <= 9999
    ensures |GenerateReference(serviceType, year, digits)| <= ReferenceWidth
  {
    FourDigitYear(year);
  }

  /** A consular card requested in 2024 gets a reference starting `CAR2024`. */
  lemma ConsularCardReference(digits: string)
    requires |digits| == 6 && AllDigits(digits)
    ensures GenerateReference("carte_consulaire", 2024, digits)[..7] == "CAR2024"
  {
    var r := GenerateReference("carte_consulaire", 2024, digits);
    FourDigitYear(2024);
    assert NatToString(2024) == "2024" by {
      assert NatToString(2024) == NatToString(202) + ['4'];
      assert NatToString(202) == NatToString(20) + ['2'];
      assert NatToString(20) == NatToString(2) + ['0'];
    }
    assert r[..3] == "CAR";
    assert r[..7] == r[..3] + r[3..7];
  }

  /** `Application.__init__`: a non-empty supplied reference is kept, otherwise one is generated. */
  function InitialReference(supplied: Option<string>, serviceType: string, year: nat, digits: string): (r: string)
    requires |digits| == 6 && AllDigits(digits)
    ensures TruthyStr(supplied) ==> r == supplied.value
    ensures !TruthyStr(supplied) ==> |r| >= 6 && r[|r| - 6..] == digits
  {
    if TruthyStr(supplied) then supplied.value else GenerateReference(serviceType, year, digits)
  }

  /** An in-app notification. */
  datatype Notification = Notification(
    id: nat, userId: nat, kind: string, title: string, message: string,
    referenceId: Option<nat>, read: bool, createdAt: int)

  /** The id of the row at index `i`; the distinctness invariant is stated through it. */
  function IdAt(items: seq<Notification>, i: nat): nat
    requires i < |items|
  {
    items[i].id
  }

  /** No two rows share an id. */
  predicate DistinctIds(items: seq<Notification>) {
    forall i, j :: 0 <= i < j < |items| ==> IdAt(items, i) != IdAt(items, j)
  }

  /** Rows that keep their ids keep them distinct. */
  lemma SameIdsKeepDistinct(a: seq<Notification>, b: seq<Notification>)
    requires |a| == |b| && DistinctIds(a)
    requires forall i :: 0 <= i < |a| ==> a[i].id == b[i].id
    ensures DistinctIds(b)
  {
    forall i, j | 0 <= i < j < |b| ensures IdAt(b, i) != IdAt(b, j) {
      assert IdAt(a, i) == IdAt(b, i) && IdAt(a, j) == IdAt(b, j);
    }
  }

  /** The notification table: its rows in insertion order and the next free id. */
  datatype Inbox = Inbox(items: seq<Notification>, nextId: nat) {
    /** Every stored id is below the next free id and ids are distinct. */
    predicate Valid() {
      && (forall i :: 0 <= i < |items| ==> items[i].id < nextId)
      && DistinctIds(items)
    }

    /** Insert an unread notification with a fresh id. */
    function Add(userId: nat, kind: string, title: string, message: string,
                 referenceId: Option<nat>, now: int): (r: Inbox)
      requires Valid()
      ensures r.Valid()
      ensures |r.items| == |items| + 1 && r.items[..|items|] == items
      ensures r.items[|items|] == Notification(nextId, userId, kind, title, message, referenceId, false, now)
    {
      var n := Notification(nextId, userId, kind, title, message, referenceId, false, now);
      var r := Inbox(items + [n], nextId + 1);
      assert DistinctIds(r.items) by {
        forall i, j | 0 <= i < j < |r.items| ensures IdAt(r.items, i) != IdAt(r.items, j) {
          assert IdAt(items, i) == IdAt(r.items, i);
          if j < |items| {
            assert IdAt(items, j) == IdAt(r.items, j);
          }
        }
      }
      r
    }
  }

  const EmptyInbox := Inbox([], 1)
}

=== FILE: helpers.dfy ===
/**
 * The helpers of the `backend` package that decide things: the upload name
 * check `allowed_file` (the root `utils.py` has the same one) and the
 * resolution of a user's consular unit from their assignment or their address.
 */
module Helpers {
  import opened Wrappers
  import opened Text
  import opened Seqs
  import opened Domain
  import Security

  // ---------------------------------------------------------------- allowed_file

  const AllowedFileExtensions := {"txt", "pdf", "png", "jpg", "jpeg", "gif", "doc", "docx"}

  /**
   * `allowed_file`: the name holds a `.` and the lower-cased text after its last
   * `.` is one of the allowed extensions. The stem is not looked at.
   */
  function AllowedFile(filename: string): (r: bool)
    ensures '.' !in filename ==> !r
    ensures r ==> exists i :: 0 <= i < |filename| && filename[i] == '.' && '.' !in filename[i + 1..]
                              && Lower(filename[i + 1..]) in AllowedFileExtensions
  {
    match LastIndexOf(filename, '.')
    case None => false
    case Some(i) => Lower(filename[i + 1..]) in AllowedFileExtensions
  }

  /**
   * A name is judged by its last extension alone, in any case: `scan.PDF` and
   * `.pdf` pass, `a.pdf.exe` does not.
   */
  lemma {:induction false} AllowedFileOfName(stem: string, ext: string)
    requires '.' !in ext
    ensures AllowedFile(stem + "." + ext) <==> Lower(ext) in AllowedFileExtensions
  {
    var name := stem + "." + ext;
    assert name[|stem|] == '.' && name[|stem| + 1..] == ext;
    LastIndexOfAt(name, '.', |stem|);
  }

  /**
   * A name that is only a dot and an extension, such as `.pdf`, is judged by
   * that extension in `allowed_file`, while the security service sees no
   * extension at all and refuses it.
   */
  lemma {:induction false} LeadingDotCompared(ext: string, size: nat, now: nat, safeName: string)
    requires '.' !in ext && '/' !in ext
    ensures AllowedFile("." + ext) <==> Lower(ext) in AllowedFileExtensions
    ensures Security.ValidateUpload("." + ext, size, now, safeName) == Security.ExtensionRefused("")
  {
    AllowedFileOfName("", ext);
    assert "" + "." + ext == "." + ext;
    Security.LeadingDotHasNoExtension(ext);
  }

  /**
   * For an ordinary `stem.ext` name both checks look at the same extension, but
   * against different lists: `gif` and `txt` pass `allowed_file` only.
   */
  lemma {:induction false} StemExtensionCompared(stem: string, ext: string, size: nat, now: nat, safeName: string)
    requires |stem| > 0 && stem[0] != '.' && '/' !in stem && '.' !in ext && '/' !in ext
    ensures AllowedFile(stem + "." + ext) <==> Lower(ext) in AllowedFileExtensions
    ensures Security.ValidateUpload(stem + "." + ext, size, now, safeName).ExtensionRefused? <==>
      "." + Lower(ext) !in Security.UploadExtensions
  {
    AllowedFileOfName(stem, ext);
    Security.ExtensionOfName(stem, ext);
    LowerConcat(".", ext);
    assert Lower(".") == ".";
  }

  // ---------------------------------------------------------------- normalize_string

  /**
   * One character after NFD decomposition with the combining marks dropped:
   * a combining mark disappears, an accented Latin-1 letter becomes its base
   * letter, anything else is kept.
   */
  function StripMark(c: char): (r: string)
    ensures |r| <= 1
    ensures '̀' <= c <= 'ͯ' ==> r == ""
    ensures c as int < 128 ==> r == [c]
  {
    if '̀' <= c <= 'ͯ' then ""
    else if 'À' <= c <= 'Å' then "A"
    else if c == 'Ç' then "C"
    else if 'È' <= c <= 'Ë' then "E"
    else if 'Ì' <= c <= 'Ï' then "I"
    else if c == 'Ñ' then "N"
    else if 'Ò' <= c <= 'Ö' then "O"
    else if 'Ù' <= c <= 'Ü' then "U"
    else if c == 'Ý' then "Y"
    else if 'à' <= c <= 'å' then "a"
    else if c == 'ç' then "c"
    else if 'è' <= c <= 'ë' then "e"
    else if 'ì' <= c <= 'ï' then "i"
    else if c == 'ñ' then "n"
    else if 'ò' <= c <= 'ö' then "o"
    else if 'ù' <= c <= 'ü' then "u"
    else if c == 'ý' || c == 'ÿ' then "y"
    else [c]
  }

  /** The text with its accents removed, character by character. */
  function RemoveAccents(s: string): (r: string)
    ensures |r| <= |s|
    ensures (forall i :: 0 <= i < |s| ==> s[i] as int < 128) ==> r == s
  {
    if |s| == 0 then "" else StripMark(s[0]) + RemoveAccents(s[1..])
  }

  /** `normalize_string`: "" for a missing or empty value, else accent-free, stripped, lower-cased. */
  function Normalize(s: Option<string>): (r: string)
    ensures !TruthyStr(s) ==> r == ""
    ensures TruthyStr(s) ==> r == Lower(Strip(Python, RemoveAccents(s.value)))
    ensures forall i :: 0 <= i < |r| ==> !('A' <= r[i] <= 'Z')
  {
    if !TruthyStr(s) then "" else Lower(Strip(Python, RemoveAccents(s.value)))
  }

  const CountryMappings: map<string, string> := map[
    "maroc" := "Maroc", "morocco" := "Maroc", "france" := "France",
    "belgique" := "Belgique", "belgium" := "Belgique",
    "congo" := "Congo (RDC)", "rdc" := "Congo (RDC)",
    "republique democratique du congo" := "Congo (RDC)"]

  const CityMappings: map<string, string> := map[
    "rabat" := "Rabat", "paris" := "Paris", "bruxelles" := "Bruxelles",
    "brussels" := "Bruxelles", "kinshasa" := "Kinshasa"]

  /** `mappings.get(normalize_string(raw), raw)`: the canonical name, or the raw value itself. */
  function Alias(mappings: map<string, string>, raw: string): (r: string)
    ensures Normalize(Some(raw)) in mappings ==> r == mappings[Normalize(Some(raw))]
    ensures Normalize(Some(raw)) !in mappings ==> r == raw
    ensures r == raw || r in mappings.Values
  {
    var key := Normalize(Some(raw));
    if key in mappings then mappings[key] else raw
  }

  /** Spellings with the same normal form that the table knows get the same alias. */
  lemma {:induction false} AliasIgnoresSpelling(mappings: map<string, string>, a: string, b: string)
    requires Normalize(Some(a)) == Normalize(Some(b)) && Normalize(Some(a)) in mappings
    ensures Alias(mappings, a) == Alias(mappings, b)
  {
  }

  /** An ASCII spelling is only stripped and lower-cased before the table lookup. */
  lemma {:induction false} AsciiNormalize(s: string)
    requires s != "" && forall i :: 0 <= i < |s| ==> s[i] as int < 128
    ensures Normalize(Some(s)) == Lower(Strip(Python, s))
  {
  }

  // ---------------------------------------------------------------- unit resolution

  /** The four address rules, in decreasing priority. */
  predicate CityExact(x: Unit, country: string, city: string) {
    x.active && x.pays == country && x.ville == city
  }

  predicate CityFuzzy(x: Unit, country: string, rawCity: string) {
    x.active && x.pays == country && ContainsCI(x.ville, rawCity)
  }

  predicate CountryExact(x: Unit, country: string) {
    x.active && x.pays == country
  }

  predicate CountryFuzzy(x: Unit, rawCountry: string) {
    x.active && ContainsCI(x.pays, rawCountry)
  }

  /** `units[i]` is the first unit with this id. */
  predicate FirstWithId(units: seq<Unit>, id: nat, i: int) {
    0 <= i < |units| && units[i].id == id && forall j :: 0 <= j < i ==> units[j].id != id
  }

  /** The user's assigned unit, when the id is set, exists and the unit is active. */
  function AssignedUnit(u: User, units: seq<Unit>): (r: Option<Unit>)
    ensures r.Some? ==> TruthyId(u.unitId) && r.value in units && r.value.id == u.unitId.value && r.value.active
    ensures !TruthyId(u.unitId) ==> r.None?
    ensures TruthyId(u.unitId) ==>
      (r.Some? <==> exists i :: FirstWithId(units, u.unitId.value, i) && units[i].active)
  {
    if !TruthyId(u.unitId) then None
    else match FirstWhere(units, (x: Unit) => x.id == u.unitId.value)
      case None => None
      case Some(i) => if units[i].active then Some(units[i]) else None
  }

  /** The first unit satisfying a rule, as the query's `.first()` returns it. */
  function First(units: seq<Unit>, p: Unit -> bool): (r: Option<Unit>)
    ensures r.None? <==> forall i :: 0 <= i < |units| ==> !p(units[i])
    ensures r.Some? ==> r.value in units && p(r.value)
  {
    match FirstWhere(units, p)
    case None => None
    case Some(i) => Some(units[i])
  }

  /**
   * `get_user_consular_unit`: the active assigned unit first; then, when the user
   * gave a country, the rules city-exact (aliased city in the aliased country),
   * city-fuzzy (the raw city inside the unit's city, any case), country-exact and
   * country-fuzzy (the raw country inside the unit's country), the city rules
   * only when a city was given; otherwise None.
   */
  function ResolveUnit(u: User, units: seq<Unit>): (r: Option<Unit>)
    ensures r.Some? ==> r.value in units && r.value.active
    ensures AssignedUnit(u, units).Some? ==> r == AssignedUnit(u, units)
    ensures AssignedUnit(u, units).None? && !TruthyStr(u.profile.adressePays) ==> r.None?
    ensures AssignedUnit(u, units).None? && TruthyStr(u.profile.adressePays) ==>
      var rawCountry := u.profile.adressePays.value;
      var country := Alias(CountryMappings, rawCountry);
      var hasCity := TruthyStr(u.profile.adresseVille);
      var rawCity := u.profile.adresseVille.GetOr("");
      var city := Alias(CityMappings, rawCity);
      && (hasCity && (exists i :: 0 <= i < |units| && CityExact(units[i], country, city)) ==>
            r.Some? && CityExact(r.value, country, city))
      && (r.None? <==> forall i :: 0 <= i < |units| ==>
            !CountryExact(units[i], country) && !CountryFuzzy(units[i], rawCountry))
      && (r.Some? ==> (hasCity && CityFuzzy(r.value, country, rawCity))
                      || CountryExact(r.value, country) || CountryFuzzy(r.value, rawCountry))
    ensures AssignedUnit(u, units).None? && TruthyStr(u.profile.adressePays) ==>
      var rawCountry := u.profile.adressePays.value;
      var country := Alias(CountryMappings, rawCountry);
      var hasCity := TruthyStr(u.profile.adresseVille);
      var rawCity := u.profile.adresseVille.GetOr("");
      var city := Alias(CityMappings, rawCity);
      var inCity := First(units, (x: Unit) => CityExact(x, country, city));
      var nearCity := First(units, (x: Unit) => CityFuzzy(x, country, rawCity));
      var inCountry := First(units, (x: Unit) => CountryExact(x, country));
      var nearCountry := First(units, (x: Unit) => CountryFuzzy(x, rawCountry));
      var noCity := !hasCity || (inCity.None? && nearCity.None?);
      && (hasCity && inCity.Some? ==> r == inCity)
      && (hasCity && inCity.None? && nearCity.Some? ==> r == nearCity)
      && (noCity && inCountry.Some? ==> r == inCountry)
      && (noCity && inCountry.None? ==> r == nearCountry)
  {
    var own := AssignedUnit(u, units);
    if own.Some? then own
    else if !TruthyStr(u.profile.adressePays) then None
    else
      var rawCountry := u.profile.adressePays.value;
      var country := Alias(CountryMappings, rawCountry);
      var byCity :=
        if !TruthyStr(u.profile.adresseVille) then None
        else
          var rawCity := u.profile.adresseVille.value;
          var city := Alias(CityMappings, rawCity);
          match First(units, (x: Unit) => CityExact(x, country, city))
          case Some(x) => Some(x)
          case None => First(units, (x: Unit) => CityFuzzy(x, country, rawCity));
      if byCity.Some? then byCity
      else match First(units, (x: Unit) => CountryExact(x, country))
        case Some(x) => Some(x)
        case None => First(units, (x: Unit) => CountryFuzzy(x, rawCountry))
  }

  /**
   * A unit in the user's city, even one matched only loosely, beats every
   * other unit of the country: the result is then matched by the city.
   */
  lemma {:induction false} CityBeatsCountry(u: User, units: seq<Unit>, i: nat)
    requires AssignedUnit(u, units).None?
    requires TruthyStr(u.profile.adressePays) && TruthyStr(u.profile.adresseVille)
    requires i < |units|
    requires CityFuzzy(units[i], Alias(CountryMappings, u.profile.adressePays.value), u.profile.adresseVille.value)
    ensures var r := ResolveUnit(u, units);
      var country := Alias(CountryMappings, u.profile.adressePays.value);
      var rawCity := u.profile.adresseVille.value;
      && r.Some?
      && (CityExact(r.value, country, Alias(CityMappings, rawCity)) || CityFuzzy(r.value, country, rawCity))
  {
    var country := Alias(CountryMappings, u.profile.adressePays.value);
    var rawCity := u.profile.adresseVille.value;
    assert !First(units, (x: Unit) => CityFuzzy(x, country, rawCity)).None?;
  }

  /**
   * A user with an active assigned unit keeps it whatever their address says,
   * and a user with neither an active assigned unit nor a country gets none.
   */
  lemma {:induction false} AssignmentWins(u: User, units: seq<Unit>, address: Profile, i: nat)
    requires i < |units| && units[i].active && TruthyId(u.unitId) && units[i].id == u.unitId.value
    requires forall j :: 0 <= j < i ==> units[j].id != u.unitId.value
    ensures ResolveUnit(u.(profile := address), units) == Some(units[i])
  {
    var v := u.(profile := address);
    assert FirstWithId(units, v.unitId.value, i);
  }
}

=== FILE: middleware.dfy ===
/**
 * The request middleware of the `backend` package: the CSRF check, a second
 * sliding-window rate limiter keyed by client address, the sanitizing of
 * request data, the security headers, the suspicious-pattern log and the
 * order in which the before-request hooks run.
 */
module Middleware {
  import opened Wrappers
  import opened Text
  import opened Seqs
  import opened Domain
  import opened Access
  import Security

  /** A JSON value of a request body: a string, or anything else (kept opaque). */
  datatype Value = Str(s: string) | NonString(repr: string)

  /**
   * The parts of a request the middleware reads. `json` is the parsed JSON
   * object of the body, if any; `args` holds one value per query parameter.
   */
  datatype Request = Request(
    httpMethod: string, isJson: bool, headerToken: Option<string>, form: map<string, string>,
    json: Option<map<string, Value>>, remoteAddr: string, url: string, args: seq<(string, string)>)

  // ---------------------------------------------------------------- CSRF

  /** The token sent with the request: the `X-CSRFToken` header for JSON, else the form field. */
  function RequestToken(req: Request): (r: Option<string>)
    ensures req.isJson ==> r == req.headerToken
    ensures !req.isJson ==> (r.Some? <==> "csrf_token" in req.form)
    ensures !req.isJson && r.Some? ==> r.value == req.form["csrf_token"]
  {
    if req.isJson then req.headerToken else FormGet(req.form, "csrf_token")
  }

  /**
   * `validate_csrf_token`: a missing or empty token on either side fails;
   * otherwise the constant-time comparison decides (None when it raises on
   * non-ASCII text).
   */
  function ValidateCsrf(req: Request, sessionToken: Option<string>): (r: Option<bool>)
    ensures r == Some(true) <==>
      && TruthyStr(RequestToken(req)) && sessionToken == RequestToken(req)
      && Security.IsAscii(sessionToken.value)
    ensures r.None? ==> TruthyStr(RequestToken(req)) && TruthyStr(sessionToken)
    ensures !TruthyStr(RequestToken(req)) || !TruthyStr(sessionToken) ==> r == Some(false)
  {
    var token := RequestToken(req);
    if !TruthyStr(token) || !TruthyStr(sessionToken) then Some(false)
    else Security.CompareDigest(token.value, sessionToken.value)
  }

  /** The methods whose requests must carry a CSRF token. */
  predicate Mutating(req: Request) {
    req.httpMethod in ["POST", "PUT", "DELETE"]
  }

  /**
   * The session's CSRF token after the token hook: an existing token is kept,
   * otherwise `generated` (what the token generator returned) is stored.
   */
  function EnsureCsrfToken(sessionToken: Option<string>, generated: string): (r: string)
    ensures sessionToken.Some? ==> r == sessionToken.value
    ensures sessionToken.None? ==> r == generated
  {
    sessionToken.GetOr(generated)
  }

  /** Once a session holds a token, later requests never replace it. */
  lemma {:induction false} CsrfTokenIsStable(sessionToken: Option<string>, generated1: string, generated2: string)
    ensures var first := EnsureCsrfToken(sessionToken, generated1);
      EnsureCsrfToken(Some(first), generated2) == first
    ensures sessionToken.Some? ==> EnsureCsrfToken(sessionToken, generated1) == EnsureCsrfToken(sessionToken, generated2)
  {
  }

  // ---------------------------------------------------------------- rate limit

  const DefaultMaxRequests := 100
  const DefaultWindowSeconds := 3600

  /**
   * `rate_limit_check` of the middleware, with times in whole seconds: the
   * identifier's list is pruned to the entries strictly newer than
   * `now - windowSeconds` and stored even when the request is refused; the
   * request is refused when the pruned list already holds `maxRequests`
   * entries, and otherwise `now` is appended.
   */
  function RateLimit(cache: map<string, seq<int>>, id: string, now: int, maxRequests: int,
                     windowSeconds: int): (r: (map<string, seq<int>>, bool))
    ensures var pruned := Security.Recent(if id in cache then cache[id] else [], now - windowSeconds);
      && (r.1 <==> |pruned| < maxRequests)
      && (!r.1 ==> r.0 == cache[id := pruned])
      && (r.1 ==> r.0 == cache[id := pruned + [now]])
    ensures r.1 ==> |r.0[id]| <= maxRequests
    ensures id in r.0 && forall t :: t in r.0[id] ==> t > now - windowSeconds || t == now
    ensures forall other :: other != id ==> (other in r.0 <==> other in cache)
    ensures forall other :: other != id && other in cache ==> r.0[other] == cache[other]
  {
    var pruned := Security.Recent(if id in cache then cache[id] else [], now - windowSeconds);
    if |pruned| >= maxRequests then (cache[id := pruned], false)
    else (cache[id := pruned + [now]], true)
  }

  /** `n` copies of `t`. */
  function Repeat(t: int, n: nat): (r: seq<int>)
    ensures |r| == n && forall i :: 0 <= i < n ==> r[i] == t
  {
    seq(n, _ => t)
  }

  /**
   * A burst of `n` requests within one second from an identifier not yet seen: exactly
   * the first `maxRequests` are let through, and the stored list ends up with
   * one entry per accepted request.
   */
  method Burst(cache: map<string, seq<int>>, id: string, now: int, n: nat, maxRequests: nat,
               windowSeconds: int) returns (accepted: nat, after: map<string, seq<int>>)
    requires id !in cache && windowSeconds > 0
    ensures accepted == if n <= maxRequests then n else maxRequests
    ensures n > 0 ==> id in after && after[id] == Repeat(now, accepted)
    ensures n == 0 ==> after == cache
    ensures forall other :: other != id ==> (other in after <==> other in cache)
  {
    accepted := 0;
    after := cache;
    var i := 0;
    while i < n
      invariant 0 <= i <= n
      invariant accepted == if i <= maxRequests then i else maxRequests
      invariant i > 0 ==> id in after && after[id] == Repeat(now, accepted)
      invariant i == 0 ==> after == cache
      invariant forall other :: other != id ==> (other in after <==> other in cache)
    {
      var stored := if id in after then after[id] else [];
      assert stored == Repeat(now, accepted);
      Seqs.FilterKeepsAll(stored, (t: int) => t > now - windowSeconds);
      var step := RateLimit(after, id, now, maxRequests, windowSeconds);
      if step.1 {
        accepted := accepted + 1;
        assert step.0[id] == Repeat(now, accepted);
      }
      after := step.0;
      i := i + 1;
    }
  }

  /**
   * The two limiters compared on an identifier they have both seen, with the
   * window in minutes for one and in seconds for the other: they give the same
   * verdict, and store the same list when they accept. They differ in what a
   * refusal stores (the middleware keeps the pruned list) and on a first
   * request, which the security service always accepts.
   */
  lemma {:induction false} RateLimitersCompared(cache: map<string, seq<int>>, id: string, now: int,
                                                maxAttempts: int, windowMinutes: int)
    ensures id in cache ==>
      var a := Security.RateLimit(cache, id, now, maxAttempts, windowMinutes);
      var b := RateLimit(cache, id, now, maxAttempts, windowMinutes * 60);
      a.1 == b.1 && (a.1 ==> a.0 == b.0)
    ensures id !in cache && maxAttempts <= 0 ==>
      && Security.RateLimit(cache, id, now, maxAttempts, windowMinutes).1
      && !RateLimit(cache, id, now, maxAttempts, windowMinutes * 60).1
  {
  }

  // ---------------------------------------------------------------- sanitizing

  /** A JSON object with every string value sanitized and every other value kept. */
  function SanitizeJson(data: map<string, Value>): (r: map<string, Value>)
    ensures r.Keys == data.Keys
    ensures forall k :: k in data && data[k].Str? ==> r[k] == Str(Security.Sanitize(data[k].s))
    ensures forall k :: k in data && data[k].NonString? ==> r[k] == data[k]
  {
    map k | k in data :: match data[k] case Str(s) => Str(Security.Sanitize(s)) case NonString(_) => data[k]
  }

  /** A form with every value sanitized. */
  function SanitizeForm(form: map<string, string>): (r: map<string, string>)
    ensures r.Keys == form.Keys
    ensures forall k :: k in form ==> r[k] == Security.Sanitize(form[k]) && Security.Clean(r[k])
  {
    map k | k in form :: Security.Sanitize(form[k])
  }

  /**
   * `sanitize_request_data`: a JSON request has its non-empty JSON object
   * sanitized and its form left alone; any other request has a non-empty form
   * sanitized.
   */
  function SanitizeRequestData(req: Request): (r: Request)
    ensures r == req.(json := r.json, form := r.form)
    ensures req.isJson ==> r.form == req.form
    ensures req.isJson && req.json.Some? && |req.json.value| > 0 ==> r.json == Some(SanitizeJson(req.json.value))
    ensures req.isJson && (req.json.None? || |req.json.value| == 0) ==> r == req
    ensures !req.isJson ==> r.json == req.json && r.form == SanitizeForm(req.form)
  {
    if req.isJson then
      if req.json.Some? && |req.json.value| > 0 then req.(json := Some(SanitizeJson(req.json.value))) else req
    else if |req.form| > 0 then req.(form := SanitizeForm(req.form))
    else req
  }

  /** Sanitizing a form twice is sanitizing it once. */
  lemma {:induction false} SanitizeFormIdempotent(form: map<string, string>)
    ensures SanitizeForm(SanitizeForm(form)) == SanitizeForm(form)
  {
    var once := SanitizeForm(form);
    forall k | k in once
      ensures Security.Sanitize(once[k]) == once[k]
    {
      Security.SanitizeIdempotent(form[k]);
    }
  }

  /** Sanitizing a JSON object twice is sanitizing it once. */
  lemma {:induction false} SanitizeJsonIdempotent(data: map<string, Value>)
    ensures SanitizeJson(SanitizeJson(data)) == SanitizeJson(data)
  {
    var once := SanitizeJson(data);
    forall k | k in once && once[k].Str?
      ensures Security.Sanitize(once[k].s) == once[k].s
    {
      Security.SanitizeIdempotent(data[k].s);
    }
    assert forall k | k in once :: SanitizeJson(once)[k] == once[k];
  }

  /** Sanitizing the request data twice is sanitizing it once. */
  lemma {:induction false} SanitizeRequestDataIdempotent(req: Request)
    ensures SanitizeRequestData(SanitizeRequestData(req)) == SanitizeRequestData(req)
  {
    if req.isJson && req.json.Some? && |req.json.value| > 0 {
      SanitizeJsonIdempotent(req.json.value);
    } else if !req.isJson && |req.form| > 0 {
      SanitizeFormIdempotent(req.form);
    }
  }

  // ---------------------------------------------------------------- headers

  /** The response headers the middleware sets. */
  datatype Header = ContentTypeOptions | FrameOptions | XssProtection | ContentSecurityPolicy | TransportSecurity

  /** The header's name on the wire. */
  function HeaderName(h: Header): string {
    match h
    case ContentTypeOptions => "X-Content-Type-Options"
    case FrameOptions => "X-Frame-Options"
    case XssProtection => "X-XSS-Protection"
    case ContentSecurityPolicy => "Content-Security-Policy"
    case TransportSecurity => "Strict-Transport-Security"
  }

  const CspPolicy :=
    "default-src 'self'; script-src 'self' 'unsafe-inline' cdnjs.cloudflare.com; "
    + "style-src 'self' 'unsafe-inline' cdnjs.cloudflare.com; font-src 'self' cdnjs.cloudflare.com; "
    + "img-src 'self' data: https:; "

  const HstsPolicy := "max-age=31536000; includeSubDomains"

  /** The headers added to every response; HSTS only outside debug mode. */
  function SecurityHeaders(debug: bool): (r: map<Header, string>)
    ensures ContentTypeOptions in r && r[ContentTypeOptions] == "nosniff"
    ensures FrameOptions in r && r[FrameOptions] == "DENY"
    ensures XssProtection in r && r[XssProtection] == "1; mode=block"
    ensures ContentSecurityPolicy in r && r[ContentSecurityPolicy] == CspPolicy
    ensures TransportSecurity in r <==> !debug
    ensures TransportSecurity in r ==> r[TransportSecurity] == HstsPolicy
  {
    var base := map[
      ContentTypeOptions := "nosniff",
      FrameOptions := "DENY",
      XssProtection := "1; mode=block",
      ContentSecurityPolicy := CspPolicy];
    if debug then base else base[TransportSecurity := HstsPolicy]
  }

  /** Debug and production responses differ only by the HSTS header. */
  lemma {:induction false} DebugOnlyDropsHsts()
    ensures SecurityHeaders(false) == SecurityHeaders(true)[TransportSecurity := HstsPolicy]
    ensures SecurityHeaders(true).Keys == SecurityHeaders(false).Keys - {TransportSecurity}
  {
  }

  // ---------------------------------------------------------------- suspicious patterns

  const SuspiciousPatterns: seq<string> := ["union select", "<script", "javascript:", "../", "eval(", "system("]

  /** A logged suspicious-activity event. */
  datatype Suspicion = SuspiciousUrl(pattern: string) | SuspiciousParameter(key: string, pattern: string)

  /** The patterns found in one text, in list order. */
  function Found(text: string): (r: seq<string>)
    ensures forall p :: p in r <==> p in SuspiciousPatterns && ContainsCI(text, p)
  {
    Filter(SuspiciousPatterns, (p: string) => ContainsCI(text, p))
  }

  /** One parameter event per pattern of `found`, all for `key`. */
  function KeyEvents(key: string, found: seq<string>): (r: seq<Suspicion>)
    ensures forall e :: e in r <==> e.SuspiciousParameter? && e.key == key && e.pattern in found
  {
    if |found| == 0 then [] else [SuspiciousParameter(key, found[0])] + KeyEvents(key, found[1..])
  }

  /** Is `p` a suspicious pattern that some argument named `key` contains, in any case? */
  predicate ArgMatches(args: seq<(string, string)>, key: string, p: string) {
    p in SuspiciousPatterns && exists i :: 0 <= i < |args| && args[i].0 == key && ContainsCI(args[i].1, p)
  }

  /** One parameter event per pattern found in each argument value, argument by argument. */
  function ParameterEvents(args: seq<(string, string)>): (r: seq<Suspicion>)
    ensures forall e :: e in r ==> e.SuspiciousParameter?
    ensures forall key, p :: SuspiciousParameter(key, p) in r <==> ArgMatches(args, key, p)
  {
    if |args| == 0 then []
    else
      var tail := ParameterEvents(args[1..]);
      ArgMatchesSplit(args);
      KeyEvents(args[0].0, Found(args[0].1)) + tail
  }

  /** An argument list matches through its head or through its tail. */
  lemma ArgMatchesSplit(args: seq<(string, string)>)
    requires |args| > 0
    ensures forall key, p :: ArgMatches(args, key, p) <==>
      (p in SuspiciousPatterns && args[0].0 == key && ContainsCI(args[0].1, p)) || ArgMatches(args[1..], key, p)
  {
    forall key, p
      ensures ArgMatches(args, key, p) <==>
        (p in SuspiciousPatterns && args[0].0 == key && ContainsCI(args[0].1, p)) || ArgMatches(args[1..], key, p)
    {
      ArgMatchesSplitAt(args, key, p);
    }
  }

  /** `ArgMatchesSplit` for one key and pattern. */
  lemma ArgMatchesSplitAt(args: seq<(string, string)>, key: string, p: string)
    requires |args| > 0
    ensures ArgMatches(args, key, p) <==>
      (p in SuspiciousPatterns && args[0].0 == key && ContainsCI(args[0].1, p)) || ArgMatches(args[1..], key, p)
  {
    var tail := args[1..];
    if ArgMatches(tail, key, p) {
      var i :| 0 <= i < |tail| && tail[i].0 == key && ContainsCI(tail[i].1, p);
      TailIndex(args, i + 1);
    }
    if ArgMatches(args, key, p) {
      var i :| 0 <= i < |args| && args[i].0 == key && ContainsCI(args[i].1, p);
      if i > 0 {
        TailIndex(args, i);
      }
    }
  }

  lemma TailIndex<T>(s: seq<T>, i: nat)
    requires 0 < i < |s|
    ensures s[1..][i - 1] == s[i]
  {
  }

  /** One URL event per pattern of `found`. */
  function UrlEvents(found: seq<string>): (r: seq<Suspicion>)
    ensures forall e :: e in r <==> e.SuspiciousUrl? && e.pattern in found
  {
    if |found| == 0 then [] else [SuspiciousUrl(found[0])] + UrlEvents(found[1..])
  }

  /**
   * `check_suspicious_patterns`: one URL event per pattern found in the URL, then
   * the parameter events, as the hook means to log them. The security service
   * the hook calls has no logging method, so as written the first event raises
   * instead (see `BeforeRequestAsWritten`).
   */
  function SuspiciousEvents(url: string, args: seq<(string, string)>): (r: seq<Suspicion>)
    ensures forall p :: SuspiciousUrl(p) in r <==> p in SuspiciousPatterns && ContainsCI(url, p)
    ensures forall key, p :: SuspiciousParameter(key, p) in r <==> ArgMatches(args, key, p)
  {
    UrlEvents(Found(url)) + ParameterEvents(args)
  }

  // ---------------------------------------------------------------- pipeline

  /**
   * How the before-request hooks end. `LogRaised` is the server error raised
   * when a hook calls the security service's missing logging method.
   */
  datatype Verdict = CsrfRejected | CsrfRaised | RateLimited | Passed | LogRaised

  /** What the before-request hooks leave behind. */
  datatype Hooks = Hooks(verdict: Verdict, cache: map<string, seq<int>>, req: Request,
                         events: seq<Suspicion>, sessionToken: Option<string>)

  /**
   * The before-request hooks in registration order, with the security events
   * logged as the code intends: `security_middleware` (CSRF for mutating
   * methods, then the rate limit on the client address, then sanitizing), the
   * suspicious-pattern log, then the session's CSRF token. A refusal (403 or
   * 429) stops the chain, so the later hooks do not run; `generated` is what
   * the token generator returns.
   */
  function BeforeRequest(req: Request, sessionToken: Option<string>, cache: map<string, seq<int>>,
                         now: int, generated: string): (r: Hooks)
    ensures r.verdict != LogRaised
    ensures r.verdict == CsrfRejected <==> Mutating(req) && ValidateCsrf(req, sessionToken) == Some(false)
    ensures r.verdict == CsrfRaised <==> Mutating(req) && ValidateCsrf(req, sessionToken).None?
    ensures r.verdict in {CsrfRejected, CsrfRaised} ==> r.cache == cache
    ensures r.verdict != Passed ==> r.req == req && r.events == [] && r.sessionToken == sessionToken
    ensures r.verdict == RateLimited <==>
      (!Mutating(req) || ValidateCsrf(req, sessionToken) == Some(true))
      && !RateLimit(cache, req.remoteAddr, now, DefaultMaxRequests, DefaultWindowSeconds).1
    ensures r.verdict in {RateLimited, Passed} ==>
      r.cache == RateLimit(cache, req.remoteAddr, now, DefaultMaxRequests, DefaultWindowSeconds).0
    ensures r.verdict == Passed ==>
      && r.req == SanitizeRequestData(req)
      && r.events == SuspiciousEvents(req.url, req.args)
      && r.sessionToken == Some(EnsureCsrfToken(sessionToken, generated))
  {
    var csrf := if Mutating(req) then ValidateCsrf(req, sessionToken) else Some(true);
    if csrf == Some(false) then Hooks(CsrfRejected, cache, req, [], sessionToken)
    else if csrf.None? then Hooks(CsrfRaised, cache, req, [], sessionToken)
    else
      var limited := RateLimit(cache, req.remoteAddr, now, DefaultMaxRequests, DefaultWindowSeconds);
      if !limited.1 then Hooks(RateLimited, limited.0, req, [], sessionToken)
      else Hooks(Passed, limited.0, SanitizeRequestData(req), SuspiciousEvents(req.url, req.args),
                 Some(EnsureCsrfToken(sessionToken, generated)))
  }

  /**
   * The same hooks as written: every place that logs a security event (a failed
   * CSRF check, a rate limit, any suspicious pattern) calls a method the
   * imported security service lacks, so it raises before the abort or the next
   * hook. Nothing is logged, no session token is created, and the rate-limit
   * cache keeps what the limiter stored before the error.
   */
  function BeforeRequestAsWritten(req: Request, sessionToken: Option<string>, cache: map<string, seq<int>>,
                                  now: int, generated: string): (r: Hooks)
    ensures r.verdict !in {CsrfRejected, RateLimited}
    ensures r.verdict == CsrfRaised <==> Mutating(req) && ValidateCsrf(req, sessionToken).None?
    ensures r.verdict == Passed <==>
      && (!Mutating(req) || ValidateCsrf(req, sessionToken) == Some(true))
      && RateLimit(cache, req.remoteAddr, now, DefaultMaxRequests, DefaultWindowSeconds).1
      && SuspiciousEvents(req.url, req.args) == []
    ensures r.events == [] && (r.verdict != Passed ==> r.sessionToken == sessionToken)
    ensures r.verdict == Passed ==> r.sessionToken == Some(EnsureCsrfToken(sessionToken, generated))
  {
    var csrf := if Mutating(req) then ValidateCsrf(req, sessionToken) else Some(true);
    if csrf == Some(false) then Hooks(LogRaised, cache, req, [], sessionToken)
    else if csrf.None? then Hooks(CsrfRaised, cache, req, [], sessionToken)
    else
      var limited := RateLimit(cache, req.remoteAddr, now, DefaultMaxRequests, DefaultWindowSeconds);
      if !limited.1 then Hooks(LogRaised, limited.0, req, [], sessionToken)
      else if SuspiciousEvents(req.url, req.args) != [] then
        Hooks(LogRaised, limited.0, SanitizeRequestData(req), [], sessionToken)
      else Hooks(Passed, limited.0, SanitizeRequestData(req), [], Some(EnsureCsrfToken(sessionToken, generated)))
  }

  /**
   * The two pipelines agree exactly when the intended one has nothing to log;
   * wherever it would log (a CSRF refusal, a rate limit or a suspicious event),
   * the written one raises instead, after storing the same rate-limit cache.
   */
  lemma {:induction false} LoggingVariantsCompared(req: Request, sessionToken: Option<string>,
                                                   cache: map<string, seq<int>>, now: int, generated: string)
    ensures var intended := BeforeRequest(req, sessionToken, cache, now, generated);
      var written := BeforeRequestAsWritten(req, sessionToken, cache, now, generated);
      && written.cache == intended.cache
      && (written == intended <==> intended.verdict == CsrfRaised || (intended.verdict == Passed && intended.events == []))
      && (written != intended ==> written.verdict == LogRaised)
  {
    var intended := BeforeRequest(req, sessionToken, cache, now, generated);
    var written := BeforeRequestAsWritten(req, sessionToken, cache, now, generated);
    var csrf := if Mutating(req) then ValidateCsrf(req, sessionToken) else Some(true);
    if csrf == Some(false) {
      assert intended.verdict == CsrfRejected && written.verdict == LogRaised;
    } else if csrf.None? {
      assert written == Hooks(CsrfRaised, cache, req, [], sessionToken) == intended;
    } else {
      var limited := RateLimit(cache, req.remoteAddr, now, DefaultMaxRequests, DefaultWindowSeconds);
      if !limited.1 {
        assert intended.verdict == RateLimited && written.verdict == LogRaised;
      } else if SuspiciousEvents(req.url, req.args) != [] {
        assert intended.events != [] && written.verdict == LogRaised;
      } else {
        assert written == Hooks(Passed, limited.0, SanitizeRequestData(req), [],
                                Some(EnsureCsrfToken(sessionToken, generated))) == intended;
      }
    }
  }

  /** A path-traversal sequence anywhere in a URL, in any case, is a suspicious URL event. */
  lemma {:induction false} TraversalIsSuspicious(before: string, after: string, args: seq<(string, string)>)
    ensures SuspiciousUrl("../") in SuspiciousEvents(before + "../" + after, args)
  {
    var url := before + "../" + after;
    LowerConcat(before + "../", after);
    LowerConcat(before, "../");
    assert Lower("../") == "../";
    ContainsSpliced(Lower(before), "../", Lower(after));
    assert ContainsCI(url, "../");
    assert "../" in SuspiciousPatterns;
  }

  /**
   * As intended, a request that passes the CSRF check and the rate limit with a
   * path-traversal sequence in its URL goes on, with the traversal logged and
   * a session token in place.
   */
  lemma {:induction false} TraversalIsLogged(req: Request, sessionToken: Option<string>, cache: map<string, seq<int>>,
                                             now: int, generated: string, before: string, after: string)
    requires req.url == before + "../" + after && !Mutating(req)
    requires RateLimit(cache, req.remoteAddr, now, DefaultMaxRequests, DefaultWindowSeconds).1
    ensures var r := BeforeRequest(req, sessionToken, cache, now, generated);
      r.verdict == Passed && SuspiciousUrl("../") in r.events && r.sessionToken.Some?
  {
    TraversalIsSuspicious(before, after, req.args);
  }

  /**
   * As written, the same request fails with a server error: nothing is logged
   * and the session gets no CSRF token.
   */
  lemma {:induction false} TraversalRaisesAsWritten(req: Request, sessionToken: Option<string>,
                                                    cache: map<string, seq<int>>, now: int, generated: string,
                                                    before: string, after: string)
    requires req.url == before + "../" + after && !Mutating(req)
    requires RateLimit(cache, req.remoteAddr, now, DefaultMaxRequests, DefaultWindowSeconds).1
    ensures var r := BeforeRequestAsWritten(req, sessionToken, cache, now, generated);
      r.verdict == LogRaised && r.events == [] && r.sessionToken == sessionToken
  {
    TraversalIsSuspicious(before, after, req.args);
  }

  /**
   * A session's first POST is always refused: the token hook runs after the
   * CSRF check, so no session token exists yet; nothing is spent from the rate
   * budget and no token is created. As written the refusal is a server error
   * rather than a 403.
   */
  lemma {:induction false} FirstPostIsRefused(req: Request, cache: map<string, seq<int>>, now: int, generated: string)
    requires req.httpMethod == "POST"
    ensures var r := BeforeRequest(req, None, cache, now, generated);
      r.verdict == CsrfRejected && r.cache == cache && r.sessionToken.None?
    ensures var r := BeforeRequestAsWritten(req, None, cache, now, generated);
      r.verdict == LogRaised && r.cache == cache && r.sessionToken.None?
  {
  }
}

=== FILE: migrations.dfy ===
/**
 * The database side of the update service: choosing the pending migration
 * files, running them in order until the first failure, writing a new
 * migration file from SQL text, and the backup step that can abort an update.
 */
module Migrations {
  import opened Wrappers
  import opened Text
  import opened Seqs
  import opened Domain
  import opened Sorting

  // ---------------------------------------------------------------- pending

  /** A migration file name: `migration_…` ending in `.py`. */
  predicate IsMigrationName(f: string) {
    EndsWith(f, ".py") && StartsWith(f, "migration_")
  }

  /**
   * `_is_migration_executed`: the tracking table holds the name. `table` is None
   * when the database query raises, and then every migration counts as not
   * executed.
   */
  predicate Executed(name: string, table: Option<set<string>>) {
    table.Some? && name in table.value
  }

  /**
   * `_get_pending_migrations`: the migration files of the directory listing not
   * yet executed, in sorted order; a missing directory (None) gives none.
   */
  function PendingMigrations(listing: Option<seq<string>>, table: Option<set<string>>): (r: seq<string>)
    ensures listing.None? ==> r == []
    ensures listing.Some? ==> forall f :: f in r <==>
      f in listing.value && IsMigrationName(f) && !Executed(f, table)
    ensures forall i, j :: 0 <= i < j < |r| ==> StrLe(r[i], r[j])
  {
    if listing.None? then []
    else
      var sorted := SortStrings(listing.value);
      assert forall f :: f in sorted <==> f in listing.value by {
        forall f ensures f in sorted <==> f in listing.value {
          assert f in sorted <==> f in multiset(sorted);
          assert f in listing.value <==> f in multiset(listing.value);
        }
      }
      var r := Filter(sorted, (f: string) => IsMigrationName(f) && !Executed(f, table));
      FilterKeepsOrder(sorted, (f: string) => IsMigrationName(f) && !Executed(f, table));
      r
  }

  /** A filter of a sorted list is sorted. */
  lemma {:induction false} FilterKeepsOrder(s: seq<string>, p: string -> bool)
    requires SortedStrings(s)
    ensures SortedStrings(Filter(s, p))
  {
    if |s| > 0 {
      FilterKeepsOrder(s[1..], p);
      var rest := Filter(s[1..], p);
      assert forall j :: 0 <= j < |rest| ==> StrLe(s[0], rest[j]) by {
        forall j | 0 <= j < |rest| ensures StrLe(s[0], rest[j]) {
          var k :| 0 <= k < |s[1..]| && s[1..][k] == rest[j];
          assert s[k + 1] == rest[j];
        }
      }
    }
  }

  /** When the tracking table cannot be read, every migration file is pending again. */
  lemma {:induction false} UnreadableTableRerunsAll(listing: seq<string>, f: string)
    requires f in listing && IsMigrationName(f)
    ensures f in PendingMigrations(Some(listing), None)
  {
  }

  // ---------------------------------------------------------------- running

  /** The index of the first migration whose `up()` raises, if any. */
  function FirstFailure(pending: seq<string>, fails: set<string>): (r: Option<nat>)
    ensures r.None? <==> forall i :: 0 <= i < |pending| ==> pending[i] !in fails
    ensures r.Some? ==> r.value < |pending| && pending[r.value] in fails
                        && forall i :: 0 <= i < r.value ==> pending[i] !in fails
  {
    FirstWhere(pending, (f: string) => f in fails)
  }

  /**
   * `_run_database_migrations`: the pending migrations run in order. `fails`
   * holds the files whose `up()` raises (or that have none); the run stops at
   * the first of them and reports it. A migration that ran is listed and then
   * marked as executed, unless marking it fails (`markFails`), which is only
   * logged.
   */
  method RunMigrations(pending: seq<string>, fails: set<string>, markFails: set<string>, table: set<string>)
    returns (success: bool, run: seq<string>, failed: Option<string>, executed: set<string>)
    ensures success <==> FirstFailure(pending, fails).None?
    ensures success ==> run == pending && failed.None?
    ensures !success ==> run == pending[..FirstFailure(pending, fails).value]
                         && failed == Some(pending[|run|])
    ensures forall f :: f in run ==> f !in fails
    ensures executed == table + (set f | f in run && f !in markFails)
  {
    success := true;
    run := [];
    failed := None;
    executed := table;
    var i := 0;
    while i < |pending|
      invariant 0 <= i <= |pending|
      invariant run == pending[..i]
      invariant forall j :: 0 <= j < i ==> pending[j] !in fails
      invariant executed == table + (set f | f in run && f !in markFails)
    {
      var f := pending[i];
      if f in fails {
        success := false;
        failed := Some(f);
        return;
      }
      run := run + [f];
      if f !in markFails {
        executed := executed + {f};
      }
      i := i + 1;
    }
  }

  /** A failed run is resumed by the next update: the failed file and the rest stay pending. */
  lemma {:induction false} FailedRunStaysPending(listing: seq<string>, table: set<string>, failedFile: string,
                                                  ranFiles: set<string>)
    requires failedFile in listing && IsMigrationName(failedFile) && failedFile !in table
    requires failedFile !in ranFiles
    ensures failedFile in PendingMigrations(Some(listing), Some(table + ranFiles))
  {
  }

  // ---------------------------------------------------------------- new migrations

  /** `migration_<timestamp>_<name>.py`, the name `create_migration` writes. */
  function MigrationFileName(timestamp: string, name: string): (r: string)
    ensures IsMigrationName(r)
  {
    var r := "migration_" + timestamp + "_" + name + ".py";
    assert r[..10] == "migration_";
    assert r[|r| - 3..] == ".py";
    r
  }

  /** A created migration not yet in the tracking table is picked up by the next update. */
  lemma {:induction false} CreatedMigrationIsPending(listing: seq<string>, table: Option<set<string>>,
                                                     timestamp: string, name: string)
    requires MigrationFileName(timestamp, name) in listing
    requires !Executed(MigrationFileName(timestamp, name), table)
    ensures MigrationFileName(timestamp, name) in PendingMigrations(Some(listing), table)
  {
  }

  /** The call a non-blank SQL line becomes, without indentation: a single line starting with `d`. */
  function ExecuteCall(line: string): (r: string)
    ensures |r| > 0 && r[0] == 'd'
    ensures '\n' !in line ==> '\n' !in r
  {
    var r := "db.engine.execute(\"" + Strip(Python, line) + "\")";
    assert '\n' !in line ==> '\n' !in r by {
      if '\n' !in line {
        StripKeepsOut(Python, line, '\n');
      }
    }
    r
  }

  /** The lines that are not blank, in order. */
  function NonBlankLines(lines: seq<string>): (r: seq<string>)
    ensures forall i :: 0 <= i < |r| ==> r[i] in lines && !Blank(Python, r[i])
    ensures |r| == 0 <==> forall i :: 0 <= i < |lines| ==> Blank(Python, lines[i])
  {
    var r := Filter(lines, (l: string) => !Blank(Python, l));
    assert |r| > 0 ==> r[0] in lines;
    assert forall i :: 0 <= i < |lines| && !Blank(Python, lines[i]) ==> lines[i] in lines;
    r
  }

  /** One call per non-blank line, each after `indent`. */
  function Calls(lines: seq<string>, indent: string): (r: seq<string>)
    ensures |r| == |NonBlankLines(lines)|
    ensures forall i :: 0 <= i < |r| ==> r[i] == indent + ExecuteCall(NonBlankLines(lines)[i])
  {
    var nb := NonBlankLines(lines);
    seq(|nb|, i requires 0 <= i < |nb| => indent + ExecuteCall(nb[i]))
  }

  /** The lines of a SQL text after `sql.strip().split('\n')`. */
  function SqlLines(sql: string): (r: seq<string>)
    ensures |r| >= 1 && forall i :: 0 <= i < |r| ==> '\n' !in r[i]
  {
    Split(Strip(Python, sql), '\n')
  }

  /**
   * `_format_sql_for_python`: one indented `db.engine.execute("<stripped line>")`
   * per non-blank line, joined by newlines, or `pass` when there is none.
   */
  function FormatSql(sql: string): (r: string)
    ensures r == "pass" <==> forall i :: 0 <= i < |SqlLines(sql)| ==> Blank(Python, SqlLines(sql)[i])
    ensures r != "pass" ==> Split(r, '\n') == Calls(SqlLines(sql), "    ")
  {
    var calls := Calls(SqlLines(sql), "    ");
    if |calls| == 0 then "pass"
    else
      CallsHaveNoNewline(SqlLines(sql), "    ");
      SplitJoin(calls, '\n');
      assert Join(calls, '\n')[0] == ' ';
      Join(calls, '\n')
  }

  /** The generated calls are single lines. */
  lemma CallsHaveNoNewline(lines: seq<string>, indent: string)
    requires forall i :: 0 <= i < |lines| ==> '\n' !in lines[i]
    requires '\n' !in indent
    ensures forall i :: 0 <= i < |Calls(lines, indent)| ==> '\n' !in Calls(lines, indent)[i]
  {
    var nb := NonBlankLines(lines);
    assert forall i :: 0 <= i < |nb| ==> '\n' !in ExecuteCall(nb[i]);
  }

  /** The number of leading spaces of a line. */
  function Indent(line: string): (n: nat)
    ensures n <= |line| && forall i :: 0 <= i < n ==> line[i] == ' '
    ensures n < |line| ==> line[n] != ' '
  {
    if |line| > 0 && line[0] == ' ' then 1 + Indent(line[1..]) else 0
  }

  const DocstringText := "\"\"\"Appliquer la migration\"\"\""
  const UpDocstring := "    " + DocstringText

  /**
   * The body of the generated `up` function as `create_migration` lays it out:
   * the docstring line, then the formatted SQL placed after four spaces.
   */
  function UpBodyAsWritten(sqlUp: string): (r: seq<string>)
    ensures |r| >= 2 && r[0] == UpDocstring
  {
    [UpDocstring] + Split("    " + FormatSql(sqlUp), '\n')
  }

  /** Four more spaces add four to the indentation. */
  lemma IndentFour(x: string)
    ensures Indent("    " + x) == 4 + Indent(x)
  {
    var s := "    " + x;
    assert s[1..] == "   " + x && s[1..][1..] == "  " + x && s[1..][1..][1..] == " " + x;
    assert s[1..][1..][1..][1..] == x;
  }

  /** The docstring line sits four spaces deep. */
  lemma DocstringAtFour()
    ensures Indent(UpDocstring) == 4
  {
    IndentFour(DocstringText);
    assert DocstringText[0] == '"';
  }

  /** A prefix before joined lines lands on the first of them only. */
  lemma FirstLineShifted(pad: string, calls: seq<string>)
    requires '\n' !in pad
    requires |calls| > 0 && forall i :: 0 <= i < |calls| ==> '\n' !in calls[i]
    ensures Split(pad + Join(calls, '\n'), '\n')[0] == pad + calls[0]
  {
    var shifted := [pad + calls[0]] + calls[1..];
    assert forall i :: 0 <= i < |shifted| ==> '\n' !in shifted[i] by {
      forall i | 0 <= i < |shifted| ensures '\n' !in shifted[i] {
        if i > 0 {
          assert shifted[i] == calls[i];
        }
      }
    }
    if |calls| > 1 {
      assert shifted[1..] == calls[1..];
      calc {
        pad + Join(calls, '\n');
        pad + (calls[0] + ['\n'] + Join(calls[1..], '\n'));
        (pad + calls[0]) + ['\n'] + Join(calls[1..], '\n');
        Join(shifted, '\n');
      }
    }
    SplitJoin(shifted, '\n');
  }

  /**
   * As written, any non-blank SQL puts the first statement eight spaces deep
   * right after the docstring at four, so the generated module raises an
   * indentation error on import and the migration can never run.
   */
  lemma {:induction false} GeneratedUpIsMisindented(sqlUp: string)
    requires exists i :: 0 <= i < |SqlLines(sqlUp)| && !Blank(Python, SqlLines(sqlUp)[i])
    ensures Indent(UpBodyAsWritten(sqlUp)[0]) == 4
    ensures Indent(UpBodyAsWritten(sqlUp)[1]) == 8
  {
    DocstringAtFour();
    var calls := Calls(SqlLines(sqlUp), "    ");
    FormatSqlIsJoin(sqlUp);
    ShiftedFirstCall(calls);
    assert UpBodyAsWritten(sqlUp)[1] == Split("    " + Join(calls, '\n'), '\n')[0];
  }

  /** SQL with a non-blank line formats to its calls joined by newlines, the first four deep. */
  lemma FormatSqlIsJoin(sql: string)
    requires exists i :: 0 <= i < |SqlLines(sql)| && !Blank(Python, SqlLines(sql)[i])
    ensures var calls := Calls(SqlLines(sql), "    ");
      && |calls| > 0 && FormatSql(sql) == Join(calls, '\n') && Indent(calls[0]) == 4
      && forall i :: 0 <= i < |calls| ==> '\n' !in calls[i]
  {
    var f := FormatSql(sql);
    assert f != "pass";
    JoinSplit(f, '\n');
    CallsHaveNoNewline(SqlLines(sql), "    ");
    IndentFour(ExecuteCall(NonBlankLines(SqlLines(sql))[0]));
  }

  /** Four more spaces before joined calls put the first, already at four, at eight. */
  lemma ShiftedFirstCall(calls: seq<string>)
    requires |calls| > 0 && forall i :: 0 <= i < |calls| ==> '\n' !in calls[i]
    requires Indent(calls[0]) == 4
    ensures Indent(Split("    " + Join(calls, '\n'), '\n')[0]) == 8
  {
    FirstLineShifted("    ", calls);
    IndentFour(calls[0]);
  }

  /** `create_migration` with the single statement `SELECT 1` writes it eight spaces deep. */
  lemma GeneratedUpExample()
    ensures Indent(UpBodyAsWritten("SELECT 1")[1]) == 8
  {
    SelectOneIsNotBlank();
    GeneratedUpIsMisindented("SELECT 1");
  }

  lemma SelectOneIsNotBlank()
    ensures |SqlLines("SELECT 1")| > 0 && !Blank(Python, SqlLines("SELECT 1")[0])
  {
    var sql := "SELECT 1";
    assert '\n' !in sql by {
      assert |sql| == 8;
      assert forall k :: 0 <= k < |sql| ==> sql[k] != '\n';
    }
    assert sql[0] == 'S' && sql[|sql| - 1] == '1';
    OneLineSql(sql);
  }

  /** SQL on one line without surrounding whitespace is its own only line. */
  lemma OneLineSql(sql: string)
    requires '\n' !in sql && |sql| > 0
    requires !IsSpace(Python, sql[0]) && !IsSpace(Python, sql[|sql| - 1])
    ensures SqlLines(sql) == [sql] && !Blank(Python, sql)
  {
    StripClean(Python, sql);
    assert Split(sql, '\n') == [sql];
  }

  /** The corrected layout puts every statement four spaces deep. */
  lemma FixedLayout(calls: seq<string>)
    requires |calls| > 0
    requires forall i :: 0 <= i < |calls| ==> '\n' !in calls[i] && |calls[i]| > 0 && calls[i][0] == 'd'
    ensures forall line :: line in Split("    " + JoinIndented(calls), '\n') ==> Indent(line) == 4
  {
    var shifted := seq(|calls|, i requires 0 <= i < |calls| => "    " + calls[i]);
    ShiftedAtFour(calls, shifted);
    JoinIndentedShifts(calls, shifted);
    SplitJoin(shifted, '\n');
  }

  /** `pass` alone sits four spaces deep. */
  lemma PassLayout()
    ensures forall line :: line in Split("    " + "pass", '\n') ==> Indent(line) == 4
  {
    IndentFour("pass");
    assert '\n' !in "    " + "pass";
    SplitJoin(["    " + "pass"], '\n');
  }

  /**
   * The corrected formatter: the calls joined by a newline and four spaces, so
   * that after the template's four spaces every statement sits at four.
   */
  function FormatSqlFixed(sql: string): (r: string)
    ensures r == "pass" <==> forall i :: 0 <= i < |SqlLines(sql)| ==> Blank(Python, SqlLines(sql)[i])
    ensures forall line :: line in Split("    " + r, '\n') ==> Indent(line) == 4
    ensures r != "pass" ==> Split("    " + r, '\n') == Calls(SqlLines(sql), "    ")
  {
    var calls := Calls(SqlLines(sql), "");
    if |calls| == 0 then
      PassLayout();
      "pass"
    else
      FixedCalls(sql);
      JoinIndented(calls)
  }

  /** With a non-blank SQL line, the corrected layout is the shifted calls, each four deep. */
  lemma FixedCalls(sql: string)
    requires |Calls(SqlLines(sql), "")| > 0
    ensures var j := JoinIndented(Calls(SqlLines(sql), ""));
      && j != "pass"
      && (forall line :: line in Split("    " + j, '\n') ==> Indent(line) == 4)
      && Split("    " + j, '\n') == Calls(SqlLines(sql), "    ")
  {
    var calls := Calls(SqlLines(sql), "");
    var shifted := Calls(SqlLines(sql), "    ");
    assert forall i :: 0 <= i < |calls| ==> '\n' !in calls[i] && |calls[i]| > 0 && calls[i][0] == 'd' by {
      CallsHaveNoNewline(SqlLines(sql), "");
    }
    assert |shifted| == |calls| && forall i :: 0 <= i < |calls| ==> shifted[i] == "    " + calls[i] by {
      forall i | 0 <= i < |calls| ensures shifted[i] == "    " + calls[i] {
        assert calls[i] == ExecuteCall(NonBlankLines(SqlLines(sql))[i]);
      }
    }
    FixedLayout(calls);
    JoinIndentedStarts(calls);
    FixedLines(calls, shifted);
  }

  /** After four spaces, the corrected layout splits back into the calls each shifted by four. */
  lemma FixedLines(calls: seq<string>, shifted: seq<string>)
    requires |calls| > 0 && forall i :: 0 <= i < |calls| ==> '\n' !in calls[i]
    requires |shifted| == |calls| && forall i :: 0 <= i < |calls| ==> shifted[i] == "    " + calls[i]
    ensures Split("    " + JoinIndented(calls), '\n') == shifted
  {
    JoinIndentedShifts(calls, shifted);
    assert forall i :: 0 <= i < |shifted| ==> '\n' !in shifted[i] by {
      forall i | 0 <= i < |shifted| ensures '\n' !in shifted[i] {
        assert shifted[i] == "    " + calls[i];
      }
    }
    SplitJoin(shifted, '\n');
  }

  /** Calls placed after four spaces start at indentation four and stay single lines. */
  lemma ShiftedAtFour(calls: seq<string>, shifted: seq<string>)
    requires forall i :: 0 <= i < |calls| ==> '\n' !in calls[i] && |calls[i]| > 0 && calls[i][0] == 'd'
    requires |shifted| == |calls| && forall i :: 0 <= i < |calls| ==> shifted[i] == "    " + calls[i]
    ensures forall i :: 0 <= i < |shifted| ==> '\n' !in shifted[i] && Indent(shifted[i]) == 4
  {
    forall i | 0 <= i < |shifted| ensures '\n' !in shifted[i] && Indent(shifted[i]) == 4 {
      IndentFour(calls[i]);
    }
  }

  /** `"\n    ".join(calls)`. */
  function JoinIndented(calls: seq<string>): string
    decreases |calls|
  {
    if |calls| == 0 then ""
    else if |calls| == 1 then calls[0]
    else calls[0] + "\n    " + JoinIndented(calls[1..])
  }

  lemma {:induction false} JoinIndentedShifts(calls: seq<string>, shifted: seq<string>)
    requires |calls| > 0
    requires |shifted| == |calls| && forall i :: 0 <= i < |calls| ==> shifted[i] == "    " + calls[i]
    ensures "    " + JoinIndented(calls) == Join(shifted, '\n')
    decreases |calls|
  {
    if |calls| == 1 {
      assert Join(shifted, '\n') == shifted[0];
    } else {
      JoinIndentedShifts(calls[1..], shifted[1..]);
      var rest := JoinIndented(calls[1..]);
      calc {
        "    " + JoinIndented(calls);
        "    " + (calls[0] + "\n    " + rest);
        ("    " + calls[0]) + ['\n'] + ("    " + rest);
        shifted[0] + ['\n'] + Join(shifted[1..], '\n');
        Join(shifted, '\n');
      }
    }
  }

  lemma {:induction false} JoinIndentedStarts(calls: seq<string>)
    requires |calls| > 0 && |calls[0]| > 0
    ensures |JoinIndented(calls)| > 0 && JoinIndented(calls)[0] == calls[0][0]
  {
  }

  // ---------------------------------------------------------------- updates

  datatype UpdateError = BackupFailed | PullFailed | DependenciesFailed

  /** The report `perform_update` returns. */
  datatype UpdateReport = UpdateReport(
    success: bool, backupCreated: bool, codeUpdated: bool, databaseMigrated: bool,
    servicesRestarted: bool, rollbackAvailable: bool, rollbackSuggested: bool, error: Option<UpdateError>)

  /**
   * `perform_update`: with a backup requested, a failed backup ends the update
   * before the code pull. A pull that raises ends it with an error and a
   * rollback suggestion when a backup exists. Once the pull is done the code
   * counts as updated, but the dependency update can still raise (`pip`
   * missing or not runnable: only a failing exit status is caught), which
   * ends the update the same way. Otherwise the update succeeds, whether or
   * not the migrations did, which only `databaseMigrated` records.
   */
  function PerformUpdate(createBackup: bool, backupOk: bool, pullOk: bool, dependenciesOk: bool,
                         migrationsOk: bool): (r: UpdateReport)
    ensures r.success <==> (!createBackup || backupOk) && pullOk && dependenciesOk
    ensures createBackup && !backupOk ==> !r.codeUpdated && !r.databaseMigrated && r.error == Some(BackupFailed)
    ensures r.backupCreated <==> createBackup && backupOk
    ensures r.rollbackAvailable == r.backupCreated
    ensures r.codeUpdated <==> (!createBackup || backupOk) && pullOk
    ensures r.databaseMigrated <==> r.success && migrationsOk
    ensures r.success <==> r.error.None?
    ensures (!createBackup || backupOk) && !pullOk ==> r.error == Some(PullFailed)
    ensures r.codeUpdated && !r.success ==> r.error == Some(DependenciesFailed)
    ensures r.servicesRestarted <==> r.success
    ensures r.rollbackSuggested <==> r.backupCreated && !r.success
    ensures r.rollbackSuggested <==> createBackup && backupOk && !(pullOk && dependenciesOk)
  {
    var created := createBackup && backupOk;
    if createBackup && !backupOk then
      UpdateReport(false, false, false, false, false, false, false, Some(BackupFailed))
    else if !pullOk then
      UpdateReport(false, created, false, false, false, created, created, Some(PullFailed))
    else if !dependenciesOk then
      UpdateReport(false, created, true, false, false, created, created, Some(DependenciesFailed))
    else
      UpdateReport(true, created, true, migrationsOk, true, created, false, None)
  }

  /**
   * Better step outcomes never make an update worse: whatever succeeded,
   * updated the code or migrated the database still does when a backup, the
   * pull, the dependency update or the migrations succeed where they failed
   * before.
   */
  lemma {:induction false} UpdateIsMonotone(createBackup: bool, backup1: bool, pull1: bool, deps1: bool,
                                            migrations1: bool, backup2: bool, pull2: bool, deps2: bool,
                                            migrations2: bool)
    requires (backup1 ==> backup2) && (pull1 ==> pull2) && (deps1 ==> deps2) && (migrations1 ==> migrations2)
    ensures var r1 := PerformUpdate(createBackup, backup1, pull1, deps1, migrations1);
      var r2 := PerformUpdate(createBackup, backup2, pull2, deps2, migrations2);
      && (r1.success ==> r2.success)
      && (r1.codeUpdated ==> r2.codeUpdated)
      && (r1.databaseMigrated ==> r2.databaseMigrated)
      && (r1.backupCreated ==> r2.backupCreated)
  {
  }

  /** Not asking for a backup never makes an update fail where one with a backup succeeds. */
  lemma {:induction false} SkippingBackupNeverFails(backupOk: bool, pullOk: bool, dependenciesOk: bool,
                                                    migrationsOk: bool)
    ensures PerformUpdate(true, backupOk, pullOk, dependenciesOk, migrationsOk).success ==>
      PerformUpdate(false, backupOk, pullOk, dependenciesOk, migrationsOk).success
    ensures !PerformUpdate(false, backupOk, pullOk, dependenciesOk, migrationsOk).rollbackAvailable
  {
  }
}

=== FILE: notifications.dfy ===
/**
 * The in-app notification service used by the agent routes: fan-out of a new
 * application to the unit's agents and first administrator, the status-change
 * message sent to the applicant, marking as read, unread counts and the purge of
 * old read notifications. E-mail sending is not modelled.
 */
module Notifications {
  import opened Wrappers
  import opened Text
  import opened Seqs
  import opened Domain

  /** An active agent attached to the given unit (`filter_by` on unit, role and active). */
  predicate IsUnitAgent(u: User, unitId: Option<nat>) {
    u.unitId == unitId && u.role == Agent && u.active
  }

  /** An active administrator attached to the given unit. */
  predicate IsUnitAdmin(u: User, unitId: Option<nat>) {
    u.unitId == unitId && u.role == Admin && u.active
  }

  /** Appends one unread notification per recipient, in order, with consecutive fresh ids. */
  function AddEach(inbox: Inbox, recipients: seq<User>, kind: string, title: string,
                   message: string, referenceId: Option<nat>, now: int): (r: Inbox)
    requires inbox.Valid()
    ensures r.Valid()
    ensures |r.items| == |inbox.items| + |recipients| && r.nextId == inbox.nextId + |recipients|
    ensures r.items[..|inbox.items|] == inbox.items
    ensures forall k :: 0 <= k < |recipients| ==>
      r.items[|inbox.items| + k] ==
        Notification(inbox.nextId + k, recipients[k].id, kind, title, message, referenceId, false, now)
    decreases |recipients|
  {
    if |recipients| == 0 then inbox
    else
      var next := inbox.Add(recipients[0].id, kind, title, message, referenceId, now);
      var r := AddEach(next, recipients[1..], kind, title, message, referenceId, now);
      assert r.items[..|inbox.items|] == r.items[..|next.items|][..|inbox.items|];
      r
  }

  /** The notification a batch puts at position `j`. */
  lemma AddEachAt(inbox: Inbox, recipients: seq<User>, kind: string, title: string,
                  message: string, referenceId: Option<nat>, now: int, j: nat)
    requires inbox.Valid() && j < |recipients|
    ensures AddEach(inbox, recipients, kind, title, message, referenceId, now).items[|inbox.items| + j]
         == Notification(inbox.nextId + j, recipients[j].id, kind, title, message, referenceId, false, now)
  {
  }

  function NewApplicationTitle(app: Application): string {
    "Nouvelle demande: " + app.serviceType
  }

  function NewApplicationMessage(app: Application, applicant: User): string {
    "Demande " + app.reference + " reçue de " + applicant.FullName()
  }

  function UnitAgents(users: seq<User>, unitId: Option<nat>): seq<User> {
    Filter(users, (u: User) => IsUnitAgent(u, unitId))
  }

  /** A `nouvelle_demande` notification about `app` addressed to `agent`. */
  predicate AgentNotice(n: Notification, app: Application, applicant: User, agent: User) {
    && n.userId == agent.id && n.kind == "nouvelle_demande" && n.referenceId == Some(app.id)
    && n.title == NewApplicationTitle(app) && n.message == NewApplicationMessage(app, applicant)
  }

  /** The `nouvelle_demande_admin` notification about `app` addressed to `admin`. */
  predicate AdminNotice(n: Notification, app: Application, admin: User) {
    && n.userId == admin.id && n.kind == "nouvelle_demande_admin" && n.referenceId == Some(app.id)
    && n.title == "Nouvelle demande dans votre unité"
    && n.message == "Demande " + app.reference + " pour " + app.serviceType
  }

  function FirstUnitAdmin(users: seq<User>, unitId: Option<nat>): Option<nat> {
    FirstWhere(users, (u: User) => IsUnitAdmin(u, unitId))
  }

  /**
   * `notify_new_application`: a `nouvelle_demande` notification for every active
   * agent of the application's unit, then a `nouvelle_demande_admin` one for the
   * first active administrator of that unit, if any.
   */
  function NotifyNewApplication(inbox: Inbox, users: seq<User>, app: Application,
                                applicant: User, now: int): (r: Inbox)
    requires inbox.Valid()
    ensures r.Valid()
    ensures |r.items| == |inbox.items| + |UnitAgents(users, app.unitId)|
                         + (if FirstUnitAdmin(users, app.unitId).Some? then 1 else 0)
    ensures r.items[..|inbox.items|] == inbox.items
    ensures forall k :: 0 <= k < |UnitAgents(users, app.unitId)| ==>
      AgentNotice(r.items[|inbox.items| + k], app, applicant, UnitAgents(users, app.unitId)[k])
    ensures FirstUnitAdmin(users, app.unitId).Some? ==>
      AdminNotice(r.items[|r.items| - 1], app, users[FirstUnitAdmin(users, app.unitId).value])
  {
    var agents := UnitAgents(users, app.unitId);
    var withAgents := AddEach(inbox, agents, "nouvelle_demande", NewApplicationTitle(app),
                              NewApplicationMessage(app, applicant), Some(app.id), now);
    assert forall k :: 0 <= k < |agents| ==>
      AgentNotice(withAgents.items[|inbox.items| + k], app, applicant, agents[k]);
    match FirstUnitAdmin(users, app.unitId)
    case None => withAgents
    case Some(i) =>
      var r := withAgents.Add(users[i].id, "nouvelle_demande_admin", "Nouvelle demande dans votre unité",
                              "Demande " + app.reference + " pour " + app.serviceType, Some(app.id), now);
      assert r.items[..|inbox.items|] == withAgents.items[..|inbox.items|];
      assert r.items[..|withAgents.items|] == withAgents.items;
      r
  }

  /** Every active agent of the unit receives a `nouvelle_demande` notification. */
  lemma {:induction false} EveryUnitAgentNotified(inbox: Inbox, users: seq<User>, app: Application,
                                                  applicant: User, now: int, i: nat)
    requires inbox.Valid()
    requires i < |users| && IsUnitAgent(users[i], app.unitId)
    ensures var r := NotifyNewApplication(inbox, users, app, applicant, now);
      exists k :: |inbox.items| <= k < |r.items| && AgentNotice(r.items[k], app, applicant, users[i])
  {
    var r := NotifyNewApplication(inbox, users, app, applicant, now);
    var agents := UnitAgents(users, app.unitId);
    assert users[i] in agents;
    var k :| 0 <= k < |agents| && agents[k] == users[i];
    assert AgentNotice(r.items[|inbox.items| + k], app, applicant, agents[k]);
  }

  /** Every `nouvelle_demande` notification added goes to an active agent of the unit. */
  lemma {:induction false} OnlyUnitAgentsNotified(inbox: Inbox, users: seq<User>, app: Application,
                                                  applicant: User, now: int, k: nat)
    requires inbox.Valid()
    requires var r := NotifyNewApplication(inbox, users, app, applicant, now);
      |inbox.items| <= k < |r.items| && r.items[k].kind == "nouvelle_demande"
    ensures var r := NotifyNewApplication(inbox, users, app, applicant, now);
      exists i :: 0 <= i < |users| && IsUnitAgent(users[i], app.unitId) && users[i].id == r.items[k].userId
  {
    var r := NotifyNewApplication(inbox, users, app, applicant, now);
    var agents := UnitAgents(users, app.unitId);
    var base := |inbox.items|;
    if k - base >= |agents| {
      assert false;
    }
    var a := agents[k - base];
    assert AgentNotice(r.items[base + (k - base)], app, applicant, a);
    assert a in users && IsUnitAgent(a, app.unitId);
    var i :| 0 <= i < |users| && users[i] == a;
  }

  /** The texts of the six statuses with a dedicated message. */
  function StatusChangeText(code: string): Option<string> {
    match code
    case "en_traitement" => Some("Votre demande est maintenant en cours de traitement.")
    case "validee" => Some("Votre demande a été approuvée !")
    case "rejetee" => Some("Votre demande a été rejetée.")
    case "documents_requis" => Some("Des documents supplémentaires sont requis.")
    case "pret_pour_retrait" => Some("Votre document est prêt pour retrait.")
    case "cloture" => Some("Votre dossier a été clôturé.")
    case _ => None
  }

  const DefaultStatusText := "Statut de votre demande changé: "
  const CommentLabel := " Commentaire: "

  /**
   * The status-change message: the dedicated text or the default text followed by
   * the code, then the comment when one is given.
   */
  function StatusChangeMessage(newStatus: string, comment: Option<string>): (r: string)
    ensures StatusChangeText(newStatus).Some? ==> StartsWith(r, StatusChangeText(newStatus).value)
    ensures StatusChangeText(newStatus).None? ==> StartsWith(r, DefaultStatusText + newStatus)
    ensures TruthyStr(comment) ==> EndsWith(r, CommentLabel + comment.value)
    ensures TruthyStr(comment) ==>
      r == StatusChangeText(newStatus).GetOr(DefaultStatusText + newStatus) + CommentLabel + comment.value
    ensures !TruthyStr(comment) ==> r == StatusChangeText(newStatus).GetOr(DefaultStatusText + newStatus)
  {
    var base := StatusChangeText(newStatus).GetOr(DefaultStatusText + newStatus);
    if TruthyStr(comment) then
      var r := base + CommentLabel + comment.value;
      assert r[..|base|] == base;
      assert r[|r| - |CommentLabel + comment.value|..] == CommentLabel + comment.value;
      r
    else base
  }

  /** A comment only appends its label and text to the message the status alone gives. */
  lemma {:induction false} CommentIsAppended(newStatus: string, comment: Option<string>)
    ensures TruthyStr(comment) ==>
      StatusChangeMessage(newStatus, comment) == StatusChangeMessage(newStatus, None) + CommentLabel + comment.value
    ensures !TruthyStr(comment) ==> StatusChangeMessage(newStatus, comment) == StatusChangeMessage(newStatus, None)
  {
  }

  /** `notify_application_status_change`: one `demande_traitee` notification for the applicant. */
  function NotifyStatusChange(inbox: Inbox, app: Application, newStatus: string,
                              comment: Option<string>, now: int): (r: Inbox)
    requires inbox.Valid()
    ensures r.Valid()
    ensures |r.items| == |inbox.items| + 1 && r.items[..|inbox.items|] == inbox.items
    ensures var n := r.items[|inbox.items|];
      n.userId == app.userId && n.kind == "demande_traitee" && n.title == "Demande " + app.reference
      && n.message == StatusChangeMessage(newStatus, comment) && n.referenceId == Some(app.id) && !n.read
  {
    inbox.Add(app.userId, "demande_traitee", "Demande " + app.reference,
              StatusChangeMessage(newStatus, comment), Some(app.id), now)
  }

  /**
   * `mark_notification_as_read`: marks the notification with that id if it belongs
   * to that user, and reports whether it did.
   */
  function MarkRead(inbox: Inbox, notificationId: nat, userId: nat): (r: (Inbox, bool))
    requires inbox.Valid()
    ensures r.0.Valid() && r.0.nextId == inbox.nextId && |r.0.items| == |inbox.items|
    ensures r.1 <==> exists i :: 0 <= i < |inbox.items| && inbox.items[i].id == notificationId
                                  && inbox.items[i].userId == userId
    ensures forall i :: 0 <= i < |inbox.items| ==>
      r.0.items[i] == (if inbox.items[i].id == notificationId && inbox.items[i].userId == userId
                       then inbox.items[i].(read := true) else inbox.items[i])
  {
    match FirstWhere(inbox.items, (n: Notification) => n.id == notificationId && n.userId == userId)
    case None => (inbox, false)
    case Some(i) =>
      var items := inbox.items[i := inbox.items[i].(read := true)];
      SameIdsKeepDistinct(inbox.items, items);
      forall j | 0 <= j < |inbox.items| && j != i ensures inbox.items[j].id != notificationId {
        if j < i {
          assert IdAt(inbox.items, j) != IdAt(inbox.items, i);
        } else {
          assert IdAt(inbox.items, i) != IdAt(inbox.items, j);
        }
      }
      (inbox.(items := items), true)
  }

  /** `mark_all_notifications_as_read`: every unread notification of the user becomes read. */
  function MarkAll(inbox: Inbox, userId: nat): (r: Inbox)
    requires inbox.Valid()
    ensures r.Valid() && r.nextId == inbox.nextId && |r.items| == |inbox.items|
    ensures forall i :: 0 <= i < |inbox.items| ==>
      r.items[i] == (if inbox.items[i].userId == userId && !inbox.items[i].read
                     then inbox.items[i].(read := true) else inbox.items[i])
  {
    var items := seq(|inbox.items|, i requires 0 <= i < |inbox.items| =>
                   if inbox.items[i].userId == userId && !inbox.items[i].read
                   then inbox.items[i].(read := true) else inbox.items[i]);
    SameIdsKeepDistinct(inbox.items, items);
    Inbox(items, inbox.nextId)
  }

  predicate UnreadOf(n: Notification, userId: nat) {
    n.userId == userId && !n.read
  }

  /** `get_unread_count`. */
  function UnreadCount(inbox: Inbox, userId: nat): (n: nat)
    ensures n <= |inbox.items|
    ensures n == 0 <==> forall i :: 0 <= i < |inbox.items| ==> !UnreadOf(inbox.items[i], userId)
  {
    Count(inbox.items, (n: Notification) => UnreadOf(n, userId))
  }

  /** After marking all of one user's notifications, that user has none unread and nobody else's count moved. */
  lemma {:induction false} MarkAllClearsOnlyThatUser(inbox: Inbox, userId: nat, other: nat)
    requires inbox.Valid()
    ensures UnreadCount(MarkAll(inbox, userId), userId) == 0
    ensures other != userId ==> UnreadCount(MarkAll(inbox, userId), other) == UnreadCount(inbox, other)
  {
    var r := MarkAll(inbox, userId);
    if other != userId {
      CountSameWhereEqual(inbox.items, r.items, other);
    }
  }

  lemma {:induction false} CountSameWhereEqual(a: seq<Notification>, b: seq<Notification>, userId: nat)
    requires |a| == |b|
    requires forall i :: 0 <= i < |a| ==> (UnreadOf(a[i], userId) <==> UnreadOf(b[i], userId))
    ensures Count(a, (n: Notification) => UnreadOf(n, userId)) == Count(b, (n: Notification) => UnreadOf(n, userId))
  {
    if |a| > 0 {
      CountSameWhereEqual(a[1..], b[1..], userId);
    }
  }

  const SecondsPerDay := 86400
  const DefaultRetentionDays := 30

  /** A notification the purge deletes: created before the cutoff and already read. */
  predicate Stale(n: Notification, cutoff: int) {
    n.createdAt < cutoff && n.read
  }

  /**
   * `clean_old_notifications`: deletes the read notifications created more than
   * `days` days before `now` (seconds), and returns how many it deleted.
   */
  function CleanOld(inbox: Inbox, now: int, days: int): (r: (Inbox, nat))
    requires inbox.Valid()
    ensures r.0.Valid() && r.0.nextId == inbox.nextId
    ensures |r.0.items| + r.1 == |inbox.items|
    ensures forall i :: 0 <= i < |r.0.items| ==>
      r.0.items[i] in inbox.items && !Stale(r.0.items[i], now - days * SecondsPerDay)
    ensures forall i :: 0 <= i < |inbox.items| && !Stale(inbox.items[i], now - days * SecondsPerDay) ==>
      inbox.items[i] in r.0.items
  {
    var cutoff := now - days * SecondsPerDay;
    var kept := Filter(inbox.items, (n: Notification) => !Stale(n, cutoff));
    var removed := Count(inbox.items, (n: Notification) => Stale(n, cutoff));
    CountIsFilterLength(inbox.items, (n: Notification) => Stale(n, cutoff));
    FilterPartition(inbox.items, (n: Notification) => Stale(n, cutoff), (n: Notification) => !Stale(n, cutoff));
    FilterKeepsDistinctIds(inbox.items, (n: Notification) => !Stale(n, cutoff));
    (Inbox(kept, inbox.nextId), removed)
  }

  lemma {:induction false} FilterKeepsDistinctIds(s: seq<Notification>, p: Notification -> bool)
    requires DistinctIds(s)
    ensures DistinctIds(Filter(s, p))
  {
    if |s| > 0 {
      assert DistinctIds(s[1..]) by {
        forall i, j | 0 <= i < j < |s| - 1 ensures IdAt(s[1..], i) != IdAt(s[1..], j) {
          assert IdAt(s, i + 1) == IdAt(s[1..], i) && IdAt(s, j + 1) == IdAt(s[1..], j);
        }
      }
      FilterKeepsDistinctIds(s[1..], p);
      var rest := Filter(s[1..], p);
      forall j | 0 <= j < |rest|
        ensures rest[j].id != s[0].id
      {
        assert rest[j] in s[1..];
        var k :| 0 <= k < |s[1..]| && s[1..][k] == rest[j];
        assert IdAt(s, 0) != IdAt(s, k + 1);
      }
      var r := Filter(s, p);
      if p(s[0]) {
        assert r == [s[0]] + rest;
        forall i, j | 0 <= i < j < |r| ensures IdAt(r, i) != IdAt(r, j) {
          assert IdAt(r, j) == IdAt(rest, j - 1);
          if i > 0 {
            assert IdAt(r, i) == IdAt(rest, i - 1);
          }
        }
      } else {
        assert r == rest;
      }
    }
  }
}

=== FILE: security.dfy ===
/**
 * The security service: input sanitizing against HTML injection, the CSRF
 * token comparison, the upload check (extension, then size) and the in-memory
 * login rate limiter. The `backend` copy of the service has the same sanitizer
 * and token comparison.
 */
module Security {
  import opened Wrappers
  import opened Text
  import opened Seqs

  // ---------------------------------------------------------------- sanitizing

  /** The tag openings rewritten before escaping, in the order they are applied. */
  const DangerousTags: seq<string> := ["<script", "<iframe", "<object", "<embed", "<link", "<meta"]

  /** A tag pattern: lower-case, opening with `<` and containing no other `<`. */
  predicate TagShape(tag: string) {
    |tag| >= 2 && tag[0] == '<' && '<' !in tag[1..] && Lower(tag) == tag
  }

  predicate AllTagShaped(tags: seq<string>) {
    forall i :: 0 <= i < |tags| ==> TagShape(tags[i])
  }

  /** Tags told apart by their first letter, so no tag opens another. */
  predicate DistinctInitials(tags: seq<string>)
    requires AllTagShaped(tags)
  {
    forall i, j :: 0 <= i < j < |tags| ==> tags[i][1] != tags[j][1]
  }

  /** Does `s` open with `tag`, ignoring the case of ASCII letters? */
  predicate CIPrefix(s: string, tag: string) {
    |tag| <= |s| && Lower(s[..|tag|]) == tag
  }

  /**
   * `re.sub(tag, '&lt;' + tag[1:], s, flags=re.IGNORECASE)`: every match, taken
   * left to right without overlap, becomes `&lt;` followed by the lower-case tag name.
   */
  function RewriteTag(s: string, tag: string): (r: string)
    requires TagShape(tag)
    ensures '<' !in s ==> r == s
    decreases |s|
  {
    if |s| == 0 then ""
    else if CIPrefix(s, tag) then NoOpenNoMatch(s, tag); "&lt;" + tag[1..] + RewriteTag(s[|tag|..], tag)
    else [s[0]] + RewriteTag(s[1..], tag)
  }

  /** Only a text holding a `<` can open with a tag. */
  lemma NoOpenNoMatch(s: string, tag: string)
    requires TagShape(tag) && CIPrefix(s, tag)
    ensures '<' in s
  {
    assert LowerChar(s[0]) == Lower(s[..|tag|])[0] == '<';
  }

  /** The tags applied one after the other. */
  function RewriteAll(s: string, tags: seq<string>): (r: string)
    requires AllTagShaped(tags)
    ensures '<' !in s ==> r == s
    decreases |tags|
  {
    if |tags| == 0 then s else RewriteAll(RewriteTag(s, tags[0]), tags[1..])
  }

  /** The four `str.replace` calls, in the source's order. */
  function Escape(s: string): (r: string)
    ensures '<' !in r && '>' !in r && '"' !in r && '\'' !in r
    ensures '<' !in s && '>' !in s && '"' !in s && '\'' !in s ==> r == s
  {
    var a := ReplaceChar(s, '<', "&lt;");
    assert '<' !in a;
    var b := ReplaceChar(a, '>', "&gt;");
    assert '<' !in b && '>' !in b;
    var c := ReplaceChar(b, '"', "&quot;");
    assert '<' !in c && '>' !in c && '"' !in c;
    ReplaceChar(c, '\'', "&#x27;")
  }

  /** No character the sanitizer escapes. */
  predicate Clean(s: string) {
    '<' !in s && '>' !in s && '"' !in s && '\'' !in s
  }

  /** `sanitize_input`: empty input gives "", otherwise tag rewriting then escaping. */
  function Sanitize(s: string): (r: string)
    ensures s == "" ==> r == ""
    ensures Clean(r)
    ensures Clean(s) ==> r == s
  {
    if s == "" then "" else Escape(RewriteAll(s, DangerousTags))
  }

  /** Sanitizing twice is sanitizing once. */
  lemma {:induction false} SanitizeIdempotent(s: string)
    ensures Sanitize(Sanitize(s)) == Sanitize(s)
  {
  }

  /** A prefix that does not open with `tag` is skipped one character at a time. */
  lemma {:induction false} RewriteSkipsOtherTag(s: string, tag: string)
    requires TagShape(tag) && |s| > 0 && !CIPrefix(s, tag) && '<' !in s[1..]
    ensures RewriteTag(s, tag) == s
  {
    assert s == [s[0]] + s[1..];
  }

  /** An opening that matches a tag ignoring case is the tag itself in lower case. */
  lemma {:induction false} LowerMatchHasNoOtherOpen(s: string, tag: string)
    requires TagShape(tag) && |s| == |tag| && Lower(s) == tag
    ensures s[0] == '<' && '<' !in s[1..]
  {
    assert LowerChar(s[0]) == '<';
    forall i | 1 <= i < |s|
      ensures s[i] != '<'
    {
      assert LowerChar(s[i]) == tag[i];
      assert tag[i] in tag[1..];
    }
  }

  lemma DangerousTagsShaped()
    ensures AllTagShaped(DangerousTags) && DistinctInitials(DangerousTags)
    ensures forall i :: 0 <= i < |DangerousTags| ==> Clean(DangerousTags[i][1..])
  {
    LetterTag("<script");
    LetterTag("<iframe");
    LetterTag("<object");
    LetterTag("<embed");
    LetterTag("<link");
    LetterTag("<meta");
  }

  /** `<` followed by lower-case letters is a tag pattern whose name needs no escaping. */
  lemma LetterTag(t: string)
    requires |t| >= 2 && t[0] == '<' && forall j :: 1 <= j < |t| ==> 'a' <= t[j] <= 'z'
    ensures TagShape(t) && Clean(t[1..])
  {
    assert forall j :: 0 <= j < |t| - 1 ==> t[1..][j] == t[j + 1];
    assert Lower(t) == t;
  }

  /**
   * A text opening with a dangerous tag in any case, followed by text with nothing
   * to escape, comes out as `&lt;` plus the lower-case tag name and the same rest.
   */
  lemma {:induction false} DangerousTagNeutralised(k: nat, s: string, rest: string)
    requires k < |DangerousTags|
    requires |s| == |DangerousTags[k]| && Lower(s) == DangerousTags[k]
    requires Clean(rest)
    ensures Sanitize(s + rest) == "&lt;" + DangerousTags[k][1..] + rest
  {
    DangerousTagsShaped();
    var t := s + rest;
    EarlierTagsMiss(DangerousTags, k, s, t);
    RewriteFromK(t, k, s, rest, DangerousTags);
    var out := "&lt;" + DangerousTags[k][1..] + rest;
    assert Clean(out);
  }

  /** A text opening with one tag opens with none of the tags before it. */
  lemma {:induction false} EarlierTagsMiss(tags: seq<string>, k: nat, s: string, t: string)
    requires AllTagShaped(tags) && DistinctInitials(tags) && k < |tags|
    requires |s| == |tags[k]| && Lower(s) == tags[k] && StartsWith(t, s)
    ensures forall j :: 0 <= j < k ==> !CIPrefix(t, tags[j])
  {
    var tag := tags[k];
    assert LowerChar(t[1]) == tag[1] by {
      assert t[1] == s[1];
      assert Lower(s)[1] == LowerChar(s[1]);
    }
    forall j | 0 <= j < k
      ensures !CIPrefix(t, tags[j])
    {
      assert tags[j][1] != tag[1];
      if |tags[j]| <= |t| {
        assert Lower(t[..|tags[j]|])[1] == LowerChar(t[1]);
      }
    }
  }

  /** Every spelling of `<script`, such as `<SCRIPT` or `<ScRiPt`, becomes `&lt;script`. */
  lemma {:induction false} ScriptInAnyCase(s: string)
    requires Lower(s) == "<script"
    ensures Sanitize(s) == "&lt;script"
  {
    assert DangerousTags[0] == "<script";
    DangerousTagNeutralised(0, s, "");
    assert s + "" == s;
  }

  /**
   * Running the tags `tags` over `s ++ rest` where `s` matches `tags[k]` and no
   * other tag: the tags before `k` skip it, tag `k` rewrites it, the rest see no `<`.
   */
  lemma {:induction false} RewriteFromK(t: string, k: nat, s: string, rest: string, tags: seq<string>)
    requires AllTagShaped(tags) && k < |tags|
    requires t == s + rest && |s| == |tags[k]| && Lower(s) == tags[k] && '<' !in rest
    requires forall j :: 0 <= j < k ==> !CIPrefix(t, tags[j])
    ensures RewriteAll(t, tags) == "&lt;" + tags[k][1..] + rest
    decreases k
  {
    LowerMatchHasNoOtherOpen(s, tags[k]);
    assert '<' !in t[1..] by {
      assert t[1..] == s[1..] + rest;
    }
    if k == 0 {
      assert CIPrefix(t, tags[0]) by {
        assert t[..|tags[0]|] == s;
      }
      assert t[|tags[0]|..] == rest;
      assert RewriteTag(t, tags[0]) == "&lt;" + tags[0][1..] + RewriteTag(rest, tags[0]);
      var out := "&lt;" + tags[0][1..] + rest;
      assert '<' !in out;
    } else {
      RewriteSkipsOtherTag(t, tags[0]);
      var tail := tags[1..];
      assert forall j :: 0 <= j < k - 1 ==> tail[j] == tags[j + 1];
      RewriteFromK(t, k - 1, s, rest, tail);
    }
  }

  // ---------------------------------------------------------------- CSRF

  predicate IsAscii(s: string) {
    forall i :: 0 <= i < |s| ==> s[i] as int < 128
  }

  /**
   * `hmac.compare_digest` on two strings: equality, except that a non-ASCII
   * argument raises (None).
   */
  function CompareDigest(token: string, sessionToken: string): (r: Option<bool>)
    ensures r.None? <==> !IsAscii(token) || !IsAscii(sessionToken)
    ensures r.Some? ==> (r.value <==> token == sessionToken)
  {
    if !IsAscii(token) || !IsAscii(sessionToken) then None else Some(token == sessionToken)
  }

  /**
   * The comparison does not depend on the order of its arguments, and an ASCII
   * token always matches itself.
   */
  lemma {:induction false} CompareDigestSymmetric(a: string, b: string)
    ensures CompareDigest(a, b) == CompareDigest(b, a)
    ensures CompareDigest(a, a) == Some(true) <==> IsAscii(a)
  {
  }

  // ---------------------------------------------------------------- uploads

  /**
   * `os.path.splitext(p)[1]` for POSIX paths: from the last `.` of the last path
   * component, unless that component is only dots before it (`.pdf` has no extension).
   */
  function Extension(p: string): (r: string)
    ensures r == "" || (r[0] == '.' && EndsWith(p, r) && '.' !in r[1..] && '/' !in r)
  {
    var sepIndex: int := match LastIndexOf(p, '/') case None => -1 case Some(i) => i;
    match LastIndexOf(p, '.')
    case None => ""
    case Some(dot) =>
      if dot > sepIndex && exists k :: sepIndex + 1 <= k < dot && p[k] != '.' then
        NoSlashAfter(p, dot);
        p[dot..]
      else ""
  }

  /** The text after the last `/` holds no `/`. */
  lemma NoSlashAfter(p: string, dot: nat)
    requires dot <= |p|
    requires LastIndexOf(p, '/').Some? ==> LastIndexOf(p, '/').value < dot
    ensures '/' !in p[dot..]
  {
    if LastIndexOf(p, '/').Some? {
      var i := LastIndexOf(p, '/').value;
      assert p[dot..] == p[i + 1..][dot - i - 1..];
    }
  }

  /** A name made of a stem and one extension has that extension. */
  lemma {:induction false} ExtensionOfName(stem: string, ext: string)
    requires |stem| > 0 && stem[0] != '.' && '/' !in stem && '/' !in ext && '.' !in ext
    ensures Extension(stem + "." + ext) == "." + ext
  {
    var p := stem + "." + ext;
    assert p[|stem|] == '.' && p[|stem| + 1..] == ext;
    LastIndexOfAt(p, '.', |stem|);
    assert '/' !in p by {
      assert forall i :: 0 <= i < |p| ==> p[i] == (if i < |stem| then stem[i] else if i == |stem| then '.' else ext[i - |stem| - 1]);
    }
    assert p[0] == stem[0];
    assert p[|stem|..] == "." + ext;
  }

  /** A name whose only dot is its first character, such as `.pdf`, has no extension. */
  lemma {:induction false} LeadingDotHasNoExtension(name: string)
    requires '/' !in name && '.' !in name
    ensures Extension("." + name) == ""
  {
    var p := "." + name;
    assert p[1..] == name;
    LastIndexOfAt(p, '.', 0);
    assert '/' !in p by {
      assert forall i :: 0 <= i < |p| ==> p[i] == (if i == 0 then '.' else name[i - 1]);
    }
  }

  const UploadExtensions := {".pdf", ".jpg", ".jpeg", ".png", ".doc", ".docx"}
  const MaxUploadBytes := 16 * 1024 * 1024

  datatype UploadCheck = ExtensionRefused(ext: string) | TooLarge | Accepted(safeFilename: string)

  /**
   * `validate_file_upload`: the lower-cased extension is checked before the size,
   * exactly 16 MiB is accepted, and an accepted file is renamed to
   * `<seconds>_<secure name>`; `safeName` is what `secure_filename` returned.
   */
  function ValidateUpload(filename: string, size: nat, now: nat, safeName: string): (r: UploadCheck)
    ensures r.ExtensionRefused? <==> Lower(Extension(filename)) !in UploadExtensions
    ensures r.ExtensionRefused? ==> r.ext == Lower(Extension(filename))
    ensures r == TooLarge <==> Lower(Extension(filename)) in UploadExtensions && size > MaxUploadBytes
    ensures r.Accepted? <==> Lower(Extension(filename)) in UploadExtensions && size <= MaxUploadBytes
    ensures r.Accepted? ==> r.safeFilename == NatToString(now) + "_" + safeName
  {
    var ext := Lower(Extension(filename));
    if ext !in UploadExtensions then ExtensionRefused(ext)
    else if size > MaxUploadBytes then TooLarge
    else Accepted(NatToString(now) + "_" + safeName)
  }

  // ---------------------------------------------------------------- rate limit

  const DefaultMaxAttempts := 5
  const DefaultWindowMinutes := 15

  /** Attempts strictly after the cutoff, in their order. */
  function Recent(attempts: seq<int>, cutoff: int): (r: seq<int>)
    ensures |r| <= |attempts|
    ensures forall i :: 0 <= i < |r| ==> r[i] > cutoff && r[i] in attempts
    ensures forall i :: 0 <= i < |attempts| && attempts[i] > cutoff ==> attempts[i] in r
  {
    Filter(attempts, (t: int) => t > cutoff)
  }

  /**
   * `rate_limit_check` of the security service, with times in seconds: the
   * first attempt of an identifier is always allowed; later ones are refused,
   * leaving the cache as it was, once `maxAttempts` attempts fall inside the
   * window; an allowed attempt stores the in-window attempts plus `now`.
   */
  function RateLimit(cache: map<string, seq<int>>, id: string, now: int, maxAttempts: int,
                     windowMinutes: int): (r: (map<string, seq<int>>, bool))
    ensures id !in cache ==> r == (cache[id := [now]], true)
    ensures !r.1 <==> id in cache && |Recent(cache[id], now - windowMinutes * 60)| >= maxAttempts
    ensures !r.1 ==> r.0 == cache
    ensures r.1 && id in cache ==> r.0 == cache[id := Recent(cache[id], now - windowMinutes * 60) + [now]]
    ensures r.1 ==> |r.0[id]| <= if maxAttempts >= 1 then maxAttempts else 1
    ensures forall other :: other != id ==> (other in r.0 <==> other in cache)
    ensures forall other :: other != id && other in cache ==> r.0[other] == cache[other]
  {
    if id in cache then
      var attempts := Recent(cache[id], now - windowMinutes * 60);
      if |attempts| >= maxAttempts then (cache, false)
      else (cache[id := attempts + [now]], true)
    else (cache[id := [now]], true)
  }
}

=== FILE: seqs.dfy ===
/** Query helpers over sequences: the first match, a filter, a count. */
module Seqs {
  import opened Wrappers

  /** The index of the first element satisfying `p` (SQLAlchemy's `.first()`). */
  function FirstWhere<T>(s: seq<T>, p: T -> bool): (r: Option<nat>)
    ensures r.None? <==> forall i :: 0 <= i < |s| ==> !p(s[i])
    ensures r.Some? ==> r.value < |s| && p(s[r.value])
    ensures r.Some? ==> forall j :: 0 <= j < r.value ==> !p(s[j])
  {
    if |s| == 0 then None
    else if p(s[0]) then Some(0)
    else match FirstWhere(s[1..], p)
      case None => None
      case Some(i) => Some(i + 1)
  }

  /** The elements satisfying `p`, in their original order (`.filter(...).all()`). */
  function Filter<T(!new)>(s: seq<T>, p: T -> bool): (r: seq<T>)
    ensures |r| <= |s|
    ensures forall i :: 0 <= i < |r| ==> r[i] in s && p(r[i])
    ensures forall x :: x in r <==> x in s && p(x)
  {
    if |s| == 0 then []
    else (if p(s[0]) then [s[0]] else []) + Filter(s[1..], p)
  }

  /** The number of elements satisfying `p` (`.count()`). */
  function Count<T>(s: seq<T>, p: T -> bool): (n: nat)
    ensures n <= |s|
    ensures n == 0 <==> forall i :: 0 <= i < |s| ==> !p(s[i])
  {
    if |s| == 0 then 0
    else (if p(s[0]) then 1 else 0) + Count(s[1..], p)
  }

  /** A count is the length of the corresponding filter. */
  lemma {:induction false} CountIsFilterLength<T(!new)>(s: seq<T>, p: T -> bool)
    ensures Count(s, p) == |Filter(s, p)|
  {
    if |s| > 0 {
      CountIsFilterLength(s[1..], p);
    }
  }

  /** Counting over a concatenation adds the counts of the parts. */
  lemma {:induction false} CountConcat<T>(a: seq<T>, b: seq<T>, p: T -> bool)
    ensures Count(a + b, p) == Count(a, p) + Count(b, p)
  {
    if |a| == 0 {
      assert a + b == b;
    } else {
      assert (a + b)[1..] == a[1..] + b;
      CountConcat(a[1..], b, p);
    }
  }

  /** A filter and its complement split a sequence without loss. */
  lemma {:induction false} FilterPartition<T(!new)>(s: seq<T>, p: T -> bool, q: T -> bool)
    requires forall i :: 0 <= i < |s| ==> (q(s[i]) <==> !p(s[i]))
    ensures |Filter(s, p)| + |Filter(s, q)| == |s|
  {
    if |s| > 0 {
      FilterPartition(s[1..], p, q);
    }
  }

  /** A filter that every element passes returns the sequence itself. */
  lemma {:induction false} FilterKeepsAll<T(!new)>(s: seq<T>, p: T -> bool)
    requires forall i :: 0 <= i < |s| ==> p(s[i])
    ensures Filter(s, p) == s
  {
    if |s| > 0 {
      FilterKeepsAll(s[1..], p);
      assert s == [s[0]] + s[1..];
    }
  }
}

=== FILE: sorting.dfy ===
/**
 * Python's `sorted` on file names: code-point lexicographic order, and an
 * insertion sort proved to return the sorted permutation of its input.
 */
module Sorting {

  /** Python's `a <= b` on strings. */
  predicate StrLe(a: string, b: string)
    decreases |a|
  {
    |a| == 0 || (|b| > 0 && (a[0] < b[0] || (a[0] == b[0] && StrLe(a[1..], b[1..]))))
  }

  lemma {:induction false} StrLeTotal(a: string, b: string)
    ensures StrLe(a, b) || StrLe(b, a)
    decreases |a|
  {
    if |a| > 0 && |b| > 0 && a[0] == b[0] {
      StrLeTotal(a[1..], b[1..]);
    }
  }

  lemma {:induction false} StrLeTransitive(a: string, b: string, c: string)
    requires StrLe(a, b) && StrLe(b, c)
    ensures StrLe(a, c)
    decreases |a|
  {
    if |a| > 0 && a[0] == b[0] && b[0] == c[0] {
      StrLeTransitive(a[1..], b[1..], c[1..]);
    }
  }

  lemma {:induction false} StrLeAntisymmetric(a: string, b: string)
    requires StrLe(a, b) && StrLe(b, a)
    ensures a == b
    decreases |a|
  {
    if |a| > 0 {
      StrLeAntisymmetric(a[1..], b[1..]);
      assert a == [a[0]] + a[1..] && b == [b[0]] + b[1..];
    }
  }

  predicate SortedStrings(s: seq<string>) {
    forall i, j :: 0 <= i < j < |s| ==> StrLe(s[i], s[j])
  }

  /** A lower bound of every element of a sequence. */
  predicate StrBelowAll(x: string, s: seq<string>) {
    forall j :: 0 <= j < |s| ==> StrLe(x, s[j])
  }

  /** A bound of a sequence and of one more element bounds any permutation of both. */
  lemma {:induction false} StrBelowPermutation(x: string, s: seq<string>, y: string, r: seq<string>)
    requires StrBelowAll(x, s) && StrLe(x, y) && multiset(r) == multiset(s) + multiset{y}
    ensures StrBelowAll(x, r)
  {
    forall j | 0 <= j < |r|
      ensures StrLe(x, r[j])
    {
      assert r[j] in multiset(r);
      if r[j] != y {
        assert r[j] in multiset(s);
        var k :| 0 <= k < |s| && s[k] == r[j];
      }
    }
  }

  /** `x` placed before the first element it precedes. */
  function InsertString(x: string, s: seq<string>): (r: seq<string>)
    requires SortedStrings(s)
    ensures multiset(r) == multiset(s) + multiset{x} && |r| == |s| + 1
    ensures SortedStrings(r)
  {
    if |s| == 0 then [x]
    else if StrLe(x, s[0]) then
      assert StrBelowAll(x, s) by {
        forall j | 0 < j < |s| ensures StrLe(x, s[j]) {
          StrLeTransitive(x, s[0], s[j]);
        }
      }
      [x] + s
    else
      assert s == [s[0]] + s[1..];
      var rest := InsertString(x, s[1..]);
      StrLeTotal(x, s[0]);
      assert StrBelowAll(s[0], s[1..]) by {
        forall j | 0 <= j < |s[1..]| ensures StrLe(s[0], s[1..][j]) {
          assert s[1..][j] == s[j + 1];
        }
      }
      assert multiset(rest) == multiset(s[1..]) + multiset{x};
      StrBelowPermutation(s[0], s[1..], x, rest);
      [s[0]] + rest
  }

  /** Python's `sorted` on a list of strings. */
  function SortStrings(s: seq<string>): (r: seq<string>)
    ensures multiset(r) == multiset(s) && |r| == |s|
    ensures SortedStrings(r)
  {
    if |s| == 0 then []
    else
      assert s == [s[0]] + s[1..];
      InsertString(s[0], SortStrings(s[1..]))
  }

  /** The head of a sorted sequence precedes each of its elements. */
  lemma {:induction false} SortedHeadIsLeast(a: seq<string>, x: string)
    requires SortedStrings(a) && |a| > 0 && x in multiset(a)
    ensures StrLe(a[0], x)
  {
    var i :| 0 <= i < |a| && a[i] == x;
    if i == 0 {
      StrLeTotal(x, x);
    }
  }

  lemma TailMultiset(a: seq<string>)
    requires |a| > 0
    ensures multiset(a[1..]) == multiset(a) - multiset{a[0]}
  {
    assert a == [a[0]] + a[1..];
  }

  /** Two sorted arrangements of the same strings are the same sequence. */
  lemma {:induction false} SortedStringsUnique(a: seq<string>, b: seq<string>)
    requires SortedStrings(a) && SortedStrings(b) && multiset(a) == multiset(b)
    ensures a == b
    decreases |a|
  {
    if |a| > 0 {
      assert |b| > 0 by {
        assert a[0] in multiset(b);
      }
      SortedHeadIsLeast(a, b[0]);
      SortedHeadIsLeast(b, a[0]);
      StrLeAntisymmetric(a[0], b[0]);
      TailMultiset(a);
      TailMultiset(b);
      SortedStringsUnique(a[1..], b[1..]);
      assert a == [a[0]] + a[1..] && b == [b[0]] + b[1..];
    }
  }

  /** Sorting does not depend on the order of its input, as a directory listing's does not. */
  lemma {:induction false} SortStringsIgnoresOrder(a: seq<string>, b: seq<string>)
    requires multiset(a) == multiset(b)
    ensures SortStrings(a) == SortStrings(b)
  {
    SortedStringsUnique(SortStrings(a), SortStrings(b));
  }
}

=== FILE: supervision.dfy ===
/**
 * The supervisor's pages: user statistics, adding a user, and the
 * activate/deactivate actions on users, units and global services, where
 * deactivating a service also switches it off in every unit.
 */
module Supervision {
  import opened Wrappers
  import opened Text
  import opened Seqs
  import opened Domain

  /** The counters of the user list page. */
  datatype UserStats = UserStats(total: nat, usagers: nat, agents: nat, admins: nat,
                                 superviseurs: nat, actifs: nat)

  /** The number of users whose stored role name is `name`. */
  function CountRole(users: seq<User>, name: string): (n: nat)
    ensures n <= |users|
    ensures n == 0 <==> forall i :: 0 <= i < |users| ==> RoleName(users[i].role) != name
  {
    if |users| == 0 then 0
    else (if RoleName(users[0].role) == name then 1 else 0) + CountRole(users[1..], name)
  }

  /** `superviseur_utilisateurs`: the counters over the whole user list. */
  function Stats(users: seq<User>): (r: UserStats)
    ensures r.total == |users|
    ensures r.usagers <= r.total && r.agents <= r.total && r.admins <= r.total
    ensures r.superviseurs <= r.total && r.actifs <= r.total
    ensures r.actifs == r.total <==> forall i :: 0 <= i < |users| ==> users[i].active
  {
    var inactive := Count(users, (u: User) => !u.active);
    var actifs := Count(users, (u: User) => u.active);
    FilterPartition(users, (u: User) => u.active, (u: User) => !u.active);
    CountIsFilterLength(users, (u: User) => u.active);
    CountIsFilterLength(users, (u: User) => !u.active);
    UserStats(|users|, CountRole(users, "usager"), CountRole(users, "agent"), CountRole(users, "admin"),
              CountRole(users, "superviseur"), actifs)
  }

  /**
   * When every stored role is one of the four known ones, the four per-role
   * counters add up to the total.
   */
  lemma {:induction false} RoleCountsPartition(users: seq<User>)
    requires forall i :: 0 <= i < |users| ==> !users[i].role.OtherRole?
    ensures CountRole(users, "usager") + CountRole(users, "agent") + CountRole(users, "admin")
            + CountRole(users, "superviseur") == |users|
  {
    if |users| > 0 {
      RoleCountsPartition(users[1..]);
      assert !users[0].role.OtherRole?;
    }
  }

  datatype AddUserError = EmailTaken | UsernameTaken | BadUnitId

  /** The unit field of the add-user form: empty means none, otherwise an integer id. */
  function ParseUnitField(field: Option<string>): (r: Result<Option<nat>, AddUserError>)
    ensures !TruthyStr(field) ==> r == Success(None)
    ensures r.Success? && r.value.Some? ==> TruthyStr(field) && ParseInt(field.value) == Some(r.value.value as int)
    ensures TruthyStr(field) && r.Failure? ==> ParseInt(field.value).None? || ParseInt(field.value).value < 0
  {
    if !TruthyStr(field) then Success(None)
    else match ParseInt(field.value)
      case Some(v) => if v >= 0 then Success(Some(v as nat)) else Failure(BadUnitId)
      case None => Failure(BadUnitId)
  }

  predicate EmailUsed(users: seq<User>, email: string) {
    exists i :: 0 <= i < |users| && users[i].email == email
  }

  predicate UsernameUsed(users: seq<User>, username: string) {
    exists i :: 0 <= i < |users| && users[i].username == username
  }

  /**
   * `superviseur_ajouter_utilisateur` (POST): refused when the e-mail, and then
   * when the username, is already used; otherwise one active user with a complete
   * profile is appended.
   */
  function AddUser(users: seq<User>, newId: nat, username: string, email: string, firstName: string,
                   lastName: string, role: string, phone: string, passwordHash: string,
                   unitField: Option<string>): (r: Result<seq<User>, AddUserError>)
    ensures r == Failure(EmailTaken) <==> EmailUsed(users, email)
    ensures r == Failure(UsernameTaken) <==> !EmailUsed(users, email) && UsernameUsed(users, username)
    ensures r == Failure(BadUnitId) <==>
      !EmailUsed(users, email) && !UsernameUsed(users, username) && ParseUnitField(unitField).Failure?
    ensures r.Success? ==>
      && |r.value| == |users| + 1 && r.value[..|users|] == users
      && var u := r.value[|users|];
      && u.id == newId && u.email == email && u.username == username
      && u.active && u.profileComplete && RoleName(u.role) == role
      && u.unitId == ParseUnitField(unitField).value
      && u.profile.phone == Some(phone)
  {
    if EmailUsed(users, email) then Failure(EmailTaken)
    else if UsernameUsed(users, username) then Failure(UsernameTaken)
    else match ParseUnitField(unitField)
      case Failure(e) => Failure(e)
      case Success(unitId) =>
        var u := User(newId, username, email, passwordHash, firstName, lastName, ParseRole(role), true,
                      unitId, true, EmptyProfile.(phone := Some(phone)));
        Success(users + [u])
  }

  /** A user added twice with the same e-mail is refused the second time. */
  lemma {:induction false} AddUserRefusesSameEmail(users: seq<User>, id1: nat, id2: nat, username: string,
                                                   other: string, email: string, firstName: string,
                                                   lastName: string, role: string, phone: string,
                                                   hash: string, unitField: Option<string>)
    requires AddUser(users, id1, username, email, firstName, lastName, role, phone, hash, unitField).Success?
    ensures var once := AddUser(users, id1, username, email, firstName, lastName, role, phone, hash, unitField).value;
      AddUser(once, id2, other, email, firstName, lastName, role, phone, hash, unitField) == Failure(EmailTaken)
  {
    var once := AddUser(users, id1, username, email, firstName, lastName, role, phone, hash, unitField).value;
    assert once[|users|].email == email;
    assert EmailUsed(once, email);
  }

  /**
   * The three-way activation rule: `activate` switches on, `deactivate` off,
   * anything else is refused (None) and changes nothing.
   */
  function Activation(action: Option<string>): (r: Option<bool>)
    ensures r == Some(true) <==> action == Some("activate")
    ensures r == Some(false) <==> action == Some("deactivate")
  {
    match action
    case Some("activate") => Some(true)
    case Some("deactivate") => Some(false)
    case _ => None
  }

  /** `superviseur_activer_utilisateur`: only the active flag changes. */
  function ActivateUser(u: User, action: Option<string>): (r: (User, bool))
    ensures r.1 <==> Activation(action).Some?
    ensures !r.1 ==> r.0 == u
    ensures r.1 ==> r.0 == u.(active := Activation(action).value)
  {
    match Activation(action)
    case None => (u, false)
    case Some(b) => (u.(active := b), true)
  }

  /** `superviseur_activer_unite`: only the active flag changes. */
  function ActivateUnit(unit: Unit, action: Option<string>): (r: (Unit, bool))
    ensures r.1 <==> Activation(action).Some?
    ensures !r.1 ==> r.0 == unit
    ensures r.1 ==> r.0 == unit.(active := Activation(action).value)
  {
    match Activation(action)
    case None => (unit, false)
    case Some(b) => (unit.(active := b), true)
  }

  /** Every configuration of the service switched off, the others untouched. */
  function SwitchOffEverywhere(configs: seq<UnitServiceConfig>, serviceId: nat): (r: seq<UnitServiceConfig>)
    ensures |r| == |configs|
    ensures forall i :: 0 <= i < |configs| ==>
      r[i] == if configs[i].serviceId == serviceId then configs[i].(active := false) else configs[i]
  {
    seq(|configs|, i requires 0 <= i < |configs| =>
      if configs[i].serviceId == serviceId then configs[i].(active := false) else configs[i])
  }

  /**
   * `superviseur_activer_service`: activating changes the service flag only and
   * does not switch any unit back on; deactivating also switches the service off
   * in every unit.
   */
  function ActivateService(s: Service, configs: seq<UnitServiceConfig>, action: Option<string>)
    : (r: (Service, seq<UnitServiceConfig>, bool))
    ensures r.2 <==> Activation(action).Some?
    ensures r.2 ==> r.0 == s.(active := Activation(action).value)
    ensures !r.2 ==> r.0 == s
    ensures action != Some("deactivate") ==> r.1 == configs
    ensures action == Some("deactivate") ==>
      && |r.1| == |configs|
      && (forall i :: 0 <= i < |configs| && configs[i].serviceId == s.id ==> !r.1[i].active)
      && (forall i :: 0 <= i < |configs| ==> r.1[i] == configs[i].(active := r.1[i].active))
      && (forall i :: 0 <= i < |configs| && configs[i].serviceId != s.id ==> r.1[i] == configs[i])
  {
    match Activation(action)
    case None => (s, configs, false)
    case Some(true) => (s.(active := true), configs, true)
    case Some(false) => (s.(active := false), SwitchOffEverywhere(configs, s.id), true)
  }

  /** Each activation action is idempotent on users, units and services. */
  lemma {:induction false} ActivationIdempotent(u: User, unit: Unit, s: Service,
                                                configs: seq<UnitServiceConfig>, action: Option<string>)
    ensures ActivateUser(ActivateUser(u, action).0, action) == ActivateUser(u, action)
    ensures ActivateUnit(ActivateUnit(unit, action).0, action) == ActivateUnit(unit, action)
    ensures var once := ActivateService(s, configs, action);
      ActivateService(once.0, once.1, action) == once
  {
    var once := ActivateService(s, configs, action);
    if action == Some("deactivate") {
      var twice := ActivateService(once.0, once.1, action);
      assert once.0.id == s.id;
      assert twice.1 == SwitchOffEverywhere(once.1, s.id);
      assert forall i :: 0 <= i < |once.1| ==> twice.1[i] == once.1[i];
      assert twice.1 == once.1;
    }
  }
}

=== FILE: text.dfy ===
/**
 * String utilities with the semantics of the Python and JavaScript built-ins
 * the portal relies on: strip/trim, ASCII case mapping, prefix/suffix tests,
 * substring search, character replacement, split/join and decimal rendering.
 */
module Text {
  import opened Wrappers

  /** Which language's notion of whitespace a strip/trim uses. */
  datatype SpaceKind = Python | JavaScript

  /** `str.isspace()` for Python, the WhiteSpace/LineTerminator set for JavaScript. */
  predicate IsSpace(k: SpaceKind, c: char) {
    || c == ' ' || c == '\t' || c == '\n' || c == '\r' || c == '\U{000B}' || c == '\U{000C}'
    || c == '\U{00A0}' || c == '\U{1680}' || ('\U{2000}' <= c <= '\U{200A}')
    || c == '\U{2028}' || c == '\U{2029}' || c == '\U{202F}' || c == '\U{205F}' || c == '\U{3000}'
    || (k == Python && ('\U{001C}' <= c <= '\U{001F}' || c == '\U{0085}'))
    || (k == JavaScript && c == '\U{FEFF}')
  }

  /** Every character is whitespace (the empty string included). */
  predicate Blank(k: SpaceKind, s: string) {
    forall i :: 0 <= i < |s| ==> IsSpace(k, s[i])
  }

  function TrimStart(k: SpaceKind, s: string): (r: string)
    ensures |r| <= |s| && r == s[|s| - |r|..]
    ensures r == "" || !IsSpace(k, r[0])
    ensures Blank(k, s[..|s| - |r|])
  {
    if |s| > 0 && IsSpace(k, s[0]) then
      var r := TrimStart(k, s[1..]);
      assert s[1..][..|s[1..]| - |r|] == s[1..|s| - |r|];
      r
    else s
  }

  function TrimEnd(k: SpaceKind, s: string): (r: string)
    ensures |r| <= |s| && r == s[..|r|]
    ensures r == "" || !IsSpace(k, r[|r| - 1])
    ensures Blank(k, s[|r|..])
  {
    if |s| > 0 && IsSpace(k, s[|s| - 1]) then
      var r := TrimEnd(k, s[..|s| - 1]);
      assert s[|r|..] == s[..|s| - 1][|r|..] + [s[|s| - 1]];
      r
    else s
  }

  /** Python's `s.strip()` / JavaScript's `s.trim()`. */
  function Strip(k: SpaceKind, s: string): (r: string)
    ensures |r| <= |s|
    ensures r == "" || (!IsSpace(k, r[0]) && !IsSpace(k, r[|r| - 1]))
    ensures r == "" <==> Blank(k, s)
  {
    var a := TrimStart(k, s);
    var r := TrimEnd(k, a);
    if r == "" then
      assert a[|r|..] == a;
      assert s == s[..|s| - |a|] + a;
      BlankConcat(k, s[..|s| - |a|], a);
      r
    else
      r
  }

  /** Stripping adds no character. */
  lemma StripKeepsOut(k: SpaceKind, s: string, c: char)
    requires c !in s
    ensures c !in Strip(k, s)
  {
    var a := TrimStart(k, s);
    assert a == s[|s| - |a|..];
    var r := TrimEnd(k, a);
    assert r == a[..|r|];
  }

  /** A string with no whitespace at either end is its own strip. */
  lemma StripClean(k: SpaceKind, s: string)
    requires |s| > 0 ==> !IsSpace(k, s[0]) && !IsSpace(k, s[|s| - 1])
    ensures Strip(k, s) == s
  {
    assert TrimStart(k, s) == s;
    assert TrimEnd(k, s) == s;
  }

  lemma BlankConcat(k: SpaceKind, a: string, b: string)
    requires Blank(k, a) && Blank(k, b)
    ensures Blank(k, a + b)
  {
    assert forall i :: |a| <= i < |a + b| ==> (a + b)[i] == b[i - |a|];
  }

  function LowerChar(c: char): char {
    if 'A' <= c <= 'Z' then (c as int + 32) as char else c
  }

  function UpperChar(c: char): char {
    if 'a' <= c <= 'z' then (c as int - 32) as char else c
  }

  /** `str.lower()` restricted to ASCII letters. */
  function Lower(s: string): (r: string)
    ensures |r| == |s| && forall i :: 0 <= i < |s| ==> r[i] == LowerChar(s[i])
  {
    seq(|s|, i requires 0 <= i < |s| => LowerChar(s[i]))
  }

  /** `str.upper()` restricted to ASCII letters. */
  function Upper(s: string): (r: string)
    ensures |r| == |s| && forall i :: 0 <= i < |s| ==> r[i] == UpperChar(s[i])
  {
    seq(|s|, i requires 0 <= i < |s| => UpperChar(s[i]))
  }

  predicate StartsWith(s: string, p: string) {
    |p| <= |s| && s[..|p|] == p
  }

  predicate EndsWith(s: string, p: string) {
    |p| <= |s| && s[|s| - |p|..] == p
  }

  /** Python's `p in s` for strings. */
  predicate Contains(s: string, p: string)
    decreases |s|
  {
    StartsWith(s, p) || (|s| > 0 && Contains(s[1..], p))
  }

  /** `p in s` with both sides lower-cased (ASCII letters only). */
  predicate ContainsCI(s: string, p: string) {
    Contains(Lower(s), Lower(p))
  }

  /** A text holds whatever is spliced into it. */
  lemma {:induction false} ContainsSpliced(a: string, p: string, b: string)
    ensures Contains(a + p + b, p)
    decreases |a|
  {
    if |a| == 0 {
      assert (a + p + b)[..|p|] == p;
    } else {
      ContainsSpliced(a[1..], p, b);
      assert (a + p + b)[1..] == a[1..] + p + b;
    }
  }

  /** Lower-casing distributes over concatenation. */
  lemma LowerConcat(a: string, b: string)
    ensures Lower(a + b) == Lower(a) + Lower(b)
  {
  }

  /** The first index of `c` in `s`. */
  function IndexOf(s: string, c: char): (r: Option<nat>)
    ensures r.None? <==> c !in s
    ensures r.Some? ==> r.value < |s| && s[r.value] == c && c !in s[..r.value]
  {
    if |s| == 0 then None
    else if s[0] == c then Some(0)
    else match IndexOf(s[1..], c)
      case None => None
      case Some(i) => assert s[..i + 1] == [s[0]] + s[1..][..i]; Some(i + 1)
  }

  /** The last index of `c` in `s`. */
  function LastIndexOf(s: string, c: char): (r: Option<nat>)
    ensures r.None? <==> c !in s
    ensures r.Some? ==> r.value < |s| && s[r.value] == c && c !in s[r.value + 1..]
  {
    if |s| == 0 then None
    else if s[|s| - 1] == c then Some(|s| - 1)
    else match LastIndexOf(s[..|s| - 1], c)
      case None => None
      case Some(i) => assert s[i + 1..] == s[..|s| - 1][i + 1..] + [s[|s| - 1]]; Some(i)
  }

  /** An occurrence with none after it is the last one. */
  lemma LastIndexOfAt(s: string, c: char, i: nat)
    requires i < |s| && s[i] == c && c !in s[i + 1..]
    ensures LastIndexOf(s, c) == Some(i)
  {
  }

  /** Python's `s.replace(c, r)` for a single-character pattern. */
  function ReplaceChar(s: string, c: char, r: string): (t: string)
    ensures c !in s ==> t == s
    ensures forall d :: d !in s && d !in r ==> d !in t
    ensures c !in r ==> c !in t
  {
    if |s| == 0 then ""
    else (if s[0] == c then r else [s[0]]) + ReplaceChar(s[1..], c, r)
  }

  /** Python's `s.split(sep)` for a single-character separator. */
  function Split(s: string, sep: char): (r: seq<string>)
    ensures |r| >= 1
    ensures forall i :: 0 <= i < |r| ==> sep !in r[i]
    decreases |s|
  {
    match IndexOf(s, sep)
    case None => [s]
    case Some(i) => [s[..i]] + Split(s[i + 1..], sep)
  }

  /** Python's `sep.join(parts)`. */
  function Join(parts: seq<string>, sep: char): string
    decreases |parts|
  {
    if |parts| == 0 then ""
    else if |parts| == 1 then parts[0]
    else parts[0] + [sep] + Join(parts[1..], sep)
  }

  /** Joining what a split produced gives back the original text. */
  lemma {:induction false} JoinSplit(s: string, sep: char)
    ensures Join(Split(s, sep), sep) == s
    decreases |s|
  {
    match IndexOf(s, sep)
    case None =>
    case Some(i) =>
      var rest := Split(s[i + 1..], sep);
      var parts := [s[..i]] + rest;
      assert Split(s, sep) == parts;
      assert parts[1..] == rest;
      assert Join(parts, sep) == s[..i] + [sep] + Join(rest, sep);
      JoinSplit(s[i + 1..], sep);
      assert s == s[..i] + [sep] + s[i + 1..];
  }

  /** Splitting a join of separator-free parts gives back the parts. */
  lemma {:induction false} SplitJoin(parts: seq<string>, sep: char)
    requires |parts| >= 1
    requires forall i :: 0 <= i < |parts| ==> sep !in parts[i]
    ensures Split(Join(parts, sep), sep) == parts
    decreases |parts|
  {
    if |parts| == 1 {
      assert IndexOf(parts[0], sep).None?;
    } else {
      var s := Join(parts, sep);
      var p := parts[0];
      var rest := Join(parts[1..], sep);
      assert s == p + [sep] + rest;
      assert s[|p|] == sep && s[..|p|] == p;
      IndexOfFirst(s, sep, |p|);
      assert s[|p| + 1..] == rest;
      assert Split(s, sep) == [p] + Split(rest, sep);
      SplitJoin(parts[1..], sep);
      assert parts == [p] + parts[1..];
    }
  }

  /** The first occurrence is the one `IndexOf` finds. */
  lemma IndexOfFirst(s: string, c: char, i: nat)
    requires i < |s| && s[i] == c && c !in s[..i]
    ensures IndexOf(s, c) == Some(i)
  {
    assert c in s by { assert s[i] == c; }
  }

  /** Python's `s.split(sep, 1)`: the text before the first separator and, if any, the rest. */
  function SplitOnce(s: string, sep: char): (r: (string, Option<string>))
    ensures r.1.None? ==> r.0 == s && sep !in s
    ensures r.1.Some? ==> s == r.0 + [sep] + r.1.value && sep !in r.0
  {
    match IndexOf(s, sep)
    case None => (s, None)
    case Some(i) => assert s == s[..i] + [sep] + s[i + 1..]; (s[..i], Some(s[i + 1..]))
  }

  predicate IsDigit(c: char) {
    '0' <= c <= '9'
  }

  predicate AllDigits(s: string) {
    forall i :: 0 <= i < |s| ==> IsDigit(s[i])
  }

  function DigitChar(d: nat): (c: char)
    requires d < 10
    ensures IsDigit(c) && c as int - '0' as int == d
  {
    ('0' as int + d) as char
  }

  /** The value of a string of decimal digits, most significant first. */
  function DigitsValue(s: string): nat
    requires AllDigits(s)
    decreases |s|
  {
    if |s| == 0 then 0
    else DigitsValue(s[..|s| - 1]) * 10 + (s[|s| - 1] as int - '0' as int)
  }

  /** Python's `str(n)` for a non-negative integer. */
  function NatToString(n: nat): (r: string)
    ensures |r| >= 1 && AllDigits(r)
    ensures DigitsValue(r) == n
    decreases n
  {
    if n < 10 then [DigitChar(n)]
    else
      var r := NatToString(n / 10) + [DigitChar(n % 10)];
      assert r[..|r| - 1] == NatToString(n / 10);
      r
  }

  /** A four-digit year renders as exactly four characters. */
  lemma {:induction false} FourDigitYear(n: nat)
    requires 1000 <= n <= 9999
    ensures |NatToString(n)| == 4
  {
    assert NatToString(n) == NatToString(n / 10) + [DigitChar(n % 10)];
    assert NatToString(n / 10) == NatToString(n / 100) + [DigitChar((n / 10) % 10)];
    assert NatToString(n / 100) == NatToString(n / 1000) + [DigitChar((n / 100) % 10)];
  }

  /**
   * Python's `int(s)` on a decimal literal: optional surrounding whitespace, an
   * optional sign and at least one digit; anything else raises, modelled as None.
   */
  function ParseInt(s: string): (r: Option<int>)
    ensures Blank(Python, s) ==> r.None?
  {
    var t := Strip(Python, s);
    if |t| >= 2 && (t[0] == '-' || t[0] == '+') && AllDigits(t[1..]) then
      var v: int := DigitsValue(t[1..]);
      Some(if t[0] == '-' then -v else v)
    else if |t| >= 1 && AllDigits(t) then Some(DigitsValue(t))
    else None
  }

  /** `int(str(n)) == n`: parsing reads back what rendering wrote. */
  lemma {:induction false} ParseRendered(n: nat)
    ensures ParseInt(NatToString(n)) == Some(n)
  {
    var s := NatToString(n);
    assert !IsSpace(Python, s[0]) && !IsSpace(Python, s[|s| - 1]);
    assert TrimStart(Python, s) == s;
    assert TrimEnd(Python, s) == s;
  }
}

=== FILE: unit_config.dfy ===
/**
 * An administrator's configuration of the global services for their own unit:
 * the service listing with its defaults, the configure upsert and the on/off
 * toggle. Configurations are rows of the (unit, service) table.
 */
module UnitConfig {
  import opened Wrappers
  import opened Text
  import opened Seqs
  import opened Domain
  import opened Access

  /** Does this configuration row belong to the (unit, service) pair? */
  predicate ForPair(c: UnitServiceConfig, unitId: nat, serviceId: nat) {
    c.unitId == unitId && c.serviceId == serviceId
  }

  /** The index of the configuration of a pair, if the unit configured the service. */
  function FindConfig(configs: seq<UnitServiceConfig>, unitId: nat, serviceId: nat): (r: Option<nat>)
    ensures r.None? <==> forall i :: 0 <= i < |configs| ==> !ForPair(configs[i], unitId, serviceId)
    ensures r.Some? ==> r.value < |configs| && ForPair(configs[r.value], unitId, serviceId)
  {
    FirstWhere(configs, (c: UnitServiceConfig) => ForPair(c, unitId, serviceId))
  }

  /** In a table with unique pairs, the row found is the only row of its pair. */
  lemma {:induction false} FoundConfigIsUnique(configs: seq<UnitServiceConfig>, unitId: nat, serviceId: nat, j: nat)
    requires UniquePairs(configs)
    requires j < |configs| && ForPair(configs[j], unitId, serviceId)
    ensures FindConfig(configs, unitId, serviceId) == Some(j)
  {
  }

  /** One line of the unit's service page. */
  datatype ServiceLine = ServiceLine(
    service: Service, configured: bool, fee: int, currency: string, active: bool,
    delay: Option<int>, notes: Option<string>)

  /** The line of one service: its configuration, or the catalogue defaults. */
  function Line(s: Service, configs: seq<UnitServiceConfig>, unitId: nat): (r: ServiceLine)
    ensures r.service == s
    ensures r.configured <==> FindConfig(configs, unitId, s.id).Some?
    ensures !r.configured ==> r == ServiceLine(s, false, s.baseFee, "USD", false, Some(s.delay), Some(""))
    ensures r.configured ==>
      var c := configs[FindConfig(configs, unitId, s.id).value];
      r.fee == c.fee && r.currency == c.currency && r.active == c.active
      && r.delay == c.customDelay && r.notes == c.notes
  {
    match FindConfig(configs, unitId, s.id)
    case None => ServiceLine(s, false, s.baseFee, "USD", false, Some(s.delay), Some(""))
    case Some(i) =>
      var c := configs[i];
      ServiceLine(s, true, c.fee, c.currency, c.active, c.customDelay, c.notes)
  }

  /**
   * `admin_unit_services`: one line per globally active service, in catalogue
   * order; inactive services are not listed, whatever the unit configured.
   */
  function UnitServices(catalogue: seq<Service>, configs: seq<UnitServiceConfig>, unitId: nat): (r: seq<ServiceLine>)
    ensures |r| == Count(catalogue, (s: Service) => s.active)
    ensures forall i :: 0 <= i < |r| ==> r[i].service.active && r[i].service in catalogue
    ensures forall i :: 0 <= i < |r| ==> r[i] == Line(r[i].service, configs, unitId)
    ensures forall s :: s in catalogue && s.active ==> exists i :: 0 <= i < |r| && r[i].service == s
  {
    var active := Filter(catalogue, (s: Service) => s.active);
    CountIsFilterLength(catalogue, (s: Service) => s.active);
    var r := seq(|active|, i requires 0 <= i < |active| => Line(active[i], configs, unitId));
    assert forall s :: s in catalogue && s.active ==> exists i :: 0 <= i < |r| && r[i].service == s by {
      forall s | s in catalogue && s.active ensures exists i :: 0 <= i < |r| && r[i].service == s {
        assert s in active;
        var i :| 0 <= i < |active| && active[i] == s;
        assert r[i].service == s;
      }
    }
    r
  }

  datatype ConfigError = ConfigDenied | BadFee | BadDelay

  /**
   * The custom delay field: absent or empty means no custom delay, anything else
   * must be an integer.
   */
  function ParseDelay(field: Option<string>): (r: Result<Option<int>, ConfigError>)
    ensures !TruthyStr(field) ==> r == Success(None)
    ensures TruthyStr(field) ==> (r.Success? <==> ParseInt(field.value).Some?)
    ensures r.Success? && r.value.Some? ==> TruthyStr(field) && ParseInt(field.value) == r.value
  {
    if !TruthyStr(field) then Success(None)
    else match ParseInt(field.value)
      case None => Failure(BadDelay)
      case Some(v) => Success(Some(v))
  }

  /** The settings a configure form carries. */
  datatype Settings = Settings(fee: int, currency: string, active: bool, delay: Option<int>, notes: string)

  /**
   * The configure form read as the handler reads it: the fee (in cents) defaults
   * to the base fee and must be a number `float()` accepts, the currency defaults
   * to `USD`, the notes to "", and the service is active only when the checkbox
   * sends `on`. The fee is read before the delay.
   */
  function ReadSettings(s: Service, fee: FeeField, form: map<string, string>): (r: Result<Settings, ConfigError>)
    ensures r == Failure(BadFee) <==> fee.FeeMalformed?
    ensures r == Failure(BadDelay) <==>
      !fee.FeeMalformed? && ParseDelay(FormGet(form, "delai_personnalise")).Failure?
    ensures r.Success? ==>
      && r.value.fee == (if fee.FeeNumber? then fee.cents else s.baseFee)
      && r.value.currency == FormGet(form, "devise").GetOr("USD")
      && (r.value.active <==> FormGet(form, "actif") == Some("on"))
      && r.value.delay == ParseDelay(FormGet(form, "delai_personnalise")).value
      && r.value.notes == FormGet(form, "notes_admin").GetOr("")
  {
    match fee.Read(s.baseFee)
    case None => Failure(BadFee)
    case Some(f) =>
      match ParseDelay(FormGet(form, "delai_personnalise"))
      case Failure(e) => Failure(e)
      case Success(d) =>
        Success(Settings(f, FormGet(form, "devise").GetOr("USD"),
                         FormGet(form, "actif") == Some("on"), d, FormGet(form, "notes_admin").GetOr("")))
  }

  /**
   * `admin_configure_service`: an upsert keyed by (the admin's unit, service).
   * An existing row keeps its position and its `configured_by`; otherwise one
   * row, configured by this admin, is appended.
   */
  function Configure(admin: User, configs: seq<UnitServiceConfig>, s: Service, fee: FeeField,
                     form: map<string, string>): (r: Result<seq<UnitServiceConfig>, ConfigError>)
    requires UniquePairs(configs)
    ensures r == Failure(ConfigDenied) <==> !Admits(AdminUnitArea, Some(admin))
    ensures r.Failure? && r.error != ConfigDenied <==>
      Admits(AdminUnitArea, Some(admin)) && ReadSettings(s, fee, form).Failure?
    ensures r.Failure? && r.error != ConfigDenied ==> r.error == ReadSettings(s, fee, form).error
    ensures r.Success? ==> UniquePairs(r.value)
    ensures r.Success? ==>
      var unitId := admin.unitId.value;
      var st := ReadSettings(s, fee, form).value;
      match FindConfig(configs, unitId, s.id)
      case Some(i) =>
        && |r.value| == |configs|
        && r.value[i] == configs[i].(fee := st.fee, currency := st.currency, active := st.active,
                                     customDelay := st.delay, notes := Some(st.notes))
        && forall j :: 0 <= j < |configs| && j != i ==> r.value[j] == configs[j]
      case None =>
        r.value == configs + [UnitServiceConfig(unitId, s.id, st.fee, st.currency, st.active,
                                                st.delay, Some(st.notes), admin.id)]
  {
    if !Admits(AdminUnitArea, Some(admin)) then Failure(ConfigDenied)
    else match ReadSettings(s, fee, form)
      case Failure(e) => Failure(e)
      case Success(st) =>
        var unitId := admin.unitId.value;
        match FindConfig(configs, unitId, s.id)
        case Some(i) =>
          var updated := configs[i := configs[i].(fee := st.fee, currency := st.currency, active := st.active,
                                                  customDelay := st.delay, notes := Some(st.notes))];
          assert forall j :: 0 <= j < |updated| ==>
            (updated[j].unitId, updated[j].serviceId) == (configs[j].unitId, configs[j].serviceId);
          Success(updated)
        case None =>
          Success(configs + [UnitServiceConfig(unitId, s.id, st.fee, st.currency, st.active,
                                               st.delay, Some(st.notes), admin.id)])
  }

  /**
   * Configuring the same service twice leaves a single row for the pair: the
   * second call updates the row the first one created, so the table does not grow
   * again and the row keeps its first configurer.
   */
  lemma {:induction false} ConfigureIsUpsert(admin: User, other: User, configs: seq<UnitServiceConfig>, s: Service,
                                             fee1: FeeField, form1: map<string, string>,
                                             fee2: FeeField, form2: map<string, string>)
    requires UniquePairs(configs)
    requires other.unitId == admin.unitId && Admits(AdminUnitArea, Some(other))
    requires Configure(admin, configs, s, fee1, form1).Success?
    requires Configure(other, Configure(admin, configs, s, fee1, form1).value, s, fee2, form2).Success?
    ensures var once := Configure(admin, configs, s, fee1, form1).value;
      var twice := Configure(other, once, s, fee2, form2).value;
      && FindConfig(once, admin.unitId.value, s.id).Some?
      && var i := FindConfig(once, admin.unitId.value, s.id).value;
      && |twice| == |once|
      && FindConfig(twice, admin.unitId.value, s.id) == Some(i)
      && twice[i].configuredBy == once[i].configuredBy
  {
    var once := Configure(admin, configs, s, fee1, form1).value;
    var unitId := admin.unitId.value;
    match FindConfig(configs, unitId, s.id)
    case Some(i) =>
      FoundConfigIsUnique(once, unitId, s.id, i);
    case None =>
      FoundConfigIsUnique(once, unitId, s.id, |configs|);
  }

  /**
   * After a configuration succeeds, the unit's service page lists the service,
   * when it is active in the catalogue, with exactly the settings just saved.
   */
  lemma {:induction false} ConfiguredServiceIsListed(admin: User, configs: seq<UnitServiceConfig>,
                                                     catalogue: seq<Service>, s: Service, fee: FeeField,
                                                     form: map<string, string>)
    requires UniquePairs(configs)
    requires Configure(admin, configs, s, fee, form).Success?
    requires s in catalogue && s.active
    ensures var st := ReadSettings(s, fee, form).value;
      var lines := UnitServices(catalogue, Configure(admin, configs, s, fee, form).value, admin.unitId.value);
      exists i :: 0 <= i < |lines| && lines[i].service == s && lines[i].configured
        && lines[i].fee == st.fee && lines[i].currency == st.currency && lines[i].active == st.active
        && lines[i].delay == st.delay && lines[i].notes == Some(st.notes)
  {
    var after := Configure(admin, configs, s, fee, form).value;
    var unitId := admin.unitId.value;
    var k := match FindConfig(configs, unitId, s.id) case Some(i) => i case None => |configs|;
    FoundConfigIsUnique(after, unitId, s.id, k);
    var lines := UnitServices(catalogue, after, unitId);
    var i :| 0 <= i < |lines| && lines[i].service == s;
    assert lines[i] == Line(s, after, unitId);
  }

  datatype ToggleOutcome = NotConfigured | Toggled(nowActive: bool)

  /** `admin_toggle_service`: flips the unit's row for the service, if there is one. */
  function ToggleConfig(configs: seq<UnitServiceConfig>, unitId: nat, serviceId: nat)
    : (r: (seq<UnitServiceConfig>, ToggleOutcome))
    ensures r.1 == NotConfigured <==> FindConfig(configs, unitId, serviceId).None?
    ensures r.1 == NotConfigured ==> r.0 == configs
    ensures r.1.Toggled? ==>
      var i := FindConfig(configs, unitId, serviceId).value;
      && r.0 == configs[i := configs[i].(active := !configs[i].active)]
      && r.1.nowActive == !configs[i].active
  {
    match FindConfig(configs, unitId, serviceId)
    case None => (configs, NotConfigured)
    case Some(i) => (configs[i := configs[i].(active := !configs[i].active)], Toggled(!configs[i].active))
  }

  /** Two toggles restore the table. */
  lemma {:induction false} ToggleTwiceRestores(configs: seq<UnitServiceConfig>, unitId: nat, serviceId: nat)
    ensures var once := ToggleConfig(configs, unitId, serviceId).0;
      ToggleConfig(once, unitId, serviceId).0 == configs
  {
    var once := ToggleConfig(configs, unitId, serviceId).0;
    match FindConfig(configs, unitId, serviceId)
    case None =>
    case Some(i) =>
      assert forall j :: 0 <= j < |once| ==> ForPair(once[j], unitId, serviceId) == ForPair(configs[j], unitId, serviceId);
      assert FindConfig(once, unitId, serviceId) == Some(i);
      assert once[i := once[i].(active := !once[i].active)] == configs;
  }
}

=== FILE: upload_limits.dfy ===
/**
 * The size limits the upload script enforces in the browser: on each change
 * of a file input, and over the whole form before it is submitted. Only the
 * first file of each input counts.
 */
module UploadLimits {
  import opened Wrappers
  import ClientForms

  const MaxFileSize := 25 * 1024 * 1024
  const MaxTotalSize := 100 * 1024 * 1024

  /** A file input: the sizes of the files it holds, in order. */
  type FileInput = seq<nat>

  /** `input.files[0]`, by its size. */
  function First(input: FileInput): (r: Option<nat>)
    ensures r.Some? <==> |input| > 0
    ensures r.Some? ==> r.value == input[0]
  {
    if |input| == 0 then None else Some(input[0])
  }

  /** The sum of the first files' sizes, the inputs without a file adding nothing. */
  function TotalFirst(inputs: seq<FileInput>): nat
    decreases |inputs|
  {
    if |inputs| == 0 then 0
    else TotalFirst(inputs[..|inputs| - 1]) + First(inputs[|inputs| - 1]).GetOr(0)
  }

  /** No input's first file is over the per-file limit. */
  predicate FirstFilesFit(inputs: seq<FileInput>) {
    forall i :: 0 <= i < |inputs| ==> First(inputs[i]).GetOr(0) <= MaxFileSize
  }

  datatype ChangeOutcome = NoFile | FileTooLarge | TotalTooLarge | FileAccepted(total: nat)

  /**
   * The `change` handler of input `k`: nothing without a file; the file's own
   * size is checked first, then the total over every input of the page; on
   * either failure the input is emptied.
   */
  function OnChange(inputs: seq<FileInput>, k: nat): (r: (ChangeOutcome, seq<FileInput>))
    requires k < |inputs|
    ensures r.0.NoFile? <==> |inputs[k]| == 0
    ensures r.0 == FileTooLarge <==> |inputs[k]| > 0 && inputs[k][0] > MaxFileSize
    ensures r.0 == TotalTooLarge <==>
      |inputs[k]| > 0 && inputs[k][0] <= MaxFileSize && TotalFirst(inputs) > MaxTotalSize
    ensures r.0.FileAccepted? ==> r.0.total == TotalFirst(inputs) <= MaxTotalSize
    ensures r.0 == FileTooLarge || r.0 == TotalTooLarge ==> r.1 == inputs[k := []]
    ensures !(r.0 == FileTooLarge || r.0 == TotalTooLarge) ==> r.1 == inputs
  {
    match First(inputs[k])
    case None => (NoFile, inputs)
    case Some(size) =>
      if size > MaxFileSize then (FileTooLarge, inputs[k := []])
      else
        var total := TotalFirst(inputs);
        if total > MaxTotalSize then (TotalTooLarge, inputs[k := []])
        else (FileAccepted(total), inputs)
  }

  /**
   * `validateFormBeforeSubmit`: the inputs in order, refusing at the first
   * first-file over the per-file limit, then refusing a total over the
   * overall limit.
   */
  method ValidateFormBeforeSubmit(inputs: seq<FileInput>) returns (ok: bool)
    ensures ok <==> FirstFilesFit(inputs) && TotalFirst(inputs) <= MaxTotalSize
  {
    var total := 0;
    var i := 0;
    while i < |inputs|
      invariant 0 <= i <= |inputs|
      invariant total == TotalFirst(inputs[..i])
      invariant FirstFilesFit(inputs[..i])
    {
      assert inputs[..i + 1][..i] == inputs[..i];
      if |inputs[i]| > 0 {
        var size := inputs[i][0];
        if size > MaxFileSize {
          assert !FirstFilesFit(inputs) by {
            assert First(inputs[i]).GetOr(0) > MaxFileSize;
          }
          return false;
        }
        total := total + size;
      }
      assert FirstFilesFit(inputs[..i + 1]) by {
        var pre := inputs[..i + 1];
        forall j | 0 <= j < |pre| ensures First(pre[j]).GetOr(0) <= MaxFileSize {
          if j < i {
            assert pre[j] == inputs[..i][j];
          }
        }
      }
      i := i + 1;
    }
    assert inputs[..i] == inputs;
    ok := total <= MaxTotalSize;
  }

  /** Both limits are inclusive: files of exactly 25 MiB filling exactly 100 MiB pass. */
  lemma LimitsAreInclusive()
    ensures OnChange([[MaxFileSize]], 0).0 == FileAccepted(MaxFileSize)
    ensures TotalFirst([[MaxFileSize], [MaxFileSize], [MaxFileSize], [MaxFileSize]]) == MaxTotalSize
    ensures FirstFilesFit([[MaxFileSize], [MaxFileSize], [MaxFileSize], [MaxFileSize]])
  {
    var one: seq<FileInput> := [[MaxFileSize]];
    var four: seq<FileInput> := one + one + one + one;
    assert one[..0] == [];
    assert TotalFirst(one) == MaxFileSize;
    assert four[..3] == one + one + one && four[..3][..2] == one + one && four[..3][..2][..1] == one;
    assert TotalFirst(one + one) == 2 * MaxFileSize;
    assert TotalFirst(one + one + one) == 3 * MaxFileSize;
    assert TotalFirst(four) == 4 * MaxFileSize;
    assert four == [[MaxFileSize], [MaxFileSize], [MaxFileSize], [MaxFileSize]];
  }

  /** Files after the first in an input are never counted. */
  lemma {:induction false} OnlyFirstFilesCount(inputs: seq<FileInput>, k: nat, extra: seq<nat>)
    requires k < |inputs| && |inputs[k]| > 0
    ensures TotalFirst(inputs[k := inputs[k] + extra]) == TotalFirst(inputs)
    ensures FirstFilesFit(inputs[k := inputs[k] + extra]) <==> FirstFilesFit(inputs)
    decreases |inputs|
  {
    var changed := inputs[k := inputs[k] + extra];
    assert First(changed[k]) == First(inputs[k]);
    if k < |inputs| - 1 {
      assert changed[..|changed| - 1] == inputs[..|inputs| - 1][k := inputs[k] + extra];
      OnlyFirstFilesCount(inputs[..|inputs| - 1], k, extra);
    } else {
      assert changed[..|changed| - 1] == inputs[..|inputs| - 1];
    }
    assert forall i :: 0 <= i < |inputs| ==> First(changed[i]) == First(inputs[i]);
  }

  /**
   * The page's other file check refuses at 16 MiB, so with both scripts on a
   * page a file between 16 MiB and 25 MiB passes this one and is refused by
   * that one.
   */
  lemma LimitsDisagree(f: ClientForms.SelectedFile)
    requires ClientForms.MaxSelectedFileSize < f.size <= MaxFileSize
    ensures OnChange([[f.size]], 0).0.FileAccepted?
    ensures ClientForms.CheckFile(f) == Some(ClientForms.TooLarge)
  {
    var one: seq<FileInput> := [[f.size]];
    assert one[..0] == [];
    assert TotalFirst(one) == f.size;
  }
}

=== FILE: workflow.dfy ===
/**
 * The application status workflow: submission by a citizen, an agent taking an
 * application and then processing it, and the generic status update open to any
 * staff member. Each step is a pure transition from (application, notifications)
 * to a new pair and an outcome; a refused step changes nothing.
 */
module Workflow {
  import opened Wrappers
  import opened Text
  import opened Seqs
  import opened Domain
  import opened Access
  import Notifications
  import BackendNotifications

  // ---------------------------------------------------------------- submission

  /** The eight citizen service forms. */
  datatype ServiceForm =
    | ConsularCard | CareAttestation | Legalizations | Passport
    | OtherDocuments | EmergencyPass | CivilStatus | PowerOfAttorney

  /** The `service_type` each form stores. */
  function ServiceCode(f: ServiceForm): string {
    match f
    case ConsularCard => "carte_consulaire"
    case CareAttestation => "attestation_prise_charge"
    case Legalizations => "legalisations"
    case Passport => "passeport"
    case OtherDocuments => "autres_documents"
    case EmergencyPass => "laissez_passer"
    case CivilStatus => "etat_civil"
    case PowerOfAttorney => "procuration"
  }

  const SubmittedComment := "Demande soumise par l'utilisateur"

  /**
   * A submission: a new application with a generated reference (year and random
   * digits are inputs), its uploaded documents, one initial history row with no
   * previous status and, for the consular card only, the new-application
   * notifications of the `backend` service. The handlers never set the unit.
   */
  function Submit(f: ServiceForm, citizen: User, appId: nat, year: nat, digits: string,
                  documents: seq<Document>, inbox: Inbox, users: seq<User>, now: int): (r: (Application, Inbox))
    requires |digits| == 6 && AllDigits(digits)
    requires inbox.Valid()
    ensures r.1.Valid()
    ensures r.0.status == (if f == EmergencyPass then Urgent else Soumise)
    ensures r.0.userId == citizen.id && r.0.id == appId && r.0.serviceType == ServiceCode(f)
    ensures r.0.processedBy.None? && r.0.rejectionReason.None? && r.0.documents == documents
    ensures |r.0.history| == 1 && r.0.history[0].oldStatus.None? && r.0.history[0].newStatus == r.0.status
    ensures r.0.history[0].changedBy == Some(citizen.id)
    ensures r.0.history[0].comment.Some? <==> f == ConsularCard
    ensures |r.0.reference| >= 6 && r.0.reference[|r.0.reference| - 6..] == digits
    ensures f != ConsularCard ==> r.1 == inbox
  {
    var code := ServiceCode(f);
    var status := if f == EmergencyPass then Urgent else Soumise;
    var comment := if f == ConsularCard then Some(SubmittedComment) else None;
    var reference := InitialReference(None, code, year, digits);
    var app := Application(appId, citizen.id, None, code, reference, status, None, None,
                           [StatusEntry(None, status, Some(citizen.id), comment)], documents);
    if f == ConsularCard then (app, BackendNotifications.NotifyNewApplication(inbox, users, app, citizen, now))
    else (app, inbox)
  }

  // ---------------------------------------------------------------- take

  datatype TakeOutcome = TakeDenied | TakeOtherUnit | TakeAlreadyTaken | Taken

  /** An unread `nouvelle_demande` notification of this agent about this application. */
  predicate PendingNotice(n: Notification, agentId: nat, appId: nat) {
    n.userId == agentId && n.kind == "nouvelle_demande" && n.referenceId == Some(appId) && !n.read
  }

  /** The notifications differ at most at index `i`, where the notice became read. */
  predicate MarkedOnlyAt(before: seq<Notification>, after: seq<Notification>, i: nat) {
    && |after| == |before| && i < |before|
    && after[i] == before[i].(read := true)
    && forall j :: 0 <= j < |before| && j != i ==> after[j] == before[j]
  }

  /**
   * An agent takes an application: refused outside the agent area, then for an
   * application of another unit, then for one not in `soumise`; otherwise it moves
   * to `en_traitement`, is assigned to the agent, gains one history row, and the
   * agent's first pending notice about it is marked read.
   */
  function Take(agent: User, app: Application, inbox: Inbox): (r: (Application, Inbox, TakeOutcome))
    requires inbox.Valid()
    ensures r.2 == TakeDenied <==> !Admits(AgentUnitArea, Some(agent))
    ensures r.2 == TakeOtherUnit <==> Admits(AgentUnitArea, Some(agent)) && app.unitId != agent.unitId
    ensures r.2 == Taken <==>
      Admits(AgentUnitArea, Some(agent)) && app.unitId == agent.unitId && app.status == Soumise
    ensures r.2 != Taken ==> r.0 == app && r.1 == inbox
    ensures r.2 == Taken ==>
      && r.0 == app.(status := EnTraitement, processedBy := Some(agent.id), history := r.0.history)
      && r.0.history == app.history + [StatusEntry(Some(Soumise), EnTraitement, Some(agent.id),
                                                   Some("Demande prise en charge par " + agent.FullName()))]
    ensures r.2 == Taken ==> r.1.Valid() && r.1.nextId == inbox.nextId
    ensures r.2 == Taken ==>
      if exists i :: 0 <= i < |inbox.items| && PendingNotice(inbox.items[i], agent.id, app.id)
      then exists i :: 0 <= i < |inbox.items| && PendingNotice(inbox.items[i], agent.id, app.id)
                       && MarkedOnlyAt(inbox.items, r.1.items, i)
      else r.1 == inbox
  {
    if !Admits(AgentUnitArea, Some(agent)) then (app, inbox, TakeDenied)
    else if app.unitId != agent.unitId then (app, inbox, TakeOtherUnit)
    else if app.status != Soumise then (app, inbox, TakeAlreadyTaken)
    else
      var entry := StatusEntry(Some(Soumise), EnTraitement, Some(agent.id),
                               Some("Demande prise en charge par " + agent.FullName()));
      var taken := app.(status := EnTraitement, processedBy := Some(agent.id), history := app.history + [entry]);
      match FirstWhere(inbox.items, (n: Notification) => PendingNotice(n, agent.id, app.id))
      case None => (taken, inbox, Taken)
      case Some(i) =>
        var marked := inbox.(items := inbox.items[i := inbox.items[i].(read := true)]);
        assert MarkedOnlyAt(inbox.items, marked.items, i);
        SameIdsKeepDistinct(inbox.items, marked.items);
        (taken, marked, Taken)
  }

  /**
   * Taking is one-shot: once taken, a second take of the result by any agent is
   * refused and changes nothing. An emergency-pass application, which starts in
   * `urgent`, is never taken.
   */
  lemma {:induction false} TakeIsOneShot(agent: User, other: User, app: Application, inbox: Inbox)
    requires inbox.Valid()
    ensures var r := Take(agent, app, inbox);
      r.2 == Taken ==> Take(other, r.0, r.1).2 != Taken && Take(other, r.0, r.1).0 == r.0
    ensures app.status == Urgent ==> Take(agent, app, inbox).2 != Taken
  {
  }

  // ---------------------------------------------------------------- process

  /** The status and audit label each processing action leads to. */
  function ActionEffect(action: Option<string>): Option<(Status, string)> {
    match action
    case Some("approve") => Some((Validee, "approve_application"))
    case Some("reject") => Some((Rejetee, "reject_application"))
    case Some("request_documents") => Some((DocumentsRequis, "request_documents"))
    case Some("ready_for_pickup") => Some((PretPourRetrait, "ready_for_pickup"))
    case Some("close") => Some((Cloture, "close_application"))
    case _ => None
  }

  datatype ProcessOutcome =
    | ProcessDenied | ProcessNotAssigned | MissingComment | InvalidAction
    | Processed(auditAction: string)

  /** The comment as the handler reads it: the field, or "" when absent, stripped. */
  function ProcessComment(commentField: Option<string>): string {
    Strip(Python, commentField.GetOr(""))
  }

  /** May this agent process this application at all? */
  predicate MayProcess(agent: User, app: Application) {
    app.unitId == agent.unitId && app.processedBy == Some(agent.id)
  }

  /**
   * The two `demande_traitee` notifications a processed application sends its
   * applicant: first the route's own "Statut mis à jour" text, then the
   * notification service's status-change text carrying the comment.
   */
  function ProcessNotices(inbox: Inbox, app: Application, target: Status, comment: string, now: int): (r: Inbox)
    requires inbox.Valid()
    ensures r.Valid() && |r.items| == |inbox.items| + 2 && r.items[..|inbox.items|] == inbox.items
    ensures r.items[|inbox.items|].message == "Statut mis à jour: " + StatusDisplay(target)
    ensures r.items[|inbox.items| + 1].message == Notifications.StatusChangeMessage(StatusCode(target), Some(comment))
    ensures forall k :: |inbox.items| <= k < |r.items| ==>
      && r.items[k].userId == app.userId && r.items[k].kind == "demande_traitee"
      && r.items[k].referenceId == Some(app.id) && r.items[k].title == "Demande " + app.reference
      && !r.items[k].read
  {
    var first := inbox.Add(app.userId, "demande_traitee", "Demande " + app.reference,
                           "Statut mis à jour: " + StatusDisplay(target), Some(app.id), now);
    var second := Notifications.NotifyStatusChange(first, app, StatusCode(target), Some(comment), now);
    assert second.items[..|inbox.items|] == first.items[..|inbox.items|];
    assert second.items[|inbox.items|] == first.items[|inbox.items|];
    second
  }

  /**
   * An agent processes an application they hold (POST). The comment is required
   * and checked before the action; a recognised action sets the new status (and,
   * for a rejection, the rejection reason), appends one history row and produces
   * the two notifications of `ProcessNotices`.
   */
  function Process(agent: User, app: Application, action: Option<string>, commentField: Option<string>,
                   inbox: Inbox, now: int): (r: (Application, Inbox, ProcessOutcome))
    requires inbox.Valid()
    ensures r.2 == ProcessDenied <==> !Admits(AgentUnitArea, Some(agent))
    ensures r.2 == ProcessNotAssigned <==> Admits(AgentUnitArea, Some(agent)) && !MayProcess(agent, app)
    ensures r.2 == MissingComment <==>
      Admits(AgentUnitArea, Some(agent)) && MayProcess(agent, app) && ProcessComment(commentField) == ""
    ensures r.2 == InvalidAction <==>
      Admits(AgentUnitArea, Some(agent)) && MayProcess(agent, app) && ProcessComment(commentField) != ""
      && ActionEffect(action).None?
    ensures !r.2.Processed? ==> r.0 == app && r.1 == inbox
    ensures r.2.Processed? ==>
      var target := ActionEffect(action).value.0;
      && r.2.auditAction == ActionEffect(action).value.1
      && r.0 == app.(status := target, rejectionReason := r.0.rejectionReason, history := r.0.history)
      && r.0.history == app.history + [StatusEntry(Some(app.status), target, Some(agent.id),
                                                   Some(ProcessComment(commentField)))]
      && r.0.rejectionReason == (if target == Rejetee then Some(ProcessComment(commentField))
                                 else app.rejectionReason)
      && r.1 == ProcessNotices(inbox, app, target, ProcessComment(commentField), now)
  {
    var comment := ProcessComment(commentField);
    if !Admits(AgentUnitArea, Some(agent)) then (app, inbox, ProcessDenied)
    else if !MayProcess(agent, app) then (app, inbox, ProcessNotAssigned)
    else if comment == "" then (app, inbox, MissingComment)
    else match ActionEffect(action)
      case None => (app, inbox, InvalidAction)
      case Some((target, audit)) =>
        var updated := app.(status := target,
                            rejectionReason := if target == Rejetee then Some(comment) else app.rejectionReason,
                            history := app.history + [StatusEntry(Some(app.status), target, Some(agent.id), Some(comment))]);
        (updated, ProcessNotices(inbox, app, target, comment, now), Processed(audit))
  }

  /**
   * The current status is never inspected: two applications that differ only in
   * status get the same outcome, and a closed or rejected application can be
   * processed again.
   */
  lemma {:induction false} ProcessIgnoresStatus(agent: User, app: Application, s: Status,
                                                action: Option<string>, commentField: Option<string>,
                                                inbox: Inbox, now: int)
    requires inbox.Valid()
    ensures Process(agent, app, action, commentField, inbox, now).2
         == Process(agent, app.(status := s), action, commentField, inbox, now).2
  {
  }

  /** An empty or blank comment is refused even when the action is not a known one. */
  lemma {:induction false} CommentCheckedBeforeAction(agent: User, app: Application, action: Option<string>,
                                                      inbox: Inbox, now: int)
    requires inbox.Valid()
    requires Admits(AgentUnitArea, Some(agent)) && MayProcess(agent, app)
    ensures Process(agent, app, action, Some(" \t\n"), inbox, now).2 == MissingComment
    ensures Process(agent, app, action, None, inbox, now).2 == MissingComment
  {
    assert Blank(Python, " \t\n");
    assert Blank(Python, "");
  }

  /**
   * Taking and then approving with any non-blank comment ends in `validee` with two
   * history rows added: the take, then the approval starting from `en_traitement`.
   */
  lemma {:induction false} TakeThenApprove(agent: User, app: Application, action: Option<string>,
                                           commentField: Option<string>, inbox: Inbox, now: int)
    requires inbox.Valid()
    requires Admits(AgentUnitArea, Some(agent)) && app.unitId == agent.unitId && app.status == Soumise
    requires action == Some("approve") && ProcessComment(commentField) != ""
    ensures var t := Take(agent, app, inbox);
      t.2 == Taken && t.1.Valid() &&
      var p := Process(agent, t.0, action, commentField, t.1, now);
      && p.2 == Processed("approve_application") && p.0.status == Validee
      && |p.0.history| == |app.history| + 2
      && p.0.history[|app.history|].newStatus == EnTraitement
      && p.0.history[|app.history| + 1].oldStatus == Some(EnTraitement)
  {
    var t := Take(agent, app, inbox);
    assert t.2 == Taken && t.1.Valid();
    var taking := StatusEntry(Some(Soumise), EnTraitement, Some(agent.id),
                              Some("Demande prise en charge par " + agent.FullName()));
    assert t.0.history == app.history + [taking];
    assert t.0.status == EnTraitement && MayProcess(agent, t.0);
    assert ActionEffect(action) == Some((Validee, "approve_application"));
    ProcessAppendsOneRow(agent, t.0, action, commentField, t.1, now);
    var p := Process(agent, t.0, action, commentField, t.1, now);
    assert |p.0.history| == |t.0.history| + 1;
    assert p.0.history[..|t.0.history|] == t.0.history;
    assert p.0.history[|app.history|] == p.0.history[..|t.0.history|][|app.history|] == taking;
  }

  /**
   * A recognised action with a non-blank comment on a held application sets the
   * action's status and appends exactly one history row starting from the old status.
   */
  lemma {:induction false} ProcessAppendsOneRow(agent: User, app: Application, action: Option<string>,
                                                commentField: Option<string>, inbox: Inbox, now: int)
    requires inbox.Valid()
    requires Admits(AgentUnitArea, Some(agent)) && MayProcess(agent, app)
    requires ProcessComment(commentField) != "" && ActionEffect(action).Some?
    ensures var p := Process(agent, app, action, commentField, inbox, now);
      && p.2 == Processed(ActionEffect(action).value.1) && p.0.status == ActionEffect(action).value.0
      && |p.0.history| == |app.history| + 1 && p.0.history[..|app.history|] == app.history
      && p.0.history[|app.history|].oldStatus == Some(app.status)
  {
    var p := Process(agent, app, action, commentField, inbox, now);
    var e := StatusEntry(Some(app.status), ActionEffect(action).value.0, Some(agent.id),
                         Some(ProcessComment(commentField)));
    assert p.0.history == app.history + [e];
    assert (app.history + [e])[|app.history|] == e;
    assert (app.history + [e])[..|app.history|] == app.history;
  }

  // ---------------------------------------------------------------- generic status update

  /** The choices of the status form. */
  const StatusChoices := ["soumise", "en_traitement", "validee", "rejetee"]

  /** The longest comment or rejection reason the form accepts. */
  const MaxFormText := 1000

  datatype UpdateOutcome = UpdateForbidden | FormRejected | StatusUpdated

  /** The status form validates: a listed status and texts within the length bound. */
  predicate StatusFormValid(statusField: string, comment: string, rejectionReason: string) {
    statusField in StatusChoices && |comment| <= MaxFormText && |rejectionReason| <= MaxFormText
  }

  /**
   * `update_application_status`, open to any staff role with no unit or
   * current-status check: the status and processor are set, the rejection reason is
   * overwritten only by a non-empty value, one history row is appended, and an
   * `official_document` is attached when the status becomes `validee` and PDF
   * generation (the oracle `pdfPath`) produced a file.
   */
  function UpdateStatus(current: User, app: Application, statusField: string, comment: string,
                        rejectionReason: string, pdfPath: Option<string>): (r: (Application, UpdateOutcome))
    ensures r.1 == UpdateForbidden <==> !current.IsAdmin()
    ensures r.1 == StatusUpdated <==> current.IsAdmin() && StatusFormValid(statusField, comment, rejectionReason)
    ensures r.1 != StatusUpdated ==> r.0 == app
    ensures r.1 == StatusUpdated ==>
      && StatusCode(r.0.status) == statusField && r.0.processedBy == Some(current.id)
      && r.0.history == app.history + [StatusEntry(Some(app.status), r.0.status, Some(current.id), Some(comment))]
      && r.0.rejectionReason == (if rejectionReason != "" then Some(rejectionReason) else app.rejectionReason)
      && r.0 == app.(status := r.0.status, processedBy := r.0.processedBy, rejectionReason := r.0.rejectionReason,
                     history := r.0.history, documents := r.0.documents)
    ensures r.1 == StatusUpdated ==>
      (|r.0.documents| == |app.documents| + 1 <==> statusField == "validee" && pdfPath.Some?)
    ensures r.1 == StatusUpdated ==>
      |r.0.documents| >= |app.documents| && r.0.documents[..|app.documents|] == app.documents
  {
    if !current.IsAdmin() then (app, UpdateForbidden)
    else if !StatusFormValid(statusField, comment, rejectionReason) then (app, FormRejected)
    else
      var s := ParseStatus(statusField);
      var docs := if statusField == "validee" && pdfPath.Some?
                  then app.documents + [Document(pdfPath.value, "official_document")]
                  else app.documents;
      (app.(status := s, processedBy := Some(current.id),
            rejectionReason := if rejectionReason != "" then Some(rejectionReason) else app.rejectionReason,
            history := app.history + [StatusEntry(Some(app.status), s, Some(current.id), Some(comment))],
            documents := docs),
       StatusUpdated)
  }

  /**
   * Any agent, of any unit, may move any application to any listed status, and a
   * failed PDF generation never blocks the change.
   */
  lemma {:induction false} AnyAgentMayUpdateAnyApplication(agent: User, app: Application, statusField: string)
    requires agent.role == Agent && statusField in StatusChoices
    ensures UpdateStatus(agent, app, statusField, "", "", None).1 == StatusUpdated
    ensures UpdateStatus(agent, app, statusField, "", "", None).0.documents == app.documents
  {
  }
}

=== FILE: wrappers.dfy ===
/** Option and Result, the failure-carrying datatypes used across the model. */
module Wrappers {

  /** A nullable value: the model's stand-in for Python's None. */
  datatype Option<+T> = None | Some(value: T) {
    /** The value, or `default` when absent (Python's `x if x is not None else default`, as in `d.get(k, default)`). */
    function GetOr(default: T): T {
      match this
      case Some(v) => v
      case None => default
    }
  }

  /** The outcome of an operation that can fail with an error value. */
  datatype Result<+R, +E> = Success(value: R) | Failure(error: E)
}
